=== FILE: README.md ===
# Seven Cake shop and DanhBa contact list, modelled in Dafny

This project models two pieces of a React Native code base.

The first is the cake shop's local store, `database/CakeDatabase.ts`, together with the screen handlers that drive it. The SQLite database becomes an immutable value `Db`:

- six tables (`categories`, `products`, `users`, `cart`, `orders`, `order_items`), each a sequence of rows in insertion order, which is also the order the model's reads list them in;
- the `sqlite_sequence` counters of the five `AUTOINCREMENT` tables.

Every exported accessor is a pure transition on that value. Every screen handler is a function from the store, the session (`Option<User>`), the form inputs and the answer to a confirmation dialog, to the new store and an outcome tag. The outcome tag stands for the alert or the navigation target.

The second is the stand-alone contact list `components/buoi_10/DanhBa.tsx`:

- a name/phone validator with an ordered error precedence;
- add, replace and delete on a list;
- a case-insensitive name search.

Modules, one per file:

- Shared pieces:
  - `Wrappers`: `Option`.
  - `Seqs`: `Filter`, which is SQL `SELECT … WHERE` and `DELETE … WHERE`; `MapWhere`, which is `UPDATE … WHERE`; `FindFirst`, which is `Array.find`; subsequences.
  - `Text`: the ECMAScript `trim`, `\s`, `toLowerCase` on ASCII, `replace(/,/g, '')`, `includes` and `replace(/\D/g, '')`.
  - `JsParseInt`: `parseInt(s, 10)` and `parseInt(s)` as section 19.2.5 of ECMA-262 defines them, with `None` for NaN.
- The store:
  - `CakeSchema`: rows, the store, keys and the well-formedness invariant.
  - `CakeSeed`: `initDatabase`.
  - `CakeCatalog`: category, product and user CRUD.
  - `CakeCart`: `parsePrice`, the cart writes, `addToCart` and the cart join.
  - `CakeOrders`: `checkout`, `checkoutOrder` and `updateOrderStatus`.
- The screens: `Ui`, `CartScreen`, `ProductDetailsScreen`, `CheckoutScreen`, `OrderManagementScreen`, `HomeScreen`, `ProductsByCategoryScreen`, `LoginScreen`, `SignupScreen`, `ProfileScreen`, `UserManagementScreen`, `CategoryManagementScreen`, `ProductForm`.
- The contact list: `DanhBa`.

The store invariant `WellFormed` says:

- every table's ids are unique;
- every `AUTOINCREMENT` table's ids are at most its sequence value;
- usernames are unique.

Every write is proved to preserve it.

Where the code and its documentation differ, the model follows the code:

- The seed prices are written `'25.000'`, `'15.000'`, and so on. `parsePrice` removes only commas before `parseInt`, which stops at the dot, so they read as 25 and 15. Two Vanilla Puddings and one Red Velvet Cupcake therefore total 65, not 65000 (`CakeOrders.SeedPricesTotal`).
- The `cart` table has no `UNIQUE (userId, productId)`. The `ON CONFLICT` upsert of `addToCart` therefore always fails, and the read-then-write fallback is what runs. Nothing makes cart lines unique per pair: the model keeps every row and reads the first one, as the `SELECT` does.

## Model

| member | source | states |
|---|---|---|
| CakeSchema.NextKey | database/CakeDatabase.ts:82-82 | the id an `AUTOINCREMENT` insert chooses is above the table's sequence value and above every id in the table |
| CakeSchema.MaxKey | database/CakeDatabase.ts:78-78 | the largest id in a table is an upper bound of all ids and is the id of some row |
| CakeSchema.EmptyDbWellFormed | database/CakeDatabase.ts:76-127 | the freshly created, empty schema satisfies the store invariant |
| CakeSchema.AppendFreshKey | database/CakeDatabase.ts:82-82 | appending a row whose id exceeds the table's bound keeps ids unique and bounded by the new id |
| CakeSchema.FilterKeepsKeys | database/CakeDatabase.ts:190-190 | a `DELETE … WHERE` keeps ids unique and within their bound |
| CakeSchema.MapWhereKeepsKeys | database/CakeDatabase.ts:221-221 | an `UPDATE … WHERE` that does not write the id keeps ids unique and within their bound |
| CakeSchema.DeleteUniqueKey | database/CakeDatabase.ts:234-234 | `DELETE … WHERE id = ?` on unique ids removes exactly one row when the id is present and none otherwise |
| CakeSeed.InsertOrIgnore | database/CakeDatabase.ts:131-134 | `INSERT OR IGNORE` leaves the table as it was when a row clashes with the new one, and appends the row otherwise |
| CakeSeed.SeedTable | database/CakeDatabase.ts:130-149 | running the seed inserts in order never removes or changes an existing row and never lowers the sequence value |
| CakeSeed.StaysBlocked | database/CakeDatabase.ts:132-132 | a seed row that clashes with a table still clashes once more rows have been added |
| CakeSeed.SeedTableBlocksAll | database/CakeDatabase.ts:130-135 | after seeding, every seed row clashes with some row of the table |
| CakeSeed.SeedTableAllBlocked | database/CakeDatabase.ts:130-135 | seeding a table in which every seed row already clashes changes nothing |
| CakeSeed.SeedTableIdempotent | database/CakeDatabase.ts:130-149 | seeding a table twice gives the same table as seeding it once |
| CakeSeed.SeedTableKeepsKeys | database/CakeDatabase.ts:130-149 | seeding keeps ids unique and within the table's sequence value |
| CakeSeed.InitDatabase | database/CakeDatabase.ts:73-153 | `initDatabase` touches neither carts nor orders, and keeps every existing category, product and user row in place |
| CakeSeed.UserClash | database/CakeDatabase.ts:89-93 | a seed user is blocked by a stored row with the same id (PRIMARY KEY) or the same username (UNIQUE), and a row that differs in both does not block it |
| CakeSeed.InitDatabaseIdempotent | database/CakeDatabase.ts:130-149 | running `initDatabase` twice gives the same store as running it once |
| CakeSeed.InitDatabaseHasSeedIds | database/CakeDatabase.ts:54-66 | after `initDatabase` every seed category id and every seed product id is present |
| CakeSeed.InitDatabaseKeepsExisting | database/CakeDatabase.ts:137-142 | a product row that existed before seeding is unchanged at its position, even if it carries a seed id |
| CakeSeed.SeedEmptyCategories | database/CakeDatabase.ts:54-59 | seeding an empty categories table yields exactly the four seed categories |
| CakeSeed.SeedEmptyProducts | database/CakeDatabase.ts:61-66 | seeding an empty products table yields the four seed products, with sequence value 4 |
| CakeSeed.SeedEmptyUsers | database/CakeDatabase.ts:67-70 | seeding an empty users table yields the two seed users, with sequence value 2 |
| CakeSeed.InitEmptyDatabase | database/CakeDatabase.ts:54-70 | on an empty store `initDatabase` produces exactly the seed categories, products and users |
| CakeSeed.InitDatabasePreservesWellFormed | database/CakeDatabase.ts:130-149 | seeding preserves the store invariant |
| CakeSeed.SeedKeepsUniqueUsernames | database/CakeDatabase.ts:144-149 | because the seed insert is ignored on a clashing username, usernames stay unique |
| CakeCatalog.AddCategory | database/CakeDatabase.ts:163-173 | one category with the given name is appended under an id not yet used, and nothing else changes |
| CakeCatalog.UpdateCategory | database/CakeDatabase.ts:175-185 | exactly the rows with that id are renamed, and every other row and table is unchanged |
| CakeCatalog.DeleteCategory | database/CakeDatabase.ts:187-197 | the categories left are exactly the old ones whose id differs, in their old order, and nothing else changes |
| CakeCatalog.AddProduct | database/CakeDatabase.ts:205-216 | the product is appended under a fresh id above the sequence value, whatever id it carried |
| CakeCatalog.UpdateProduct | database/CakeDatabase.ts:218-229 | all four fields of the products with that id are overwritten, and every other row and table is unchanged |
| CakeCatalog.DeleteProduct | database/CakeDatabase.ts:231-240 | the products left are exactly the old ones whose id differs, in their old order, and nothing else changes |
| CakeCatalog.GetUserByUsername | database/CakeDatabase.ts:243-246 | a user is found exactly when the username is taken, and the one found has that username |
| CakeCatalog.GetUserByCredentials | database/CakeDatabase.ts:305-317 | a user is found exactly when some row has both the username and the password, and the one found has both |
| CakeCatalog.GetUserById | database/CakeDatabase.ts:320-332 | a user is found exactly when a row has that id, and the one found has that id |
| CakeCatalog.AddUser | database/CakeDatabase.ts:250-263 | the insert succeeds exactly when the username is free; it then appends one user under a fresh id, and otherwise the store is unchanged |
| CakeCatalog.UpdateUser | database/CakeDatabase.ts:266-278 | the update fails, leaving the store unchanged, exactly when another row already has the new username; otherwise only the rows with that id are rewritten |
| CakeCatalog.DeleteUser | database/CakeDatabase.ts:281-290 | the users left are exactly the old ones whose id differs, in their old order, and nothing else changes |
| CakeCatalog.CategoryWritesPreserveWellFormed | database/CakeDatabase.ts:163-197 | adding, renaming and deleting categories preserve the store invariant |
| CakeCatalog.ProductWritesPreserveWellFormed | database/CakeDatabase.ts:205-240 | adding, updating and deleting products preserve the store invariant |
| CakeCatalog.AddUserPreservesWellFormed | database/CakeDatabase.ts:250-263 | adding a user preserves the store invariant, unique usernames included |
| CakeCatalog.UpdateUserPreservesWellFormed | database/CakeDatabase.ts:266-278 | updating a user preserves the store invariant, unique usernames included |
| CakeCatalog.DeleteUserPreservesWellFormed | database/CakeDatabase.ts:281-290 | deleting a user preserves the store invariant |
| CakeCart.ParsePrice | database/CakeDatabase.ts:344-352 | a price text with no minus sign never parses to a negative number |
| CakeCart.ParsePriceRoundTrip | database/CakeDatabase.ts:344-352 | a price written as a plain decimal numeral parses back to its value |
| CakeCart.RemoveCommasAfterDigits | database/CakeDatabase.ts:348-348 | removing commas leaves a digit run and the dot after it in place |
| CakeCart.ParsePriceStopsAtDot | database/CakeDatabase.ts:348-349 | a price of the form digits, dot, anything parses to the value of the digits before the dot |
| CakeCart.RemoveCommasJoins | database/CakeDatabase.ts:348-348 | two digit runs joined by a comma become one digit run |
| CakeCart.ParsePriceCommaExample | database/CakeDatabase.ts:344-352 | `'25,000'` parses to 25000 |
| CakeCart.ParsePriceDotExample | database/CakeDatabase.ts:344-352 | `'25.000'` parses to 25 |
| CakeCart.ParsePriceTextExample | database/CakeDatabase.ts:349-349 | `'abc'` is NaN for `parseInt` and so parses to 0 |
| CakeCart.UpdateCartQuantity | database/CakeDatabase.ts:417-420 | only the cart rows with that id get the new quantity, whatever its value; every other row and table is unchanged |
| CakeCart.RemoveCartItem | database/CakeDatabase.ts:423-431 | the cart rows left are exactly the old ones whose id differs, in their old order; every other table is unchanged |
| CakeCart.AddToCart | database/CakeDatabase.ts:354-383 | `addToCart` writes only the cart |
| CakeCart.AddToCartTimes | database/CakeDatabase.ts:354-383 | repeated `addToCart` calls write only the cart |
| CakeCart.FindProduct | database/CakeDatabase.ts:391-391 | a product is found exactly when one with that id exists, and the one found has that id |
| CakeCart.JoinProducts | database/CakeDatabase.ts:388-393 | the join has at most one line per cart row, and is empty exactly when no cart row names an existing product |
| CakeCart.JoinedLinesComeFromRows | database/CakeDatabase.ts:388-401 | every joined line is some cart row combined with the product row whose id that cart row names |
| CakeCart.NamesProduct | database/CakeDatabase.ts:391-391 | a cart row is selected exactly when a product with its `productId` exists |
| CakeCart.JoinProductsIsNamingRows | database/CakeDatabase.ts:388-401 | the join has exactly one line per cart row that names an existing product, in the rows' order, each that row combined with its product |
| CakeCart.JoinProductsComplete | database/CakeDatabase.ts:388-401 | every cart row that names an existing product contributes its joined line |
| CakeCart.FetchCart | database/CakeDatabase.ts:386-402 | the user's cart has at most one line per cart row of that user |
| CakeCart.FetchCartComplete | database/CakeDatabase.ts:386-402 | each cart row of the user whose product exists appears, joined with that product, in the user's cart |
| CakeCart.FetchCartSound | database/CakeDatabase.ts:386-402 | every line of the user's cart is one of that user's cart rows combined with the product it names |
| CakeCart.FetchCartItems | database/CakeDatabase.ts:404-414 | without a session the cart is empty; with one it is `fetchCart` of the session user |
| CakeCart.LinesTotal | database/CakeDatabase.ts:445-448 | the total of no lines is 0 |
| CakeCart.LinesTotalAppend | database/CakeDatabase.ts:445-448 | the total of two runs of lines is the sum of their totals |
| CakeCart.UnknownCartIdIsNoOp | database/CakeDatabase.ts:417-426 | updating or deleting an unknown cart id leaves the store unchanged |
| CakeCart.RemoveCartItemRemovesOne | database/CakeDatabase.ts:423-426 | on a well-formed store, deleting an existing cart id removes exactly one row, and no row with that id remains |
| CakeCart.UpdateCartQuantityWritesAnyValue | database/CakeDatabase.ts:417-420 | the quantity written is stored as is, zero and negative values included |
| CakeCart.CartWritesPreserveWellFormed | database/CakeDatabase.ts:417-431 | quantity updates and deletions preserve the store invariant |
| CakeCart.AddToCartPreservesWellFormed | database/CakeDatabase.ts:363-378 | `addToCart` preserves the store invariant |
| CakeCart.PairQuantityIsFirstMatch | database/CakeDatabase.ts:364-371 | the quantity the fallback reads and increments, `exists[0].quantity`, is 0 when the pair has no row and otherwise the quantity of the pair's first row in storage order |
| CakeCart.AddToCartSamePair | database/CakeDatabase.ts:363-378 | one call adds one to the (user, product) quantity that the `SELECT` reads, and creates a row only when there was none |
| CakeCart.AddToCartOtherPair | database/CakeDatabase.ts:363-378 | one call leaves the rows of every other (user, product) pair exactly as they were |
| CakeCart.AddToCartTimesFromNothing | database/CakeDatabase.ts:354-383 | starting with no row for the pair, n ≥ 1 calls leave exactly one row for it, with quantity n |
| CakeCart.AddToCartTimesPreservesWellFormed | database/CakeDatabase.ts:354-383 | any number of calls preserves the store invariant |
| CakeCart.AddToCartKeepsCartKeys | database/CakeDatabase.ts:369-378 | both branches of the fallback keep cart ids unique and within the cart's sequence value |
| CakeCart.AddToCartTimesSamePair | database/CakeDatabase.ts:354-383 | n calls add exactly n to the pair's quantity, and create a row only when there was none and n > 0 |
| CakeCart.AddToCartTimesQuantity | database/CakeDatabase.ts:369-372 | n calls add exactly n to the pair's quantity |
| CakeCart.AddToCartTimesRowCount | database/CakeDatabase.ts:373-377 | n calls create at most one row for the pair, and only when it had none |
| CakeCart.AddToCartTimesOtherPair | database/CakeDatabase.ts:354-383 | n calls leave the rows of every other pair exactly as they were |
| CakeCart.AddToCartKeepsQuantitiesPositive | database/CakeDatabase.ts:369-377 | if every cart quantity is at least 1, it still is after a call |
| CakeOrders.InsertOrderItem | database/CakeDatabase.ts:461-465 | one order line is appended that copies the order id, product id, quantity and price string of the cart line |
| CakeOrders.InsertOrderItems | database/CakeDatabase.ts:460-466 | one order line per cart line is appended, in order, each a snapshot of its cart line; the existing lines stay as a prefix |
| CakeOrders.NewOrder | database/CakeDatabase.ts:445-456 | the new order row has an id above the orders' sequence value that no order has, belongs to the user, is `Pending`, carries the date, phone and payment method, and its total is the sum over the lines |
| CakeOrders.InsertOrder | database/CakeDatabase.ts:452-456 | exactly one order row is appended, and the other tables are unchanged |
| CakeOrders.OtherCartsKept | database/CakeDatabase.ts:468-468 | deleting one user's cart rows leaves every other user's cart rows as they were, in order |
| CakeOrders.ClearCart | database/CakeDatabase.ts:468-468 | no cart row of that user remains, every other user's cart rows are as they were, and the other tables are unchanged |
| CakeOrders.PlaceOrder | database/CakeDatabase.ts:452-468 | the three writes of a checkout together append the order, append one snapshot line per cart line, leave the user with no cart rows and leave every other user's cart rows as they were |
| CakeOrders.Checkout | database/CakeDatabase.ts:434-475 | checkout succeeds exactly when the user has a cart line that joins to an existing product; it then appends the new order and empties that user's cart, and otherwise the store is unchanged |
| CakeOrders.CheckoutOrder | database/CakeDatabase.ts:478-497 | without a session nothing is written and the result is false; with one it is `checkout` for the session user |
| CakeOrders.UpdateOrderStatus | database/CakeDatabase.ts:589-595 | only the orders with that id get the new status, whatever the old status was; every other field, row and table is unchanged |
| CakeOrders.CheckoutWritesLines | database/CakeDatabase.ts:458-466 | a successful checkout appends exactly one snapshot line per joined cart line, under the new order's id |
| CakeOrders.CheckoutOrderRow | database/CakeDatabase.ts:445-456 | the new order is `Pending`, belongs to the user, carries the phone, the payment method and the sum over joined lines of the parsed price times the quantity, and has a fresh id |
| CakeOrders.CheckoutClearsOnlyThatCart | database/CakeDatabase.ts:468-468 | after checkout the user's cart is empty and every other user's cart is exactly as before |
| CakeOrders.CheckoutWithoutLinesIsNoOp | database/CakeDatabase.ts:441-443 | when none of the user's cart rows names an existing product, checkout returns false and changes nothing, even though such rows exist |
| CakeOrders.InsertOrderItemsKeepsKeys | database/CakeDatabase.ts:460-466 | inserting order lines keeps their ids unique and within the sequence value |
| CakeOrders.CheckoutPreservesWellFormed | database/CakeDatabase.ts:434-475 | checkout preserves the store invariant |
| CakeOrders.CheckoutOrderNeedsSession | database/CakeDatabase.ts:480-484 | without a logged-in user `checkoutOrder` returns false and leaves the store unchanged |
| CakeOrders.LinesTotalOfTwo | database/CakeDatabase.ts:445-448 | the stored total of two lines is the sum of each parsed price times its quantity |
| CakeOrders.ParsePriceFifteen | database/CakeDatabase.ts:344-352 | the seed price `'15.000'` parses to 15 |
| CakeOrders.SeedPricesTotal | database/CakeDatabase.ts:445-448 | two lines priced `'25.000'` × 2 and `'15.000'` × 1 total 65 |
| CakeOrders.PriceSnapshotSurvivesProductEdit | database/CakeDatabase.ts:218-229 | editing a product after checkout changes neither the orders nor the price string copied into the order lines |
| CakeOrders.UpdateOrderStatusIdempotent | database/CakeDatabase.ts:589-595 | writing the same status twice is the same as writing it once |
| CakeOrders.UpdateOrderStatusLastWriteWins | database/CakeDatabase.ts:589-595 | with no guard on transitions, the second of two status writes is the one stored |
| CakeOrders.UpdateOrderStatusUnknownId | database/CakeDatabase.ts:589-595 | a status write to an unknown order id changes nothing |
| CakeOrders.UpdateOrderStatusPreservesWellFormed | database/CakeDatabase.ts:589-595 | status writes preserve the store invariant |
| CartScreen.LinePrice | components/FinalAppProject/User/CartScreen.tsx:34-34 | without a `0x` prefix the screen's price is the one `parsePrice` gives, and a price with no minus sign is never negative |
| CartScreen.CalculateTotal | components/FinalAppProject/User/CartScreen.tsx:32-38 | the screen total of an empty cart is 0 |
| CartScreen.CalculateTotalAgreesWithCheckout | components/FinalAppProject/User/CartScreen.tsx:32-38 | when no price starts with `0x`, the screen total equals the total `checkout` stores for the same lines |
| CartScreen.HexPriceDisagrees | components/FinalAppProject/User/CartScreen.tsx:34-34 | one line priced `'0x10'` shows a total of 16 on the screen, while `checkout` stores 0 |
| CartScreen.OneLineTotals | components/FinalAppProject/User/CartScreen.tsx:33-36 | for one line, both totals are that line's parsed price times its quantity |
| CartScreen.LoadCart | components/FinalAppProject/User/CartScreen.tsx:23-28 | the loaded cart is the session user's joined cart, or empty with no session; the header receives the number of lines and the total is `calculateTotal` of them |
| CartScreen.HeaderCountsLines | components/FinalAppProject/User/CartScreen.tsx:27-27 | once some line has a quantity of 2 or more, the header count is strictly smaller than the number of units |
| CartScreen.LinesAtMostUnits | components/FinalAppProject/User/CartScreen.tsx:27-27 | with every quantity at least 1, the number of lines is at most the number of units |
| CartScreen.ButtonQuantity | components/FinalAppProject/User/CartScreen.tsx:92-101 | "+" passes the quantity plus one and "−" the quantity minus one, which stays positive above 1 and is ≤ 0 at 1; the trash button passes 0 whatever the quantity |
| CartScreen.HandleQuantityChange | components/FinalAppProject/User/CartScreen.tsx:40-61 | a value ≤ 0 deletes the line only after "Delete" and changes nothing after "Cancel"; a positive value sets only that line's quantity |
| CartScreen.QuantityChangeKeepsLinesPositive | components/FinalAppProject/User/CartScreen.tsx:40-61 | if every line's quantity is at least 1, it still is after any quantity change |
| CartScreen.ButtonStepsOneLine | components/FinalAppProject/User/CartScreen.tsx:92-98 | "+" or "−" on a line with quantity above 1 moves that line's quantity by exactly one and leaves every other line as it was |
| CartScreen.TrashRemovesLine | components/FinalAppProject/User/CartScreen.tsx:40-101 | the trash button followed by "Delete" removes the line whatever its quantity: exactly one row goes, and the rows left are exactly those with another id |
| CartScreen.TrashNeedsConfirmation | components/FinalAppProject/User/CartScreen.tsx:101-101 | the trash button followed by "Cancel" leaves the store unchanged |
| ProductDetailsScreen.StepDown | components/FinalAppProject/User/ProductDetailsScreen.tsx:84-84 | "−" lowers the selected quantity by one but never below 1 |
| ProductDetailsScreen.StepUp | components/FinalAppProject/User/ProductDetailsScreen.tsx:93-93 | "+" raises the selected quantity by exactly one |
| ProductDetailsScreen.SteppedStaysInRange | components/FinalAppProject/User/ProductDetailsScreen.tsx:27-27 | from the initial quantity, any sequence of presses keeps the quantity between 1 and the start plus the number of presses |
| ProductDetailsScreen.LoopCount | components/FinalAppProject/User/ProductDetailsScreen.tsx:56-58 | the loop runs the selected quantity times, and not at all for a quantity ≤ 0 |
| ProductDetailsScreen.HandleAddToCart | components/FinalAppProject/User/ProductDetailsScreen.tsx:47-61 | with no session the store is unchanged and the user is told to log in; otherwise only the cart is written |
| ProductDetailsScreen.AddChosenQuantity | components/FinalAppProject/User/ProductDetailsScreen.tsx:54-58 | with a session, the cart quantity of (user, product) grows by exactly the selected quantity, in a single row when there was none |
| ProductDetailsScreen.AddChosenQuantityLeavesOthers | components/FinalAppProject/User/ProductDetailsScreen.tsx:54-58 | adding leaves the rows of every other (user, product) pair unchanged |
| ProductDetailsScreen.SelectCategory | components/FinalAppProject/User/ProductDetailsScreen.tsx:37-45 | it navigates exactly when the id is among the loaded categories, and then to that category's id and name |
| CheckoutScreen.PaymentLabel | components/FinalAppProject/User/CheckoutScreen.tsx:19-19 | the payment method is always `'COD'` or `'Banking'`, and `'COD'` exactly for cash on delivery |
| CheckoutScreen.HandleCheckout | components/FinalAppProject/User/CheckoutScreen.tsx:21-37 | an empty address or phone stops with no store change; otherwise the store is what `checkoutOrder` leaves, and the success screen, carrying the cart and total passed in, is reached exactly when it returns true |
| CheckoutScreen.AddressNotPersisted | components/FinalAppProject/User/CheckoutScreen.tsx:27-27 | two non-empty addresses lead to the same store, so the address is never saved |
| CheckoutScreen.PlacedOrderCarriesForm | components/FinalAppProject/User/CheckoutScreen.tsx:21-36 | with both fields filled and a cart line that joins to a product, the order is placed, and it is one new `Pending` order with the form's phone and a payment method of `'COD'` or `'Banking'` |
| CheckoutScreen.WhiteSpaceFieldsPass | components/FinalAppProject/User/CheckoutScreen.tsx:22-22 | an address and phone of only spaces pass the check, and the order is placed |
| OrderManagementScreen.ActionStatus | components/FinalAppProject/Admin/OrderManagementScreen.tsx:32-61 | the only statuses the screen writes are `'Completed'` and `'Canceled'` |
| OrderManagementScreen.HandleAction | components/FinalAppProject/Admin/OrderManagementScreen.tsx:21-35 | Complete, or Cancel answered "Yes", sets the status of exactly the orders with that id to 'Completed' or 'Canceled' and leaves every other order as it was; Cancel answered "No" changes nothing; no action adds or removes orders or touches other tables |
| OrderManagementScreen.ActionWritesOnlyTwoStatuses | components/FinalAppProject/Admin/OrderManagementScreen.tsx:21-35 | after any action, each order differs from before at most in its status, which is either the old one, `'Completed'` or `'Canceled'` |
| OrderManagementScreen.AnyStatusReachable | components/FinalAppProject/Admin/OrderManagementScreen.tsx:51-65 | since both buttons are always offered, any second confirmed action overrides the first, so Completed→Canceled and Canceled→Completed both happen |
| OrderManagementScreen.StatusColor | components/FinalAppProject/Admin/OrderManagementScreen.tsx:39-41 | green exactly for Completed, red exactly for Canceled, `#FFA239` for any other status |
| HomeScreen.CartCount | components/FinalAppProject/User/HomeScreen.tsx:36-37 | the badge is 0 with no session, and with one it is the number of the user's cart rows whose product exists |
| HomeScreen.HandleAddToCart | components/FinalAppProject/User/HomeScreen.tsx:44-58 | with no session nothing changes; with one it is exactly one `addToCart` for that user and product, and the badge is refreshed from the new store |
| HomeScreen.AddOneUnit | components/FinalAppProject/User/HomeScreen.tsx:50-51 | one add-to-cart adds one unit to (user, product) and leaves every other pair as it was |
| HomeScreen.HandleCategoryPress | components/FinalAppProject/User/HomeScreen.tsx:60-63 | it navigates to the pressed id, named after the first category with that id, or `''` if there is none |
| HomeScreen.NameMatches | components/FinalAppProject/User/HomeScreen.tsx:66-68 | a category matches when its lower-cased name equals the trimmed, lower-cased query |
| HomeScreen.HandleSearchSubmit | components/FinalAppProject/User/HomeScreen.tsx:65-74 | a match resolves to the first matching category's id and name; with no match it goes to category 0, named by the raw, untrimmed query |
| HomeScreen.SearchIgnoresLeadingSpace | components/FinalAppProject/User/HomeScreen.tsx:67-67 | when some category matches, a leading space in the query changes nothing |
| HomeScreen.FilterCongruentNames | components/FinalAppProject/User/HomeScreen.tsx:66-68 | two queries that trim to the same text find the same category |
| HomeScreen.SearchFindsByName | components/FinalAppProject/User/HomeScreen.tsx:65-71 | a query naming a category whose lower-cased name is unique finds that category |
| ProductsByCategoryScreen.InitialCategory | components/FinalAppProject/User/ProductsByCategoryScreen.tsx:25-25 | without route parameters the selected category is 1, and otherwise the one passed |
| ProductsByCategoryScreen.CategoryView | components/FinalAppProject/User/ProductsByCategoryScreen.tsx:42-42 | the view holds only products of the selected category, in their original order |
| ProductsByCategoryScreen.SelectCategory | components/FinalAppProject/User/ProductsByCategoryScreen.tsx:41-48 | changing category shows exactly its products and resets both price bounds to `''` |
| ProductsByCategoryScreen.Bound | components/FinalAppProject/User/ProductsByCategoryScreen.tsx:59-60 | a bound is absent exactly when its text is blank after trimming |
| ProductsByCategoryScreen.Compares | components/FinalAppProject/User/ProductsByCategoryScreen.tsx:62-63 | a comparison holds only when both the price and the bound are numbers and the order is right |
| ProductsByCategoryScreen.ApplyBound | components/FinalAppProject/User/ProductsByCategoryScreen.tsx:62-63 | an absent bound keeps every product |
| ProductsByCategoryScreen.ApplyBoundMembers | components/FinalAppProject/User/ProductsByCategoryScreen.tsx:62-63 | a product survives a bound exactly when it was there and the bound is absent or satisfied |
| ProductsByCategoryScreen.PriceFilter | components/FinalAppProject/User/ProductsByCategoryScreen.tsx:56-66 | with both bounds blank the category view is shown as it is, and the filter never lengthens it |
| ProductsByCategoryScreen.PriceFilterMembers | components/FinalAppProject/User/ProductsByCategoryScreen.tsx:56-66 | a product is shown exactly when it is in the selected category and satisfies each bound that is set |
| ProductsByCategoryScreen.NaNPriceExcluded | components/FinalAppProject/User/ProductsByCategoryScreen.tsx:62-63 | a product whose price is not a number is hidden as soon as either bound is set |
| ProductsByCategoryScreen.PriceFilterIsSubsequence | components/FinalAppProject/User/ProductsByCategoryScreen.tsx:56-66 | the filtered list is an order-preserving subsequence of the category view |
| ProductsByCategoryScreen.BlankBoundsShowCategory | components/FinalAppProject/User/ProductsByCategoryScreen.tsx:59-60 | with both bounds blank, filtering shows the same list as selecting the category |
| LoginScreen.RouteFor | components/FinalAppProject/LoginSqlite.tsx:38-39 | the user goes to the admin area exactly when the role is `'admin'`, and to the main tabs otherwise |
| LoginScreen.HandleLogin | components/FinalAppProject/LoginSqlite.tsx:21-75 | exactly one outcome: missing fields, welcome on a credentials match (session stored, routed by role), unknown username (username cleared), or wrong password for a known username (password cleared); the session changes only on welcome |
| LoginScreen.LoginOnlyWritesSessionOnSuccess | components/FinalAppProject/LoginSqlite.tsx:31-32 | whenever the session changes, the outcome was a welcome |
| LoginScreen.WrongPasswordExample | components/FinalAppProject/LoginSqlite.tsx:60-69 | a known username with a different password gives "Wrong password" |
| SignupScreen.HandleSignup | components/FinalAppProject/SignupSqlite.tsx:19-52 | an empty field, a confirmation mismatch (which clears the confirmation), a taken username, or one new user with role `'user'`, in that order of precedence; the store changes only on success |
| SignupScreen.SignupPreservesWellFormed | components/FinalAppProject/SignupSqlite.tsx:40-47 | signing up preserves the store invariant, and every user it adds has role `'user'` |
| SignupScreen.SecondSignupRejected | components/FinalAppProject/SignupSqlite.tsx:45-47 | repeating a successful signup is rejected as "Username already exists" and leaves the store unchanged |
| ProfileScreen.LoadProfile | components/FinalAppProject/User/ProfileScreen.tsx:19-30 | with no session nothing is loaded; with a session a user is loaded exactly when a stored row has the session's id, and what is loaded is such a stored row |
| ProfileScreen.EditProfile | components/FinalAppProject/User/ProfileScreen.tsx:15-16 | editing changes only username and password, and keeps id and role |
| ProfileScreen.HandleSave | components/FinalAppProject/User/ProfileScreen.tsx:36-48 | no loaded user does nothing; a blank username or password asks to fill all fields and writes nothing; otherwise it is `updateUser` and "updated" is shown |
| ProfileScreen.SaveRewritesOnlyOwnRow | components/FinalAppProject/User/ProfileScreen.tsx:43-43 | a conflict-free save rewrites only the session user's row, with the old role |
| ProfileScreen.UpdatedShownOnConflict | components/FinalAppProject/User/ProfileScreen.tsx:43-44 | when the new username is taken, the store is unchanged but "updated" is still shown |
| ProfileScreen.SavePreservesWellFormed | components/FinalAppProject/User/ProfileScreen.tsx:36-48 | saving preserves the store invariant |
| UserManagementScreen.ToggleRole | components/FinalAppProject/Admin/UserManagementScreen.tsx:38-38 | `'user'` becomes `'admin'` and any other role becomes `'user'` |
| UserManagementScreen.ToggleRoleInvolution | components/FinalAppProject/Admin/UserManagementScreen.tsx:38-38 | toggling twice is the identity on `'user'` and `'admin'`, and turns any other role into `'admin'` |
| UserManagementScreen.VisibleUsers | components/FinalAppProject/Admin/UserManagementScreen.tsx:45-45 | the tab shows exactly the users whose role is the tab, in their stored order |
| UserManagementScreen.HandleToggleRole | components/FinalAppProject/Admin/UserManagementScreen.tsx:37-42 | the store is `updateUser` of the user with only the role toggled, and the tab becomes the new role whatever the update did |
| UserManagementScreen.ToggleChangesOnlyRole | components/FinalAppProject/Admin/UserManagementScreen.tsx:37-45 | on a well-formed store, only that user's role changes, and the user is visible under the new tab |
| UserManagementScreen.HandleDelete | components/FinalAppProject/Admin/UserManagementScreen.tsx:20-36 | "Cancel" changes nothing; "Delete" removes exactly the users with that id |
| CategoryManagementScreen.HandleSaveCategory | components/FinalAppProject/Admin/CategoryManagementScreen.tsx:23-33 | blank input changes nothing; in edit mode only the edited id is renamed to the untrimmed text; otherwise one category is added under a fresh id; the form is cleared and edit mode ends after every non-blank save |
| CategoryManagementScreen.HandleEditCategory | components/FinalAppProject/Admin/CategoryManagementScreen.tsx:35-35 | editing loads the category's name and id into the form |
| CategoryManagementScreen.EditThenSaveUnchanged | components/FinalAppProject/Admin/CategoryManagementScreen.tsx:23-35 | editing a category and saving it without changes leaves the store as it was |
| CategoryManagementScreen.HandleDeleteCategory | components/FinalAppProject/Admin/CategoryManagementScreen.tsx:36-41 | "Cancel" changes nothing; "Delete" removes exactly the categories with that id |
| CategoryManagementScreen.CategoryScreenPreservesWellFormed | components/FinalAppProject/Admin/CategoryManagementScreen.tsx:23-41 | saving and deleting preserve the store invariant |
| ProductForm.OrElse | components/FinalAppProject/Admin/ProductForm.tsx:18-18 | JavaScript `a \|\| b` on numbers: `a` unless it is 0 |
| ProductForm.IsEdit | components/FinalAppProject/Admin/ProductForm.tsx:14-14 | edit mode needs a product whose id is positive; no product, or an id of 0 or less, is add mode |
| ProductForm.InitialCategoryId | components/FinalAppProject/Admin/ProductForm.tsx:18-18 | the initial category is the product's, else the default, else 1, and is never 0 |
| ProductForm.CategoryAfterLoad | components/FinalAppProject/Admin/ProductForm.tsx:22-31 | in edit mode the category is kept; in add mode it is the default when that is non-zero, else the first loaded category's id when there is one and it is non-zero, else 1, and never 0 |
| ProductForm.InitialFields | components/FinalAppProject/Admin/ProductForm.tsx:16-19 | a new product starts with empty name, price and image; an edited one starts with its own |
| ProductForm.HandleSubmit | components/FinalAppProject/Admin/ProductForm.tsx:42-64 | a blank name or price writes nothing; otherwise `onSuccess` receives the product built from the form, with id 0 when adding |
| ProductForm.SubmitEditRewritesProduct | components/FinalAppProject/Admin/ProductForm.tsx:48-56 | in edit mode all four fields of only that product id are rewritten |
| ProductForm.SubmitAddAppendsProduct | components/FinalAppProject/Admin/ProductForm.tsx:48-56 | in add mode one product is appended under a fresh id, whatever id the form carried |
| ProductForm.Cancel | components/FinalAppProject/Admin/ProductForm.tsx:106-106 | Cancel calls `onSuccess` with no product |
| JsParseInt.DigitPrefix | database/CakeDatabase.ts:349-349 | `parseInt` reads the longest prefix of digits of the radix, and the character after it, if any, is not such a digit |
| JsParseInt.ParseIntOrZero | database/CakeDatabase.ts:349-349 | `parseInt(...) \|\| 0`: NaN becomes 0 and every number `parseInt` returns is kept |
| JsParseInt.ParseInt | database/CakeDatabase.ts:349-349 | the result is NaN exactly when, after white space and sign, no digit follows (for radix 10 or text without `0x`), and it is never negative without a minus sign |
| JsParseInt.RadixAgreesWithoutHexPrefix | components/FinalAppProject/User/CartScreen.tsx:34-34 | without a `0x` prefix, `parseInt` without a radix agrees with `parseInt(s, 10)` |
| JsParseInt.HexPrefixDisagrees | components/FinalAppProject/User/CartScreen.tsx:34-34 | `'0x10'` reads as 16 without a radix and as 0 with radix 10 |
| JsParseInt.DigitPrefixOfDigits | database/CakeDatabase.ts:349-349 | a digit run followed by a non-digit is read up to the non-digit |
| JsParseInt.ParseDigitsThenRest | database/CakeDatabase.ts:349-349 | a digit run followed by a non-digit parses to the value of the run, with or without a radix |
| JsParseInt.NatToDecimal | database/CakeDatabase.ts:349-349 | the decimal numeral of a number is a non-empty digit run with no leading zero |
| JsParseInt.DecimalValueRoundTrip | database/CakeDatabase.ts:349-349 | the value of the decimal numeral of n is n |
| JsParseInt.ParseIntRoundTrip | database/CakeDatabase.ts:349-349 | `parseInt` of the decimal numeral of n is n, with or without a radix |
| Text.TrimStart | components/FinalAppProject/User/HomeScreen.tsx:67-67 | the result is a suffix, everything dropped is white space, and it does not start with white space |
| Text.TrimEnd | components/FinalAppProject/User/HomeScreen.tsx:67-67 | the result is a prefix, everything dropped is white space, and it does not end with white space |
| Text.TrimDropsLeadingSpace | components/FinalAppProject/User/HomeScreen.tsx:67-67 | a leading space does not survive `trim()` |
| Text.BlankIffAllWhiteSpace | components/FinalAppProject/Admin/CategoryManagementScreen.tsx:24-24 | a text is blank after trimming exactly when every character is white space |
| Text.IsWhiteSpace | components/buoi_10/DanhBa.tsx:36-36 | among ASCII characters, white space for `trim()` and `\s` is exactly space, tab, line feed, carriage return, vertical tab and form feed |
| Text.Trim | components/FinalAppProject/User/HomeScreen.tsx:67-67 | `trim()` never lengthens a text, its result neither starts nor ends with white space, a text without white space at either end is unchanged, and a text with any non-white character never trims to empty |
| Text.RemoveCommas | database/CakeDatabase.ts:348-348 | no comma is left and the text does not grow |
| Text.RemoveCommasMembers | database/CakeDatabase.ts:348-348 | no comma survives, and every other character survives exactly when it was there |
| Text.RemoveCommasAppend | database/CakeDatabase.ts:348-348 | removing commas from a concatenation concatenates the two results |
| Text.RemoveCommasChar | database/CakeDatabase.ts:348-348 | a single comma is removed and any other single character is kept |
| Text.RemoveCommasWithoutComma | database/CakeDatabase.ts:348-348 | a text without commas is left unchanged |
| Text.ToLower | components/buoi_10/DanhBa.tsx:57-57 | lower-casing keeps the length and maps each character on its own |
| Text.Contains | components/buoi_10/DanhBa.tsx:57-57 | `includes` fails when the part is longer than the text, and every prefix and every suffix of a text is included in it |
| Text.EmptyContained | components/buoi_10/DanhBa.tsx:57-57 | every text includes the empty text |
| Text.DigitCount | components/buoi_10/DanhBa.tsx:39-39 | the number of digits is at most the length |
| Text.DigitCountAppend | components/buoi_10/DanhBa.tsx:39-39 | the digits of a concatenation are the digits of its two parts |
| Text.DigitCountChar | components/buoi_10/DanhBa.tsx:39-39 | a single character counts 1 when it is a digit and 0 otherwise |
| DanhBa.Validate | components/buoi_10/DanhBa.tsx:24-45 | the name error is set exactly when the name is blank, independently of the phone; the phone error is "empty" when blank, else "bad characters" when it fails the pattern, else "too short" under nine digits |
| DanhBa.ValidIff | components/buoi_10/DanhBa.tsx:24-45 | the input is accepted exactly when name and phone are non-blank, the phone has only phone characters, and it has at least nine digits |
| DanhBa.BadCharsBeforeLength | components/buoi_10/DanhBa.tsx:36-41 | a short phone with a letter reports bad characters, not "too short" |
| DanhBa.AddContact | components/buoi_10/DanhBa.tsx:46-54 | valid input appends exactly one contact at the end and clears the inputs; invalid input changes only the error messages |
| DanhBa.StartUpdate | components/buoi_10/DanhBa.tsx:60-65 | editing loads that contact's name and phone and remembers its index, without touching the list |
| DanhBa.SaveUpdate | components/buoi_10/DanhBa.tsx:67-77 | invalid input or no remembered index changes only the errors; an index inside the list replaces only that contact and keeps the length; an index equal to the length appends the contact; either way index and inputs are reset; the result is `None` exactly when a valid save finds the index beyond the end |
| DanhBa.SaveAfterDeleteAppends | components/buoi_10/DanhBa.tsx:67-88 | deleting while the last contact is open for editing leaves the remembered index one past the shortened list, so saving appends the edited contact instead of replacing it |
| DanhBa.Delete | components/buoi_10/DanhBa.tsx:79-88 | "Hủy" keeps the list; "Xóa" removes exactly the element at the index and keeps the others in order |
| DanhBa.Filtered | components/buoi_10/DanhBa.tsx:56-58 | the list shown is exactly the contacts whose lower-cased name includes the lower-cased search, in their order |
| DanhBa.EmptySearchShowsAll | components/buoi_10/DanhBa.tsx:56-58 | an empty search shows the whole list |
| DanhBa.FilteredIndexIsRightWhenSearchEmpty | components/buoi_10/DanhBa.tsx:109-121 | with an empty search, the index a row passes to edit names the contact shown in that row |
| DanhBa.FilteredIndexIsWrongWhenSearching | components/buoi_10/DanhBa.tsx:109-121 | with the search "b" over Anna and Bob, the only row shows Bob, but its edit button loads Anna and its delete button removes Anna |

## Left out

- Storage and platform APIs are not modelled: expo-sqlite, AsyncStorage, `Alert`, navigation, `ImagePicker` and `console`. The store is a value, the session an `Option<User>`, a confirmation dialog a boolean input, and an alert or navigation target an outcome value.
- Asynchrony is not modelled: every handler runs to completion, one at a time. This leaves out the lost-update race of the read-then-write `addToCart` fallback and the reloads that follow a write.
- Failures of the store are left out, apart from the `UNIQUE` username constraint. In particular `checkout` is not transactional. A failure after the order insert would leave an order whose cart is not cleared, and the model does not claim otherwise.
- The `ON CONFLICT` upsert of `addToCart` is not modelled. It cannot succeed against the `cart` schema, so only the fallback is.
- The numeric branch of `parsePrice` is not modelled, because prices are always `TEXT`.
- `Number()` in the price filter is a parameter, a partial map from text to a number with `None` for NaN.
- Floating point is not modelled. JavaScript numbers are doubles: `parseInt` results, the line products and the order totals are exact only below 2^53, while the model's integers are unbounded.
- `toLocaleString` is not modelled.
- `new Date().toISOString()` is an input, `orderDate`.
- `toLowerCase` is modelled on the ASCII letters only. Other characters are left as they are, so names with Vietnamese letters in upper case are not lower-cased.
- `fetchCategories`, `fetchProducts` and `fetchUsers` are plain reads of a table and are not modelled apart from that.
- CakeSeed.InsertOrIgnore: the model's reads list a table in insertion order, and a re-inserted seed row goes at the end. SQLite's `SELECT *` lists rows in rowid order. The two differ once a seed row has been deleted and `initDatabase` re-inserts it under its explicit id on the next start. For example, with categories 2, 3 and 4 left, SQLite lists the re-seeded category 1 first, and the model lists it last. The first-row reads of `ProductForm` (`data[0]?.id`), the first-match searches of `HomeScreen`, and the order of the category view and the user list can then differ from the app's. Rows added through the app always get an id above every existing one, so without a re-seeded id the two orders agree.
- The `catch` of `fetchCartItems`, which answers `[]` when the stored session cannot be read, is not modelled: the session is an input.
- The order reads are not modelled: `fetchOrders`, `fetchOrdersByUser`, `fetchOrdersWithItemsByUser` and `fetchOrderItems`, which are joins sorted by date.
- `updateUserProfile` is never called by the modelled screens and is not modelled.
- Foreign keys and their cascades are not modelled. The code never relies on them, and a cart row may name a deleted product, which the join then drops.
- CakeCart.JoinProducts: SQL gives the join no order; the model keeps the cart's storage order.
- DanhBa.SaveUpdate: the remembered index can go stale, because `handleDelete` does not forget it. An index beyond the list's end makes the JavaScript array sparse. The filter in the render skips the hole, but the next spread turns it into `undefined`, which the name filter then dereferences. Sparse arrays are not represented, and the model answers `None` there.
- The blank-query check of `Header.tsx` is not modelled. `HandleSearchSubmit` accepts any query.
- Purely presentational or navigation files are not modelled: `Header.tsx`, `HeaderAdmin.tsx`, `SuccessScreen.tsx`, `OrderHistoryScreen.tsx`, `ProductManagementScreen.tsx`, `CategorySelector.tsx`, `Welcome.tsx`, the tab and stack navigators, `App.tsx` and the styles and image maps.
- Text.IsWhiteSpace: the contract pins down the ASCII white-space characters only; the Unicode space separators above U+007F are listed in the definition but no clause states them.

=== FILE: cake_cart.dfy ===
/**
 * The cart accessors of `database/CakeDatabase.ts`: `parsePrice`, `addToCart`,
 * `fetchCart`, `fetchCartItems`, `updateCartQuantity` and
 * `removeCartItem` / `deleteCartItem`.
 *
 * The `cart` table declares no UNIQUE constraint on (userId, productId), so the
 * `ON CONFLICT` upsert that `addToCart` tries first always fails and its
 * read-then-write fallback is what runs; that fallback is modelled here.
 */
module CakeCart {
  import opened Wrappers
  import opened Seqs
  import opened Text
  import opened JsParseInt
  import opened CakeSchema

  /** One row of `fetchCart`: a cart row joined with its product. */
  datatype CartItem = CartItem(cartId: int, productId: int, name: string, img: string, price: string, quantity: int)

  // ---------------------------------------------------------------- prices

  /** `parsePrice`: commas removed, then `parseInt(_, 10) || 0`. */
  function ParsePrice(price: string): (n: int)
    ensures '-' !in price ==> n >= 0
  {
    RemoveCommasMembers(price);
    ParseIntOrZero(RemoveCommas(price), Decimal)
  }

  /** A numeral written without separators parses back to its value. */
  lemma ParsePriceRoundTrip(n: nat)
    ensures ParsePrice(NatToDecimal(n)) == n
  {
    var s := NatToDecimal(n);
    FilterAll(s, NotComma);
    ParseIntRoundTrip(n, Decimal);
  }

  /** Removing commas from comma-free digits followed by `.` keeps that prefix. */
  lemma RemoveCommasAfterDigits(ds: string, rest: string)
    requires AllDigitsOf(ds, 10)
    ensures RemoveCommas(ds + "." + rest) == ds + "." + RemoveCommas(rest)
  {
    var dot := ".";
    var kept := Filter(rest, NotComma);
    assert Filter(dot + rest, NotComma) == dot + kept by {
      FilterAppend(dot, rest, NotComma);
      FilterAll(dot, NotComma);
    }
    assert Filter(ds + (dot + rest), NotComma) == ds + (dot + kept) by {
      FilterAppend(ds, dot + rest, NotComma);
      FilterAll(ds, NotComma);
    }
    assert ds + "." + rest == ds + (dot + rest);
    assert ds + "." + kept == ds + (dot + kept);
  }

  /**
   * Only commas are stripped: a `.` used as thousands separator ends the
   * number, so digits followed by `.` parse to the digits before the dot.
   */
  lemma ParsePriceStopsAtDot(ds: string, rest: string)
    requires |ds| > 0 && AllDigitsOf(ds, 10)
    ensures ParsePrice(ds + "." + rest) == DigitsValue(ds, 10)
  {
    var tail := "." + RemoveCommas(rest);
    assert RemoveCommas(ds + "." + rest) == ds + tail by {
      RemoveCommasAfterDigits(ds, rest);
      assert ds + "." + RemoveCommas(rest) == ds + tail;
    }
    assert ParseInt(ds + tail, Decimal) == Some(DigitsValue(ds, 10)) by {
      DigitsThenDot(ds, tail);
    }
  }

  /** Decimal digits followed by a dot parse to the digits' value. */
  lemma DigitsThenDot(ds: string, tail: string)
    requires |ds| > 0 && AllDigitsOf(ds, 10)
    requires |tail| > 0 && tail[0] == '.'
    ensures ParseInt(ds + tail, Decimal) == Some(DigitsValue(ds, 10))
  {
    assert !IsDigit(tail[0]);
    assert ds[0] == '0' ==> |ds| == 1 || IsDigit(ds[1]);
    ParseDigitsThenRest(ds, tail, Decimal);
  }

  /** A comma between two groups of digits is dropped and the groups are joined. */
  lemma RemoveCommasJoins(a: string, b: string)
    requires AllDigitsOf(a, 10) && AllDigitsOf(b, 10)
    ensures RemoveCommas(a + "," + b) == a + b
  {
    var comma := ",";
    assert a + "," + b == a + (comma + b);
    FilterAppend(a, comma + b, NotComma);
    FilterAppend(comma, b, NotComma);
    FilterAll(a, NotComma);
    FilterAll(b, NotComma);
    assert Filter(comma, NotComma) == [];
  }

  /** `'25,000'` is 25000: the comma is a thousands separator. */
  lemma ParsePriceCommaExample()
    ensures ParsePrice("25,000") == 25000
  {
    RemoveCommasJoins("25", "000");
    assert "25" + "," + "000" == "25,000";
    assert ParsePrice("25000") == 25000 by {
      Numeral25000();
      ParsePriceRoundTrip(25000);
    }
  }

  lemma Numeral25000()
    ensures NatToDecimal(25000) == "25000"
  {
    assert NatToDecimal(25) == "25";
    assert NatToDecimal(250) == "250";
    assert NatToDecimal(2500) == "2500";
  }

  /** `'25.000'` is 25: a dot is not a thousands separator. */
  lemma ParsePriceDotExample()
    ensures ParsePrice("25.000") == 25
  {
    assert "25" + "." + "000" == "25.000";
    assert DigitsValue("25", 10) == 25 by {
      assert "25"[..1] == "2";
    }
    ParsePriceStopsAtDot("25", "000");
  }

  /** `'abc'` is 0: NaN falls back to zero. */
  lemma ParsePriceTextExample()
    ensures ParsePrice("abc") == 0
  {
    assert RemoveCommas("abc") == "abc" by {
      FilterAll("abc", NotComma);
    }
    assert Unsigned("abc") == "abc" by {
      assert !IsWhiteSpace("abc"[0]);
      assert TrimStart("abc") == "abc";
    }
    assert !IsDigit("abc"[0]);
  }

  // ---------------------------------------------------------------- selections

  function UserIs(userId: int): (p: CartRow -> bool)
    ensures forall r :: p(r) == (r.userId == userId)
  {
    (r: CartRow) => r.userId == userId
  }

  function PairIs(userId: int, productId: int): (p: CartRow -> bool)
    ensures forall r :: p(r) == (r.userId == userId && r.productId == productId)
  {
    (r: CartRow) => r.userId == userId && r.productId == productId
  }

  /** The cart rows of one user, in storage order. */
  function CartOf(cart: seq<CartRow>, userId: int): seq<CartRow> {
    Filter(cart, UserIs(userId))
  }

  /** `SELECT id, quantity FROM cart WHERE userId = ? AND productId = ?`. */
  function PairRows(cart: seq<CartRow>, userId: int, productId: int): seq<CartRow> {
    Filter(cart, PairIs(userId, productId))
  }

  /** The quantity `addToCart` reads and increments: the first matching row's, or 0. */
  function PairQuantity(cart: seq<CartRow>, userId: int, productId: int): int {
    var rows := PairRows(cart, userId, productId);
    if |rows| > 0 then rows[0].quantity else 0
  }

  /**
   * The quantity `addToCart` reads is 0 when the pair has no row, and
   * otherwise the quantity of its first row in storage order.
   */
  lemma PairQuantityIsFirstMatch(cart: seq<CartRow>, userId: int, productId: int)
    ensures (forall i :: 0 <= i < |cart| ==> !PairAt(cart, userId, productId, i)) ==> PairQuantity(cart, userId, productId) == 0
    ensures forall i :: (0 <= i < |cart| && PairAt(cart, userId, productId, i)
                         && (forall j :: 0 <= j < i ==> !PairAt(cart, userId, productId, j))) ==>
              PairQuantity(cart, userId, productId) == cart[i].quantity
  {
    PairRowsHead(cart, userId, productId);
  }

  /** Row `i` of the cart belongs to the pair. */
  predicate PairAt(cart: seq<CartRow>, userId: int, productId: int, i: int) {
    0 <= i < |cart| && cart[i].userId == userId && cart[i].productId == productId
  }

  /** The pair's rows are empty when no row matches, and start with the first matching row otherwise. */
  lemma PairRowsHead(cart: seq<CartRow>, userId: int, productId: int)
    ensures (forall i :: 0 <= i < |cart| ==> !PairAt(cart, userId, productId, i)) ==> |PairRows(cart, userId, productId)| == 0
    ensures forall i :: (0 <= i < |cart| && PairAt(cart, userId, productId, i)
                         && (forall j :: 0 <= j < i ==> !PairAt(cart, userId, productId, j))) ==>
              |PairRows(cart, userId, productId)| > 0 && PairRows(cart, userId, productId)[0] == cart[i]
  {
    if forall i :: 0 <= i < |cart| ==> !PairAt(cart, userId, productId, i) {
      PairRowsNone(cart, userId, productId);
    }
    forall i | 0 <= i < |cart| && PairAt(cart, userId, productId, i)
                 && (forall j :: 0 <= j < i ==> !PairAt(cart, userId, productId, j))
      ensures |PairRows(cart, userId, productId)| > 0 && PairRows(cart, userId, productId)[0] == cart[i]
    {
      PairRowsFirst(cart, userId, productId, i);
    }
  }

  lemma PairRowsNone(cart: seq<CartRow>, userId: int, productId: int)
    requires forall i :: 0 <= i < |cart| ==> !PairAt(cart, userId, productId, i)
    ensures |PairRows(cart, userId, productId)| == 0
  {
    var keep := PairIs(userId, productId);
    FilterMembers(cart, keep);
    if |PairRows(cart, userId, productId)| > 0 {
      var x := PairRows(cart, userId, productId)[0];
      assert x in cart && keep(x);
      var k :| 0 <= k < |cart| && cart[k] == x;
      assert PairAt(cart, userId, productId, k);
      assert false;
    }
  }

  lemma PairRowsFirst(cart: seq<CartRow>, userId: int, productId: int, i: int)
    requires PairAt(cart, userId, productId, i)
    requires forall j :: 0 <= j < i ==> !PairAt(cart, userId, productId, j)
    ensures |PairRows(cart, userId, productId)| > 0 && PairRows(cart, userId, productId)[0] == cart[i]
  {
    var keep := PairIs(userId, productId);
    forall j | 0 <= j < i ensures !keep(cart[j]) {
      assert !PairAt(cart, userId, productId, j);
    }
    FilterFirst(cart, keep, i);
  }

  /** Every cart line has a quantity of at least one. */
  ghost predicate AllQuantitiesPositive(cart: seq<CartRow>) {
    forall i :: 0 <= i < |cart| ==> cart[i].quantity >= 1
  }

  // ---------------------------------------------------------------- writes

  /** The row rewrite of `UPDATE cart SET quantity = ?`. */
  function SetQuantity(quantity: int): (f: CartRow -> CartRow)
    ensures forall r :: f(r) == r.(quantity := quantity)
  {
    (r: CartRow) => r.(quantity := quantity)
  }

  /** `updateCartQuantity`: `UPDATE cart SET quantity = ? WHERE id = ?`, for any quantity. */
  function UpdateCartQuantity(db: Db, cartId: int, quantity: int): (r: Db)
    ensures |r.cart| == |db.cart|
    ensures forall i :: 0 <= i < |db.cart| ==>
              r.cart[i] == if db.cart[i].id == cartId then db.cart[i].(quantity := quantity) else db.cart[i]
    ensures r == db.(cart := r.cart)
  {
    db.(cart := MapWhere(db.cart, HasKey(CartKey, cartId), SetQuantity(quantity)))
  }

  /** `removeCartItem` (and its alias `deleteCartItem`): `DELETE FROM cart WHERE id = ?`. */
  function RemoveCartItem(db: Db, cartId: int): (r: Db)
    ensures forall row :: row in r.cart <==> row in db.cart && row.id != cartId
    ensures IsSubsequence(r.cart, db.cart)
    ensures r == db.(cart := r.cart)
  {
    FilterMembers(db.cart, LacksKey(CartKey, cartId));
    FilterIsSubsequence(db.cart, LacksKey(CartKey, cartId));
    db.(cart := Filter(db.cart, LacksKey(CartKey, cartId)))
  }

  /**
   * `addToCart` as it runs: read the rows for (userId, productId); if there is
   * one, write the first one's quantity plus one back by its id (the same
   * statement as `updateCartQuantity`); otherwise insert a row with quantity 1.
   */
  function AddToCart(db: Db, userId: int, productId: int): (r: Db)
    ensures r.categories == db.categories && r.products == db.products && r.users == db.users
    ensures r.orders == db.orders && r.orderItems == db.orderItems
  {
    var existing := PairRows(db.cart, userId, productId);
    if |existing| > 0 then
      UpdateCartQuantity(db, existing[0].id, existing[0].quantity + 1)
    else
      var id := NextKey(db.cart, CartKey, db.cartSeq);
      db.(cart := db.cart + [CartRow(id, userId, productId, 1)], cartSeq := id)
  }

  /** `n` sequential `addToCart(userId, productId)` calls. */
  function AddToCartTimes(db: Db, userId: int, productId: int, n: nat): (r: Db)
    ensures r.categories == db.categories && r.products == db.products && r.users == db.users
    ensures r.orders == db.orders && r.orderItems == db.orderItems
    decreases n
  {
    if n == 0 then db else AddToCartTimes(AddToCart(db, userId, productId), userId, productId, n - 1)
  }

  // ---------------------------------------------------------------- reads

  function FindProduct(products: seq<Product>, id: int): (r: Option<Product>)
    ensures r.Some? <==> HasRowWithKey(products, ProductKey, id)
    ensures r.Some? ==> r.value in products && r.value.id == id
  {
    FindFirst(products, HasKey(ProductKey, id))
  }

  function JoinRow(row: CartRow, p: Product): CartItem {
    CartItem(row.id, row.productId, p.name, p.img, p.price, row.quantity)
  }

  /** `cart JOIN products ON cart.productId = products.id`: rows without a product drop out. */
  function JoinProducts(rows: seq<CartRow>, products: seq<Product>): (r: seq<CartItem>)
    ensures |r| <= |rows|
    ensures |r| == 0 <==> forall i :: 0 <= i < |rows| ==> !HasRowWithKey(products, ProductKey, rows[i].productId)
    decreases |rows|
  {
    if |rows| == 0 then []
    else
      var rest := JoinProducts(rows[1..], products);
      assert forall i :: 1 <= i < |rows| ==> rows[i] == rows[1..][i - 1];
      match FindProduct(products, rows[0].productId)
      case None => rest
      case Some(p) => [JoinRow(rows[0], p)] + rest
  }

  /** `line` is the join of one of `rows` with the product it names. */
  predicate JoinedFrom(line: CartItem, rows: seq<CartRow>, products: seq<Product>) {
    exists i, p :: 0 <= i < |rows| && p in products && p.id == rows[i].productId && line == JoinRow(rows[i], p)
  }

  /** Every joined line is some cart row combined with the product that row names. */
  lemma {:induction false} JoinedLinesComeFromRows(rows: seq<CartRow>, products: seq<Product>)
    ensures forall k :: 0 <= k < |JoinProducts(rows, products)| ==> JoinedFrom(JoinProducts(rows, products)[k], rows, products)
    decreases |rows|
  {
    if |rows| > 0 {
      var rest := JoinProducts(rows[1..], products);
      JoinedLinesComeFromRows(rows[1..], products);
      forall line | JoinedFrom(line, rows[1..], products)
        ensures JoinedFrom(line, rows, products)
      {
        var i, p :| 0 <= i < |rows[1..]| && p in products && p.id == rows[1..][i].productId && line == JoinRow(rows[1..][i], p);
        assert rows[1..][i] == rows[i + 1];
      }
      var r := JoinProducts(rows, products);
      var found := FindProduct(products, rows[0].productId);
      var head := if found.Some? then 1 else 0;
      assert r == if found.Some? then [JoinRow(rows[0], found.value)] + rest else rest;
      forall k | 0 <= k < |r|
        ensures JoinedFrom(r[k], rows, products)
      {
        if k < head {
          assert r[k] == JoinRow(rows[0], found.value);
        } else {
          assert r[k] == rest[k - head];
          assert JoinedFrom(rest[k - head], rows[1..], products);
        }
      }
    }
  }

  /** The cart rows whose `productId` names an existing product. */
  function NamesProduct(products: seq<Product>): (p: CartRow -> bool)
    ensures forall row :: p(row) == HasRowWithKey(products, ProductKey, row.productId)
  {
    (row: CartRow) => HasRowWithKey(products, ProductKey, row.productId)
  }

  /** Line `k` of `lines` is row `k` of `naming` combined with the product that row names. */
  predicate JoinsAt(lines: seq<CartItem>, naming: seq<CartRow>, products: seq<Product>, k: int) {
    && 0 <= k < |lines| && k < |naming|
    && FindProduct(products, naming[k].productId).Some?
    && lines[k] == JoinRow(naming[k], FindProduct(products, naming[k].productId).value)
  }

  /** Putting a row and its joined line in front of matching sequences keeps them matching. */
  lemma JoinsPrepend(line: CartItem, row: CartRow, lines: seq<CartItem>, rows: seq<CartRow>, products: seq<Product>)
    requires FindProduct(products, row.productId).Some? && line == JoinRow(row, FindProduct(products, row.productId).value)
    requires |lines| == |rows| && forall k :: 0 <= k < |lines| ==> JoinsAt(lines, rows, products, k)
    ensures forall k :: 0 <= k < |lines| + 1 ==> JoinsAt([line] + lines, [row] + rows, products, k)
  {
    forall k | 1 <= k < |lines| + 1
      ensures JoinsAt([line] + lines, [row] + rows, products, k)
    {
      assert JoinsAt(lines, rows, products, k - 1);
    }
  }

  /**
   * The join is, line for line, the rows that name a product, in their order,
   * each combined with that product: one line per such row and no other lines.
   */
  lemma {:induction false} JoinProductsIsNamingRows(rows: seq<CartRow>, products: seq<Product>)
    ensures |JoinProducts(rows, products)| == |Filter(rows, NamesProduct(products))|
    ensures forall k :: 0 <= k < |JoinProducts(rows, products)| ==>
              JoinsAt(JoinProducts(rows, products), Filter(rows, NamesProduct(products)), products, k)
    decreases |rows|
  {
    if |rows| > 0 {
      JoinProductsIsNamingRows(rows[1..], products);
      var keep := NamesProduct(products);
      var f, fr := Filter(rows, keep), Filter(rows[1..], keep);
      var j, jr := JoinProducts(rows, products), JoinProducts(rows[1..], products);
      var found := FindProduct(products, rows[0].productId);
      if found.Some? {
        assert f == [rows[0]] + fr;
        assert j == [JoinRow(rows[0], found.value)] + jr;
        JoinsPrepend(JoinRow(rows[0], found.value), rows[0], jr, fr, products);
      } else {
        assert f == fr && j == jr;
      }
    }
  }

  /** Every row that names a product contributes its joined line. */
  lemma JoinProductsComplete(rows: seq<CartRow>, products: seq<Product>, i: int)
    requires 0 <= i < |rows| && HasRowWithKey(products, ProductKey, rows[i].productId)
    ensures JoinRow(rows[i], FindProduct(products, rows[i].productId).value) in JoinProducts(rows, products)
  {
    var f := Filter(rows, NamesProduct(products));
    var j := JoinProducts(rows, products);
    assert rows[i] in f by {
      FilterMembers(rows, NamesProduct(products));
    }
    var k :| 0 <= k < |f| && f[k] == rows[i];
    JoinProductsIsNamingRows(rows, products);
    assert JoinsAt(j, f, products, k);
  }

  /** `fetchCart(userId)`: the user's cart rows joined with their products. */
  function FetchCart(db: Db, userId: int): (r: seq<CartItem>)
    ensures |r| <= |CartOf(db.cart, userId)|
  {
    JoinProducts(CartOf(db.cart, userId), db.products)
  }

  /** Each of the user's cart rows whose product exists shows up as a line of `fetchCart`. */
  lemma FetchCartComplete(db: Db, userId: int, i: int)
    requires 0 <= i < |db.cart| && db.cart[i].userId == userId
    requires HasRowWithKey(db.products, ProductKey, db.cart[i].productId)
    ensures JoinRow(db.cart[i], FindProduct(db.products, db.cart[i].productId).value) in FetchCart(db, userId)
  {
    var mine := CartOf(db.cart, userId);
    FilterMembers(db.cart, UserIs(userId));
    assert db.cart[i] in mine;
    var k :| 0 <= k < |mine| && mine[k] == db.cart[i];
    JoinProductsComplete(mine, db.products, k);
  }

  /** Every line of `fetchCart` is one of the user's cart rows combined with the product it names. */
  lemma FetchCartSound(db: Db, userId: int, k: int)
    requires 0 <= k < |FetchCart(db, userId)|
    ensures exists i, p :: && 0 <= i < |db.cart| && db.cart[i].userId == userId && p in db.products
                           && p.id == db.cart[i].productId && FetchCart(db, userId)[k] == JoinRow(db.cart[i], p)
  {
    var mine := CartOf(db.cart, userId);
    JoinedLinesComeFromRows(mine, db.products);
    var j, p :| 0 <= j < |mine| && p in db.products && p.id == mine[j].productId && FetchCart(db, userId)[k] == JoinRow(mine[j], p);
    FilterMembers(db.cart, UserIs(userId));
    assert mine[j] in db.cart;
    var i :| 0 <= i < |db.cart| && db.cart[i] == mine[j];
  }

  /** `fetchCartItems`: the logged-in user's cart, or nothing without a session. */
  function FetchCartItems(db: Db, session: Option<User>): (r: seq<CartItem>)
    ensures session.None? ==> r == []
    ensures session.Some? ==> r == FetchCart(db, session.value.id)
  {
    match session
    case None => []
    case Some(u) => FetchCart(db, u.id)
  }

  /** `checkout`'s `reduce`: the sum of `parsePrice(price) * quantity` over the lines. */
  function LinesTotal(items: seq<CartItem>): (total: int)
    ensures |items| == 0 ==> total == 0
    decreases |items|
  {
    if |items| == 0 then 0
    else LinesTotal(items[..|items| - 1]) + ParsePrice(items[|items| - 1].price) * items[|items| - 1].quantity
  }

  /** The total of two runs of lines is the sum of their totals: the `reduce` is a plain sum. */
  lemma {:induction false} LinesTotalAppend(a: seq<CartItem>, b: seq<CartItem>)
    ensures LinesTotal(a + b) == LinesTotal(a) + LinesTotal(b)
    decreases |b|
  {
    if |b| == 0 {
      assert a + b == a;
    } else {
      var front := b[..|b| - 1];
      assert (a + b)[..|a + b| - 1] == a + front;
      assert (a + b)[|a + b| - 1] == b[|b| - 1];
      LinesTotalAppend(a, front);
    }
  }

  // ---------------------------------------------------------------- properties

  /** A cart id that no row has: updating or removing it changes nothing. */
  lemma UnknownCartIdIsNoOp(db: Db, cartId: int, quantity: int)
    requires !HasRowWithKey(db.cart, CartKey, cartId)
    ensures UpdateCartQuantity(db, cartId, quantity) == db
    ensures RemoveCartItem(db, cartId) == db
  {
    FilterAll(db.cart, LacksKey(CartKey, cartId));
  }

  /** With unique ids, removing a present cart id removes exactly that one row. */
  lemma RemoveCartItemRemovesOne(db: Db, cartId: int)
    requires WellFormed(db) && HasRowWithKey(db.cart, CartKey, cartId)
    ensures |RemoveCartItem(db, cartId).cart| == |db.cart| - 1
    ensures !HasRowWithKey(RemoveCartItem(db, cartId).cart, CartKey, cartId)
  {
    DeleteUniqueKey(db.cart, CartKey, cartId);
  }

  /** The store level does not protect the quantity: any value, zero included, is written. */
  lemma UpdateCartQuantityWritesAnyValue(db: Db, i: int, quantity: int)
    requires 0 <= i < |db.cart|
    ensures UpdateCartQuantity(db, db.cart[i].id, quantity).cart[i].quantity == quantity
  {
  }

  lemma CartWritesPreserveWellFormed(db: Db, cartId: int, quantity: int)
    requires WellFormed(db)
    ensures WellFormed(UpdateCartQuantity(db, cartId, quantity))
    ensures WellFormed(RemoveCartItem(db, cartId))
  {
    FilterKeepsKeys(db.cart, LacksKey(CartKey, cartId), CartKey, db.cartSeq);
    MapWhereKeepsKeys(db.cart, HasKey(CartKey, cartId), SetQuantity(quantity), CartKey, db.cartSeq);
  }

  lemma AddToCartPreservesWellFormed(db: Db, userId: int, productId: int)
    requires WellFormed(db)
    ensures WellFormed(AddToCart(db, userId, productId))
  {
    AddToCartKeepsCartKeys(db, userId, productId);
  }

  /** One `addToCart` adds one to the pair's quantity and creates a row only when there was none. */
  lemma AddToCartSamePair(db: Db, userId: int, productId: int)
    ensures PairQuantity(AddToCart(db, userId, productId).cart, userId, productId) == PairQuantity(db.cart, userId, productId) + 1
    ensures |PairRows(AddToCart(db, userId, productId).cart, userId, productId)| ==
              (if |PairRows(db.cart, userId, productId)| == 0 then 1 else |PairRows(db.cart, userId, productId)|)
  {
    var existing := PairRows(db.cart, userId, productId);
    if |existing| > 0 {
      var target := existing[0];
      var f := SetQuantity(target.quantity + 1);
      assert AddToCart(db, userId, productId).cart == MapWhere(db.cart, HasKey(CartKey, target.id), f);
      FilterMapWhereInside(db.cart, HasKey(CartKey, target.id), f, PairIs(userId, productId));
    } else {
      var row := CartRow(NextKey(db.cart, CartKey, db.cartSeq), userId, productId, 1);
      assert AddToCart(db, userId, productId).cart == db.cart + [row];
      FilterAppend(db.cart, [row], PairIs(userId, productId));
    }
  }

  /** One `addToCart` leaves the rows of every other (user, product) pair as they were. */
  lemma AddToCartOtherPair(db: Db, userId: int, productId: int, u: int, p: int)
    requires UniqueKeys(db.cart, CartKey)
    requires (u, p) != (userId, productId)
    ensures PairRows(AddToCart(db, userId, productId).cart, u, p) == PairRows(db.cart, u, p)
  {
    var existing := PairRows(db.cart, userId, productId);
    if |existing| > 0 {
      var target := existing[0];
      var hit := HasKey(CartKey, target.id);
      var f := SetQuantity(target.quantity + 1);
      assert AddToCart(db, userId, productId).cart == MapWhere(db.cart, hit, f);
      FilterMembers(db.cart, PairIs(userId, productId));
      assert target in db.cart;
      var t :| 0 <= t < |db.cart| && db.cart[t] == target;
      forall i | 0 <= i < |db.cart| && hit(db.cart[i])
        ensures !PairIs(u, p)(db.cart[i]) && !PairIs(u, p)(f(db.cart[i]))
      {
        assert i == t;
      }
      FilterMapWhereOutside(db.cart, hit, f, PairIs(u, p));
    } else {
      var row := CartRow(NextKey(db.cart, CartKey, db.cartSeq), userId, productId, 1);
      assert AddToCart(db, userId, productId).cart == db.cart + [row];
      FilterAppend(db.cart, [row], PairIs(u, p));
    }
  }

  /**
   * Starting from no row for (userId, productId), `n` calls leave exactly one
   * row for that pair, with quantity `n`.
   */
  lemma AddToCartTimesFromNothing(db: Db, userId: int, productId: int, n: nat)
    requires n >= 1
    requires |PairRows(db.cart, userId, productId)| == 0
    ensures var r := AddToCartTimes(db, userId, productId, n);
            && |PairRows(r.cart, userId, productId)| == 1
            && PairRows(r.cart, userId, productId)[0].quantity == n
  {
    AddToCartTimesSamePair(db, userId, productId, n);
  }

  /** `n` calls keep the store invariant. */
  lemma {:induction false} AddToCartTimesPreservesWellFormed(db: Db, userId: int, productId: int, n: nat)
    requires WellFormed(db)
    ensures WellFormed(AddToCartTimes(db, userId, productId, n))
    decreases n
  {
    if n > 0 {
      AddToCartPreservesWellFormed(db, userId, productId);
      AddToCartTimesPreservesWellFormed(AddToCart(db, userId, productId), userId, productId, n - 1);
    }
  }

  /** One `addToCart` keeps cart ids unique. */
  lemma AddToCartKeepsCartKeys(db: Db, userId: int, productId: int)
    requires UniqueKeys(db.cart, CartKey) && KeysAtMost(db.cart, CartKey, db.cartSeq)
    ensures UniqueKeys(AddToCart(db, userId, productId).cart, CartKey)
    ensures KeysAtMost(AddToCart(db, userId, productId).cart, CartKey, AddToCart(db, userId, productId).cartSeq)
  {
    var existing := PairRows(db.cart, userId, productId);
    if |existing| > 0 {
      var target := existing[0];
      var f := SetQuantity(target.quantity + 1);
      assert AddToCart(db, userId, productId) == db.(cart := MapWhere(db.cart, HasKey(CartKey, target.id), f));
      MapWhereKeepsKeys(db.cart, HasKey(CartKey, target.id), f, CartKey, db.cartSeq);
    } else {
      var row := CartRow(NextKey(db.cart, CartKey, db.cartSeq), userId, productId, 1);
      assert AddToCart(db, userId, productId) == db.(cart := db.cart + [row], cartSeq := row.id);
      AppendFreshKey(db.cart, row, CartKey, db.cartSeq);
    }
  }

  /** `n` calls add exactly `n` to the pair's quantity, and create a row only when there was none. */
  lemma AddToCartTimesSamePair(db: Db, userId: int, productId: int, n: nat)
    ensures PairQuantity(AddToCartTimes(db, userId, productId, n).cart, userId, productId) == PairQuantity(db.cart, userId, productId) + n
    ensures |PairRows(AddToCartTimes(db, userId, productId, n).cart, userId, productId)| ==
              (if |PairRows(db.cart, userId, productId)| == 0 && n > 0 then 1 else |PairRows(db.cart, userId, productId)|)
  {
    AddToCartTimesQuantity(db, userId, productId, n);
    AddToCartTimesRowCount(db, userId, productId, n);
  }

  lemma {:induction false} AddToCartTimesQuantity(db: Db, userId: int, productId: int, n: nat)
    ensures PairQuantity(AddToCartTimes(db, userId, productId, n).cart, userId, productId) == PairQuantity(db.cart, userId, productId) + n
    decreases n
  {
    if n > 0 {
      AddToCartSamePair(db, userId, productId);
      AddToCartTimesQuantity(AddToCart(db, userId, productId), userId, productId, n - 1);
    }
  }

  lemma {:induction false} AddToCartTimesRowCount(db: Db, userId: int, productId: int, n: nat)
    ensures |PairRows(AddToCartTimes(db, userId, productId, n).cart, userId, productId)| ==
              (if |PairRows(db.cart, userId, productId)| == 0 && n > 0 then 1 else |PairRows(db.cart, userId, productId)|)
    decreases n
  {
    if n > 0 {
      AddToCartSamePair(db, userId, productId);
      AddToCartTimesRowCount(AddToCart(db, userId, productId), userId, productId, n - 1);
    }
  }

  /** `n` calls leave the rows of every other pair as they were. */
  lemma {:induction false} AddToCartTimesOtherPair(db: Db, userId: int, productId: int, n: nat, u: int, p: int)
    requires UniqueKeys(db.cart, CartKey) && KeysAtMost(db.cart, CartKey, db.cartSeq)
    requires (u, p) != (userId, productId)
    ensures PairRows(AddToCartTimes(db, userId, productId, n).cart, u, p) == PairRows(db.cart, u, p)
    decreases n
  {
    if n > 0 {
      AddToCartOtherPair(db, userId, productId, u, p);
      AddToCartKeepsCartKeys(db, userId, productId);
      AddToCartTimesOtherPair(AddToCart(db, userId, productId), userId, productId, n - 1, u, p);
    }
  }

  /** Adding to the cart keeps every line's quantity at least one. */
  lemma AddToCartKeepsQuantitiesPositive(db: Db, userId: int, productId: int)
    requires AllQuantitiesPositive(db.cart)
    ensures AllQuantitiesPositive(AddToCart(db, userId, productId).cart)
  {
    var existing := PairRows(db.cart, userId, productId);
    if |existing| > 0 {
      FilterMembers(db.cart, PairIs(userId, productId));
      assert existing[0] in db.cart;
    }
  }
}

=== FILE: cake_catalog.dfy ===
/**
 * The category, product and user accessors of `database/CakeDatabase.ts`.
 * Each write reports success as a boolean and leaves the store unchanged when
 * it fails; foreign keys are not enforced (SQLite's default), so deletes
 * always succeed.
 */
module CakeCatalog {
  import opened Wrappers
  import opened Seqs
  import opened CakeSchema

  // ---------------------------------------------------------------- categories

  /** `addCategory`: a row with a fresh id (one more than the largest id present). */
  function AddCategory(db: Db, name: string): (r: (Db, bool))
    ensures r.1
    ensures |r.0.categories| == |db.categories| + 1
    ensures r.0.categories[..|db.categories|] == db.categories
    ensures r.0.categories[|db.categories|].name == name
    ensures !HasRowWithKey(db.categories, CategoryKey, r.0.categories[|db.categories|].id)
    ensures r.0 == db.(categories := r.0.categories)
  {
    var id := NextKey(db.categories, CategoryKey, 0);
    (db.(categories := db.categories + [Category(id, name)]), true)
  }

  /** `updateCategory`: renames the rows with that id. */
  function UpdateCategory(db: Db, id: int, newName: string): (r: (Db, bool))
    ensures r.1
    ensures |r.0.categories| == |db.categories|
    ensures forall i :: 0 <= i < |db.categories| ==>
              r.0.categories[i] == if db.categories[i].id == id then Category(id, newName) else db.categories[i]
    ensures r.0 == db.(categories := r.0.categories)
  {
    (db.(categories := MapWhere(db.categories, HasKey(CategoryKey, id), (c: Category) => c.(name := newName))), true)
  }

  /** `deleteCategory`: removes the rows with that id. */
  function DeleteCategory(db: Db, id: int): (r: (Db, bool))
    ensures r.1
    ensures forall c :: c in r.0.categories <==> c in db.categories && c.id != id
    ensures IsSubsequence(r.0.categories, db.categories)
    ensures r.0 == db.(categories := r.0.categories)
  {
    FilterMembers(db.categories, LacksKey(CategoryKey, id));
    FilterIsSubsequence(db.categories, LacksKey(CategoryKey, id));
    (db.(categories := Filter(db.categories, LacksKey(CategoryKey, id))), true)
  }

  // ---------------------------------------------------------------- products

  /** `addProduct`: ignores `product.id` and inserts the other fields under a fresh id. */
  function AddProduct(db: Db, product: Product): (r: (Db, bool))
    ensures r.1
    ensures |r.0.products| == |db.products| + 1
    ensures r.0.products[..|db.products|] == db.products
    ensures r.0.products[|db.products|] == product.(id := r.0.productSeq)
    ensures r.0.productSeq > db.productSeq
    ensures !HasRowWithKey(db.products, ProductKey, r.0.productSeq)
    ensures r.0 == db.(products := r.0.products, productSeq := r.0.productSeq)
  {
    var id := NextKey(db.products, ProductKey, db.productSeq);
    (db.(products := db.products + [product.(id := id)], productSeq := id), true)
  }

  /** `updateProduct`: rewrites all four fields of the rows with `product.id`. */
  function UpdateProduct(db: Db, product: Product): (r: (Db, bool))
    ensures r.1
    ensures |r.0.products| == |db.products|
    ensures forall i :: 0 <= i < |db.products| ==>
              r.0.products[i] == if db.products[i].id == product.id then product else db.products[i]
    ensures r.0 == db.(products := r.0.products)
  {
    (db.(products := MapWhere(db.products, HasKey(ProductKey, product.id), (p: Product) => product)), true)
  }

  /** `deleteProduct`. */
  function DeleteProduct(db: Db, id: int): (r: (Db, bool))
    ensures r.1
    ensures forall p :: p in r.0.products <==> p in db.products && p.id != id
    ensures IsSubsequence(r.0.products, db.products)
    ensures r.0 == db.(products := r.0.products)
  {
    FilterMembers(db.products, LacksKey(ProductKey, id));
    FilterIsSubsequence(db.products, LacksKey(ProductKey, id));
    (db.(products := Filter(db.products, LacksKey(ProductKey, id))), true)
  }

  // ---------------------------------------------------------------- users

  function UsernameIs(username: string): (p: User -> bool)
    ensures forall u :: p(u) == (u.username == username)
  {
    (u: User) => u.username == username
  }

  function CredentialsAre(username: string, password: string): (p: User -> bool)
    ensures forall u :: p(u) == (u.username == username && u.password == password)
  {
    (u: User) => u.username == username && u.password == password
  }

  /** `getUserByUsername`: the first row with that username, or null. */
  function GetUserByUsername(db: Db, username: string): (r: Option<User>)
    ensures r.Some? <==> UsernameTaken(db.users, username)
    ensures r.Some? ==> r.value in db.users && r.value.username == username
  {
    FindFirst(db.users, UsernameIs(username))
  }

  /** `getUserByCredentials`: the first row with that username and password, or null. */
  function GetUserByCredentials(db: Db, username: string, password: string): (r: Option<User>)
    ensures r.Some? <==> exists i :: 0 <= i < |db.users| && db.users[i].username == username
                                                         && db.users[i].password == password
    ensures r.Some? ==> r.value in db.users && r.value.username == username && r.value.password == password
  {
    FindFirst(db.users, CredentialsAre(username, password))
  }

  /** `getUserById`. */
  function GetUserById(db: Db, id: int): (r: Option<User>)
    ensures r.Some? <==> HasRowWithKey(db.users, UserKey, id)
    ensures r.Some? ==> r.value in db.users && r.value.id == id
  {
    FindFirst(db.users, HasKey(UserKey, id))
  }

  /** `addUser`: the UNIQUE username makes the insert fail when the name is taken. */
  function AddUser(db: Db, username: string, password: string, role: string): (r: (Db, bool))
    ensures r.1 <==> !UsernameTaken(db.users, username)
    ensures !r.1 ==> r.0 == db
    ensures r.1 ==> r.0.users == db.users + [User(r.0.userSeq, username, password, role)]
                    && r.0.userSeq > db.userSeq
                    && !HasRowWithKey(db.users, UserKey, r.0.userSeq)
    ensures r.0 == db.(users := r.0.users, userSeq := r.0.userSeq)
  {
    if UsernameTaken(db.users, username) then (db, false)
    else
      var id := NextKey(db.users, UserKey, db.userSeq);
      (db.(users := db.users + [User(id, username, password, role)], userSeq := id), true)
  }

  /**
   * `updateUser` is `UPDATE ... WHERE id = ?`: it fails on the UNIQUE username
   * only when a row with that id exists and a different row already has the
   * new username; an unknown id updates nothing and still reports success.
   */
  predicate UpdateUserConflicts(users: seq<User>, user: User) {
    HasRowWithKey(users, UserKey, user.id)
    && exists i :: 0 <= i < |users| && users[i].id != user.id && users[i].username == user.username
  }

  function UpdateUser(db: Db, user: User): (r: (Db, bool))
    ensures r.1 <==> !UpdateUserConflicts(db.users, user)
    ensures !r.1 ==> r.0 == db
    ensures |r.0.users| == |db.users|
    ensures r.1 ==> forall i :: 0 <= i < |db.users| ==>
                      r.0.users[i] == if db.users[i].id == user.id then user else db.users[i]
    ensures r.0 == db.(users := r.0.users)
  {
    if UpdateUserConflicts(db.users, user) then (db, false)
    else (db.(users := MapWhere(db.users, HasKey(UserKey, user.id), (u: User) => user)), true)
  }

  /** `deleteUser`. */
  function DeleteUser(db: Db, id: int): (r: (Db, bool))
    ensures r.1
    ensures forall u :: u in r.0.users <==> u in db.users && u.id != id
    ensures IsSubsequence(r.0.users, db.users)
    ensures r.0 == db.(users := r.0.users)
  {
    FilterMembers(db.users, LacksKey(UserKey, id));
    FilterIsSubsequence(db.users, LacksKey(UserKey, id));
    (db.(users := Filter(db.users, LacksKey(UserKey, id))), true)
  }

  // ---------------------------------------------------------------- invariant

  lemma CategoryWritesPreserveWellFormed(db: Db, id: int, name: string)
    requires WellFormed(db)
    ensures WellFormed(AddCategory(db, name).0)
    ensures WellFormed(UpdateCategory(db, id, name).0)
    ensures WellFormed(DeleteCategory(db, id).0)
  {
    FilterKeepsKeys(db.categories, LacksKey(CategoryKey, id), CategoryKey, 0);
    MapWhereKeepsKeys(db.categories, HasKey(CategoryKey, id), (c: Category) => c.(name := name), CategoryKey, 0);
  }

  lemma ProductWritesPreserveWellFormed(db: Db, product: Product, id: int)
    requires WellFormed(db)
    ensures WellFormed(AddProduct(db, product).0)
    ensures WellFormed(UpdateProduct(db, product).0)
    ensures WellFormed(DeleteProduct(db, id).0)
  {
    FilterKeepsKeys(db.products, LacksKey(ProductKey, id), ProductKey, db.productSeq);
    var r := UpdateProduct(db, product).0;
    forall i, j | 0 <= i < j < |r.products|
      ensures r.products[i].id != r.products[j].id
    {
    }
  }

  lemma AddUserPreservesWellFormed(db: Db, username: string, password: string, role: string)
    requires WellFormed(db)
    ensures WellFormed(AddUser(db, username, password, role).0)
  {
  }

  lemma UpdateUserPreservesWellFormed(db: Db, user: User)
    requires WellFormed(db)
    ensures WellFormed(UpdateUser(db, user).0)
  {
    var (r, ok) := UpdateUser(db, user);
    if ok {
      forall i, j | 0 <= i < j < |r.users|
        ensures r.users[i].id != r.users[j].id && r.users[i].username != r.users[j].username
      {
      }
    }
  }

  lemma DeleteUserPreservesWellFormed(db: Db, id: int)
    requires WellFormed(db)
    ensures WellFormed(DeleteUser(db, id).0)
  {
    FilterKeepsKeys(db.users, LacksKey(UserKey, id), UserKey, db.userSeq);
    var d := Filter(db.users, LacksKey(UserKey, id));
    forall i, j | 0 <= i < j < |d|
      ensures d[i].username != d[j].username
    {
      FilterIndexesIncrease(db.users, LacksKey(UserKey, id), i, j);
    }
  }

  /** Two positions of a filter's result come from two increasing positions of its input. */
  lemma {:induction false} FilterIndexesIncrease<T(!new)>(xs: seq<T>, keep: T -> bool, i: int, j: int)
    requires 0 <= i < j < |Filter(xs, keep)|
    ensures exists a, b :: 0 <= a < b < |xs| && Filter(xs, keep)[i] == xs[a] && Filter(xs, keep)[j] == xs[b]
    decreases |xs|
  {
    var f := Filter(xs, keep);
    var rest := Filter(xs[1..], keep);
    FilterMembers(xs[1..], keep);
    if keep(xs[0]) {
      if i == 0 {
        assert f[j] == rest[j - 1] && rest[j - 1] in xs[1..];
        var b :| 0 <= b < |xs[1..]| && xs[1..][b] == rest[j - 1];
        assert f[i] == xs[0] && f[j] == xs[b + 1];
      } else {
        FilterIndexesIncrease(xs[1..], keep, i - 1, j - 1);
        var a, b :| 0 <= a < b < |xs[1..]| && rest[i - 1] == xs[1..][a] && rest[j - 1] == xs[1..][b];
        assert f[i] == xs[a + 1] && f[j] == xs[b + 1];
      }
    } else {
      FilterIndexesIncrease(xs[1..], keep, i, j);
      var a, b :| 0 <= a < b < |xs[1..]| && rest[i] == xs[1..][a] && rest[j] == xs[1..][b];
      assert f[i] == xs[a + 1] && f[j] == xs[b + 1];
    }
  }
}

=== FILE: cake_orders.dfy ===
/**
 * Orders in `database/CakeDatabase.ts`: `checkout`, `checkoutOrder` and
 * `updateOrderStatus`.
 *
 * `checkout` runs its statements one after another without a transaction:
 * insert the order, insert one line per joined cart row, then delete the
 * user's cart. The model is the run in which every statement succeeds.
 */
module CakeOrders {
  import opened Wrappers
  import opened Seqs
  import opened JsParseInt
  import opened CakeSchema
  import opened CakeCart
  import opened CakeCatalog

  /** The status every new order starts with. */
  const Pending: string := "Pending"

  /** `WHERE userId <> u`: the cart rows `DELETE FROM cart WHERE userId = u` keeps. */
  function OtherUser(userId: int): (p: CartRow -> bool)
    ensures forall r :: p(r) == (r.userId != userId)
  {
    (r: CartRow) => r.userId != userId
  }

  /** The row rewrite of `UPDATE orders SET status = ?`. */
  function SetStatus(status: string): (f: Order -> Order)
    ensures forall o :: f(o) == o.(status := status)
  {
    (o: Order) => o.(status := status)
  }

  /** An order line copies the product id, the quantity and the price string of its cart line. */
  predicate IsSnapshotOf(line: OrderItem, orderId: int, item: CartItem) {
    && line.orderId == orderId
    && line.productId == item.productId
    && line.quantity == item.quantity
    && line.price == item.price
  }

  /** One `INSERT INTO order_items`, under a fresh id. */
  function InsertOrderItem(db: Db, orderId: int, item: CartItem): (r: Db)
    ensures r == db.(orderItems := r.orderItems, orderItemSeq := r.orderItemSeq)
    ensures |r.orderItems| == |db.orderItems| + 1 && db.orderItems <= r.orderItems
    ensures IsSnapshotOf(r.orderItems[|db.orderItems|], orderId, item)
  {
    var id := NextKey(db.orderItems, OrderItemKey, db.orderItemSeq);
    var line := OrderItem(id, orderId, item.productId, item.quantity, item.price);
    db.(orderItems := db.orderItems + [line], orderItemSeq := id)
  }

  /** `checkout`'s loop: one order line per cart line, in the cart's order. */
  function InsertOrderItems(db: Db, orderId: int, items: seq<CartItem>): (r: Db)
    ensures r == db.(orderItems := r.orderItems, orderItemSeq := r.orderItemSeq)
    ensures |r.orderItems| == |db.orderItems| + |items|
    ensures db.orderItems <= r.orderItems
    ensures forall k :: 0 <= k < |items| ==> IsSnapshotOf(r.orderItems[|db.orderItems| + k], orderId, items[k])
    decreases |items|
  {
    if |items| == 0 then db
    else
      var d1 := InsertOrderItem(db, orderId, items[0]);
      var r := InsertOrderItems(d1, orderId, items[1..]);
      var n := |db.orderItems|;
      assert forall k :: 0 <= k < |items| ==> IsSnapshotOf(r.orderItems[n + k], orderId, items[k]) by {
        forall k | 0 <= k < |items|
          ensures IsSnapshotOf(r.orderItems[n + k], orderId, items[k])
        {
          if k == 0 {
            assert r.orderItems[n] == d1.orderItems[n];
          } else {
            assert items[k] == items[1..][k - 1];
          }
        }
      }
      r
  }

  /** The new order row `checkout` inserts. */
  function NewOrder(db: Db, userId: int, items: seq<CartItem>, phone: string, paymentMethod: string, orderDate: string): (o: Order)
    ensures o.id > db.orderSeq && !HasRowWithKey(db.orders, OrderKey, o.id)
    ensures o.userId == userId && o.totalPrice == LinesTotal(items) && o.status == Pending
    ensures o.orderDate == orderDate && o.phone == phone && o.paymentMethod == paymentMethod
  {
    Order(NextKey(db.orders, OrderKey, db.orderSeq), userId, LinesTotal(items), Pending, orderDate, phone, paymentMethod)
  }

  /** `INSERT INTO orders`: the order row appended and its id recorded as the table's sequence value. */
  function InsertOrder(db: Db, order: Order): (r: Db)
    ensures r.categories == db.categories && r.products == db.products && r.users == db.users
    ensures r.cart == db.cart && r.orderItems == db.orderItems
    ensures r.orders == db.orders + [order]
  {
    db.(orders := db.orders + [order], orderSeq := order.id)
  }

  /** Deleting one user's cart rows leaves every other user's cart rows as they were, in order. */
  lemma OtherCartsKept(cart: seq<CartRow>, userId: int)
    ensures forall v :: v != userId ==> CartOf(Filter(cart, OtherUser(userId)), v) == CartOf(cart, v)
  {
    forall v | v != userId
      ensures CartOf(Filter(cart, OtherUser(userId)), v) == CartOf(cart, v)
    {
      var both := (row: CartRow) => row.userId != userId && row.userId == v;
      FilterFilter(cart, OtherUser(userId), UserIs(v), both);
      FilterCongruent(cart, both, UserIs(v));
    }
  }

  /** `DELETE FROM cart WHERE userId = ?`. */
  function ClearCart(db: Db, userId: int): (r: Db)
    ensures r.categories == db.categories && r.products == db.products && r.users == db.users
    ensures r.orders == db.orders && r.orderItems == db.orderItems
    ensures forall i :: 0 <= i < |r.cart| ==> r.cart[i].userId != userId
    ensures forall v :: v != userId ==> CartOf(r.cart, v) == CartOf(db.cart, v)
  {
    OtherCartsKept(db.cart, userId);
    db.(cart := Filter(db.cart, OtherUser(userId)))
  }

  /**
   * The writes of a `checkout` that found the lines `items`: the order row, one
   * order line per cart line, then `DELETE FROM cart WHERE userId = ?`.
   */
  function PlaceOrder(db: Db, order: Order, items: seq<CartItem>): (r: Db)
    ensures r.categories == db.categories && r.products == db.products && r.users == db.users
    ensures r.orders == db.orders + [order]
    ensures |r.orderItems| == |db.orderItems| + |items|
    ensures db.orderItems <= r.orderItems
    ensures forall k :: 0 <= k < |items| ==> IsSnapshotOf(r.orderItems[|db.orderItems| + k], order.id, items[k])
    ensures forall i :: 0 <= i < |r.cart| ==> r.cart[i].userId != order.userId
    ensures forall v :: v != order.userId ==> CartOf(r.cart, v) == CartOf(db.cart, v)
  {
    ClearCart(InsertOrderItems(InsertOrder(db, order), order.id, items), order.userId)
  }

  /**
   * `checkout(userId, phone, paymentMethod)`. The timestamp `new Date().toISOString()`
   * is the parameter `orderDate`. The boolean is the function's result.
   */
  function Checkout(db: Db, userId: int, phone: string, paymentMethod: string, orderDate: string): (r: (Db, bool))
    ensures r.1 <==> |FetchCart(db, userId)| > 0
    ensures !r.1 ==> r.0 == db
    ensures r.0.categories == db.categories && r.0.products == db.products && r.0.users == db.users
    ensures r.1 ==> r.0.orders == db.orders + [NewOrder(db, userId, FetchCart(db, userId), phone, paymentMethod, orderDate)]
    ensures r.1 ==> forall i :: 0 <= i < |r.0.cart| ==> r.0.cart[i].userId != userId
  {
    var items := FetchCart(db, userId);
    if |items| == 0 then (db, false)
    else (PlaceOrder(db, NewOrder(db, userId, items, phone, paymentMethod, orderDate), items), true)
  }

  /** `checkoutOrder`: `checkout` for the logged-in user; without a session nothing happens. */
  function CheckoutOrder(db: Db, session: Option<User>, phone: string, paymentMethod: string, orderDate: string): (r: (Db, bool))
    ensures session.None? ==> r == (db, false)
    ensures session.Some? ==> r == Checkout(db, session.value.id, phone, paymentMethod, orderDate)
  {
    match session
    case None => (db, false)
    case Some(u) => Checkout(db, u.id, phone, paymentMethod, orderDate)
  }

  /** `updateOrderStatus`: `UPDATE orders SET status = ? WHERE id = ?`, for any string and any current status. */
  function UpdateOrderStatus(db: Db, orderId: int, status: string): (r: Db)
    ensures |r.orders| == |db.orders|
    ensures forall i :: 0 <= i < |db.orders| ==>
              r.orders[i] == if db.orders[i].id == orderId then db.orders[i].(status := status) else db.orders[i]
    ensures r == db.(orders := r.orders)
  {
    db.(orders := MapWhere(db.orders, HasKey(OrderKey, orderId), SetStatus(status)))
  }

  // ---------------------------------------------------------------- checkout

  /** A successful checkout adds one order line per joined cart line, each a snapshot of that line. */
  lemma CheckoutWritesLines(db: Db, userId: int, phone: string, paymentMethod: string, orderDate: string)
    requires |FetchCart(db, userId)| > 0
    ensures var r := Checkout(db, userId, phone, paymentMethod, orderDate).0;
            var items := FetchCart(db, userId);
            var orderId := NextKey(db.orders, OrderKey, db.orderSeq);
            && |r.orderItems| == |db.orderItems| + |items|
            && db.orderItems <= r.orderItems
            && forall k :: 0 <= k < |items| ==> IsSnapshotOf(r.orderItems[|db.orderItems| + k], orderId, items[k])
  {
    var items := FetchCart(db, userId);
    assert Checkout(db, userId, phone, paymentMethod, orderDate).0 == PlaceOrder(db, NewOrder(db, userId, items, phone, paymentMethod, orderDate), items);
  }

  /** The new order is `Pending`, belongs to the user and carries the sum of the lines. */
  lemma CheckoutOrderRow(db: Db, userId: int, phone: string, paymentMethod: string, orderDate: string)
    requires |FetchCart(db, userId)| > 0
    ensures var r := Checkout(db, userId, phone, paymentMethod, orderDate).0;
            && |r.orders| == |db.orders| + 1
            && r.orders[|db.orders|].status == Pending
            && r.orders[|db.orders|].userId == userId
            && r.orders[|db.orders|].totalPrice == LinesTotal(FetchCart(db, userId))
            && r.orders[|db.orders|].phone == phone
            && r.orders[|db.orders|].paymentMethod == paymentMethod
            && !HasRowWithKey(db.orders, OrderKey, r.orders[|db.orders|].id)
  {
    var r := Checkout(db, userId, phone, paymentMethod, orderDate).0;
    var o := NewOrder(db, userId, FetchCart(db, userId), phone, paymentMethod, orderDate);
    assert r.orders[|db.orders|] == o;
  }

  /**
   * A successful checkout empties the user's cart, rows whose product is gone
   * included, and leaves every other user's cart rows as they were.
   */
  lemma CheckoutClearsOnlyThatCart(db: Db, userId: int, phone: string, paymentMethod: string, orderDate: string, other: int)
    requires |FetchCart(db, userId)| > 0
    requires other != userId
    ensures var r := Checkout(db, userId, phone, paymentMethod, orderDate).0;
            && CartOf(r.cart, userId) == []
            && CartOf(r.cart, other) == CartOf(db.cart, other)
  {
    var r := Checkout(db, userId, phone, paymentMethod, orderDate).0;
    var kept := Filter(db.cart, OtherUser(userId));
    assert r.cart == kept;
    var mine := CartOf(kept, userId);
    if |mine| > 0 {
      FilterMembers(kept, UserIs(userId));
      assert mine[0] in kept;
      FilterMembers(db.cart, OtherUser(userId));
      assert false;
    }
  }

  /** `checkout` returns false and changes nothing when no cart line joins to a product. */
  lemma CheckoutWithoutLinesIsNoOp(db: Db, userId: int, phone: string, paymentMethod: string, orderDate: string)
    requires forall i :: 0 <= i < |db.cart| && db.cart[i].userId == userId ==>
               !HasRowWithKey(db.products, ProductKey, db.cart[i].productId)
    ensures Checkout(db, userId, phone, paymentMethod, orderDate) == (db, false)
  {
    var mine := CartOf(db.cart, userId);
    forall i | 0 <= i < |mine|
      ensures !HasRowWithKey(db.products, ProductKey, mine[i].productId)
    {
      FilterMembers(db.cart, UserIs(userId));
      assert mine[i] in db.cart;
    }
  }

  /** Order lines inserted by the loop keep fresh, increasing ids. */
  lemma {:induction false} InsertOrderItemsKeepsKeys(db: Db, orderId: int, items: seq<CartItem>)
    requires UniqueKeys(db.orderItems, OrderItemKey) && KeysAtMost(db.orderItems, OrderItemKey, db.orderItemSeq)
    ensures var r := InsertOrderItems(db, orderId, items);
            UniqueKeys(r.orderItems, OrderItemKey) && KeysAtMost(r.orderItems, OrderItemKey, r.orderItemSeq)
    decreases |items|
  {
    if |items| > 0 {
      var id := NextKey(db.orderItems, OrderItemKey, db.orderItemSeq);
      var line := OrderItem(id, orderId, items[0].productId, items[0].quantity, items[0].price);
      AppendFreshKey(db.orderItems, line, OrderItemKey, db.orderItemSeq);
      InsertOrderItemsKeepsKeys(InsertOrderItem(db, orderId, items[0]), orderId, items[1..]);
    }
  }

  lemma CheckoutPreservesWellFormed(db: Db, userId: int, phone: string, paymentMethod: string, orderDate: string)
    requires WellFormed(db)
    ensures WellFormed(Checkout(db, userId, phone, paymentMethod, orderDate).0)
  {
    var items := FetchCart(db, userId);
    if |items| > 0 {
      var order := NewOrder(db, userId, items, phone, paymentMethod, orderDate);
      AppendFreshKey(db.orders, order, OrderKey, db.orderSeq);
      var d1 := db.(orders := db.orders + [order], orderSeq := order.id);
      InsertOrderItemsKeepsKeys(d1, order.id, items);
      var d2 := InsertOrderItems(d1, order.id, items);
      FilterKeepsKeys(d2.cart, OtherUser(userId), CartKey, d2.cartSeq);
    }
  }

  /** `checkoutOrder` without a session neither writes nor succeeds. */
  lemma CheckoutOrderNeedsSession(db: Db, phone: string, paymentMethod: string, orderDate: string)
    ensures CheckoutOrder(db, None, phone, paymentMethod, orderDate) == (db, false)
  {
  }

  /** The `reduce` over two lines, written out. */
  lemma LinesTotalOfTwo(a: CartItem, b: CartItem)
    ensures LinesTotal([a, b]) == ParsePrice(a.price) * a.quantity + ParsePrice(b.price) * b.quantity
  {
    assert [a, b][..1] == [a];
    assert [a][..0] == [];
    assert LinesTotal([a]) == LinesTotal([]) + ParsePrice(a.price) * a.quantity;
    assert LinesTotal([a, b]) == LinesTotal([a]) + ParsePrice(b.price) * b.quantity;
  }

  /** `'15.000'` is 15. */
  lemma ParsePriceFifteen()
    ensures ParsePrice("15.000") == 15
  {
    assert "15" + "." + "000" == "15.000";
    assert DigitsValue("15", 10) == 15 by {
      assert "15"[..1] == "1";
    }
    ParsePriceStopsAtDot("15", "000");
  }

  /**
   * The seed prices `'25.000'` and `'15.000'` are read as 25 and 15, so two of
   * the first and one of the second total 65.
   */
  lemma SeedPricesTotal(a: CartItem, b: CartItem)
    requires a.price == "25.000" && a.quantity == 2
    requires b.price == "15.000" && b.quantity == 1
    ensures LinesTotal([a, b]) == 65
  {
    LinesTotalOfTwo(a, b);
    ParsePriceDotExample();
    ParsePriceFifteen();
  }

  // ---------------------------------------------------------------- snapshots

  /**
   * Editing a product after checkout does not touch orders or order lines: the
   * line keeps the price string it was given at checkout.
   */
  lemma PriceSnapshotSurvivesProductEdit(db: Db, userId: int, phone: string, paymentMethod: string, orderDate: string,
                                         product: Product, k: int)
    requires |FetchCart(db, userId)| > 0
    requires 0 <= k < |FetchCart(db, userId)|
    ensures var placed := Checkout(db, userId, phone, paymentMethod, orderDate).0;
            var edited := UpdateProduct(placed, product).0;
            && edited.orders == placed.orders
            && edited.orderItems[|db.orderItems| + k].price == FetchCart(db, userId)[k].price
  {
    CheckoutWritesLines(db, userId, phone, paymentMethod, orderDate);
  }

  // ---------------------------------------------------------------- status

  /** Writing the same status twice is writing it once. */
  lemma UpdateOrderStatusIdempotent(db: Db, orderId: int, status: string)
    ensures UpdateOrderStatus(UpdateOrderStatus(db, orderId, status), orderId, status) == UpdateOrderStatus(db, orderId, status)
  {
    var once := UpdateOrderStatus(db, orderId, status);
    var twice := UpdateOrderStatus(once, orderId, status);
    assert twice.orders == once.orders;
  }

  /**
   * No transition is guarded: from any status, any two writes in a row leave
   * the second value, so `Completed` can go back to `Pending` or `Canceled`.
   */
  lemma UpdateOrderStatusLastWriteWins(db: Db, i: int, first: string, second: string)
    requires 0 <= i < |db.orders|
    ensures var id := db.orders[i].id;
            UpdateOrderStatus(UpdateOrderStatus(db, id, first), id, second).orders[i].status == second
  {
  }

  /** An id no order has: the update changes nothing. */
  lemma UpdateOrderStatusUnknownId(db: Db, orderId: int, status: string)
    requires !HasRowWithKey(db.orders, OrderKey, orderId)
    ensures UpdateOrderStatus(db, orderId, status) == db
  {
    var r := UpdateOrderStatus(db, orderId, status);
    assert r.orders == db.orders;
  }

  lemma UpdateOrderStatusPreservesWellFormed(db: Db, orderId: int, status: string)
    requires WellFormed(db)
    ensures WellFormed(UpdateOrderStatus(db, orderId, status))
  {
    MapWhereKeepsKeys(db.orders, HasKey(OrderKey, orderId), SetStatus(status), OrderKey, db.orderSeq);
  }
}

=== FILE: cake_schema.dfy ===
/**
 * The local store of the cake shop: the six tables of `database/CakeDatabase.ts`
 * held as immutable sequences of rows in storage order, together with the
 * AUTOINCREMENT sequence values SQLite keeps in `sqlite_sequence`.
 */
module CakeSchema {
  import opened Wrappers
  import opened Seqs

  datatype Category = Category(id: int, name: string)
  datatype Product = Product(id: int, name: string, price: string, img: string, categoryId: int)
  datatype User = User(id: int, username: string, password: string, role: string)
  datatype CartRow = CartRow(id: int, userId: int, productId: int, quantity: int)
  datatype Order = Order(id: int, userId: int, totalPrice: int, status: string,
                         orderDate: string, phone: string, paymentMethod: string)
  datatype OrderItem = OrderItem(id: int, orderId: int, productId: int, quantity: int, price: string)

  /**
   * The whole store. `categories` has a plain INTEGER PRIMARY KEY; every other
   * table is AUTOINCREMENT and has its sequence value here (0 before the first insert).
   */
  datatype Db = Db(
    categories: seq<Category>,
    products: seq<Product>,
    users: seq<User>,
    cart: seq<CartRow>,
    orders: seq<Order>,
    orderItems: seq<OrderItem>,
    productSeq: int,
    userSeq: int,
    cartSeq: int,
    orderSeq: int,
    orderItemSeq: int)

  /** The store the first `CREATE TABLE IF NOT EXISTS` leaves behind. */
  const EmptyDb: Db := Db([], [], [], [], [], [], 0, 0, 0, 0, 0)

  function CategoryKey(c: Category): int { c.id }
  function ProductKey(p: Product): int { p.id }
  function UserKey(u: User): int { u.id }
  function CartKey(r: CartRow): int { r.id }
  function OrderKey(o: Order): int { o.id }
  function OrderItemKey(i: OrderItem): int { i.id }

  /** `WHERE id = k`. */
  function HasKey<T(!new)>(key: T -> int, k: int): (p: T -> bool)
    ensures forall x :: p(x) == (key(x) == k)
  {
    x => key(x) == k
  }

  /** `WHERE id <> k`: the rows a `DELETE ... WHERE id = k` keeps. */
  function LacksKey<T(!new)>(key: T -> int, k: int): (p: T -> bool)
    ensures forall x :: p(x) == (key(x) != k)
  {
    x => key(x) != k
  }

  /** No two rows share a key. */
  ghost predicate UniqueKeys<T>(xs: seq<T>, key: T -> int) {
    forall i, j :: 0 <= i < j < |xs| ==> key(xs[i]) != key(xs[j])
  }

  /** Every key is at most `bound`. */
  ghost predicate KeysAtMost<T>(xs: seq<T>, key: T -> int, bound: int) {
    forall i :: 0 <= i < |xs| ==> key(xs[i]) <= bound
  }

  predicate HasRowWithKey<T>(xs: seq<T>, key: T -> int, k: int) {
    exists i :: 0 <= i < |xs| && key(xs[i]) == k
  }

  /** The largest key, or 0 for an empty table. */
  function MaxKey<T>(xs: seq<T>, key: T -> int): (m: int)
    ensures forall i :: 0 <= i < |xs| ==> key(xs[i]) <= m
    ensures |xs| > 0 ==> exists i :: 0 <= i < |xs| && key(xs[i]) == m
  {
    if |xs| == 0 then 0
    else if |xs| == 1 then key(xs[0])
    else
      var m := MaxKey(xs[1..], key);
      assert forall i :: 1 <= i < |xs| ==> xs[i] == xs[1..][i - 1];
      if key(xs[0]) >= m then key(xs[0]) else m
  }

  /**
   * The id SQLite gives a row inserted without one: one more than the larger of
   * the sequence value and the largest id present. For a table without
   * AUTOINCREMENT pass a sequence value of 0 (an empty table then starts at 1).
   */
  function NextKey<T>(xs: seq<T>, key: T -> int, sequence: int): (k: int)
    ensures k > sequence
    ensures forall i :: 0 <= i < |xs| ==> key(xs[i]) < k
  {
    var m := MaxKey(xs, key);
    (if m > sequence then m else sequence) + 1
  }

  /** Usernames are UNIQUE in the `users` table. */
  ghost predicate UniqueUsernames(users: seq<User>) {
    forall i, j :: 0 <= i < j < |users| ==> users[i].username != users[j].username
  }

  predicate UsernameTaken(users: seq<User>, username: string) {
    exists i :: 0 <= i < |users| && users[i].username == username
  }

  /**
   * The store invariant every write keeps: ids are unique in every table, no
   * AUTOINCREMENT id exceeds its sequence value, and usernames are unique.
   */
  ghost predicate WellFormed(db: Db) {
    && UniqueKeys(db.categories, CategoryKey)
    && UniqueKeys(db.products, ProductKey) && KeysAtMost(db.products, ProductKey, db.productSeq)
    && UniqueKeys(db.users, UserKey) && KeysAtMost(db.users, UserKey, db.userSeq)
    && UniqueUsernames(db.users)
    && UniqueKeys(db.cart, CartKey) && KeysAtMost(db.cart, CartKey, db.cartSeq)
    && UniqueKeys(db.orders, OrderKey) && KeysAtMost(db.orders, OrderKey, db.orderSeq)
    && UniqueKeys(db.orderItems, OrderItemKey) && KeysAtMost(db.orderItems, OrderItemKey, db.orderItemSeq)
  }

  /** The empty store satisfies the invariant. */
  lemma EmptyDbWellFormed()
    ensures WellFormed(EmptyDb)
  {
  }

  /** Appending a row whose key exceeds every key keeps keys unique and bounded by the new key. */
  lemma AppendFreshKey<T>(xs: seq<T>, x: T, key: T -> int, bound: int)
    requires UniqueKeys(xs, key) && KeysAtMost(xs, key, bound)
    requires key(x) > bound
    ensures UniqueKeys(xs + [x], key) && KeysAtMost(xs + [x], key, key(x))
  {
  }

  /** Deleting rows keeps keys unique and bounded. */
  lemma {:induction false} FilterKeepsKeys<T(!new)>(xs: seq<T>, keep: T -> bool, key: T -> int, bound: int)
    requires UniqueKeys(xs, key)
    ensures UniqueKeys(Filter(xs, keep), key)
    ensures KeysAtMost(xs, key, bound) ==> KeysAtMost(Filter(xs, keep), key, bound)
    decreases |xs|
  {
    if |xs| != 0 {
      FilterKeepsKeys(xs[1..], keep, key, bound);
      FilterMembers(xs[1..], keep);
      FilterMembers(xs, keep);
      var rest := Filter(xs[1..], keep);
      forall j | 0 <= j < |rest|
        ensures key(rest[j]) != key(xs[0])
      {
        assert rest[j] in xs[1..];
      }
      forall j | 0 <= j < |Filter(xs, keep)|
        ensures KeysAtMost(xs, key, bound) ==> key(Filter(xs, keep)[j]) <= bound
      {
        assert Filter(xs, keep)[j] in xs;
      }
    }
  }

  /** Updating rows without touching their keys keeps keys unique and bounded. */
  lemma MapWhereKeepsKeys<T>(xs: seq<T>, hit: T -> bool, f: T -> T, key: T -> int, bound: int)
    requires forall x :: key(f(x)) == key(x)
    ensures UniqueKeys(xs, key) ==> UniqueKeys(MapWhere(xs, hit, f), key)
    ensures KeysAtMost(xs, key, bound) ==> KeysAtMost(MapWhere(xs, hit, f), key, bound)
  {
  }

  /** With unique keys, at most one row has key `k`, so deleting it removes exactly one row when present. */
  lemma {:induction false} DeleteUniqueKey<T(!new)>(xs: seq<T>, key: T -> int, k: int)
    requires UniqueKeys(xs, key)
    ensures |Filter(xs, LacksKey(key, k))| == if HasRowWithKey(xs, key, k) then |xs| - 1 else |xs|
    decreases |xs|
  {
    if |xs| != 0 {
      DeleteUniqueKey(xs[1..], key, k);
      if key(xs[0]) == k {
        assert !HasRowWithKey(xs[1..], key, k);
        FilterAll(xs[1..], LacksKey(key, k));
      } else {
        assert HasRowWithKey(xs, key, k) == HasRowWithKey(xs[1..], key, k) by {
          if HasRowWithKey(xs, key, k) {
            var i :| 0 <= i < |xs| && key(xs[i]) == k;
            assert key(xs[1..][i - 1]) == k;
          }
          if HasRowWithKey(xs[1..], key, k) {
            var i :| 0 <= i < |xs[1..]| && key(xs[1..][i]) == k;
            assert key(xs[i + 1]) == k;
          }
        }
      }
    }
  }
}

=== FILE: cake_seed.dfy ===
/**
 * `initDatabase`: the sample categories, products and users inserted with
 * `INSERT OR IGNORE`, so a row whose insertion would violate a PRIMARY KEY or
 * UNIQUE constraint is skipped and the existing row is left as it is.
 */
module CakeSeed {
  import opened CakeSchema

  /** A seeding pass over one table: its rows and its sequence value. */
  datatype Table<T> = Table(rows: seq<T>, sequence: int)

  /** Some row of `rows` makes inserting `x` violate a constraint. */
  predicate Blocked<T>(rows: seq<T>, x: T, clash: (T, T) -> bool) {
    exists i :: 0 <= i < |rows| && clash(rows[i], x)
  }

  /**
   * One `INSERT OR IGNORE` with an explicit id: skipped when blocked, otherwise
   * the row is appended and the sequence value becomes at least its id.
   */
  function InsertOrIgnore<T>(t: Table<T>, x: T, clash: (T, T) -> bool, key: T -> int): (r: Table<T>)
    ensures Blocked(t.rows, x, clash) ==> r == t
    ensures !Blocked(t.rows, x, clash) ==> r.rows == t.rows + [x]
    ensures r.sequence >= t.sequence
  {
    if Blocked(t.rows, x, clash) then t
    else Table(t.rows + [x], if key(x) > t.sequence then key(x) else t.sequence)
  }

  /** The seeding loop: one `INSERT OR IGNORE` per seed row, in order. */
  function SeedTable<T>(t: Table<T>, seeds: seq<T>, clash: (T, T) -> bool, key: T -> int): (r: Table<T>)
    ensures |r.rows| >= |t.rows| && r.rows[..|t.rows|] == t.rows
    ensures r.sequence >= t.sequence
    decreases |seeds|
  {
    if |seeds| == 0 then t
    else SeedTable(InsertOrIgnore(t, seeds[0], clash, key), seeds[1..], clash, key)
  }

  /** Once a row is blocked it stays blocked however many rows are appended. */
  lemma StaysBlocked<T>(rows: seq<T>, more: seq<T>, x: T, clash: (T, T) -> bool)
    requires |more| >= |rows| && more[..|rows|] == rows
    requires Blocked(rows, x, clash)
    ensures Blocked(more, x, clash)
  {
    var i :| 0 <= i < |rows| && clash(rows[i], x);
    assert more[i] == rows[i];
  }

  /** After seeding, every seed row is either present or blocked by an existing row. */
  lemma {:induction false} SeedTableBlocksAll<T>(t: Table<T>, seeds: seq<T>, clash: (T, T) -> bool, key: T -> int)
    requires forall x :: clash(x, x)
    ensures forall k :: 0 <= k < |seeds| ==> Blocked(SeedTable(t, seeds, clash, key).rows, seeds[k], clash)
    decreases |seeds|
  {
    if |seeds| != 0 {
      var t1 := InsertOrIgnore(t, seeds[0], clash, key);
      var r := SeedTable(t, seeds, clash, key);
      SeedTableBlocksAll(t1, seeds[1..], clash, key);
      assert Blocked(t1.rows, seeds[0], clash) by {
        if !Blocked(t.rows, seeds[0], clash) {
          assert t1.rows[|t.rows|] == seeds[0];
        }
      }
      StaysBlocked(t1.rows, r.rows, seeds[0], clash);
      forall k | 1 <= k < |seeds|
        ensures Blocked(r.rows, seeds[k], clash)
      {
        assert seeds[k] == seeds[1..][k - 1];
      }
    }
  }

  /** Seeding a table in which every seed is already blocked changes nothing. */
  lemma {:induction false} SeedTableAllBlocked<T>(t: Table<T>, seeds: seq<T>, clash: (T, T) -> bool, key: T -> int)
    requires forall k :: 0 <= k < |seeds| ==> Blocked(t.rows, seeds[k], clash)
    ensures SeedTable(t, seeds, clash, key) == t
    decreases |seeds|
  {
    if |seeds| != 0 {
      assert Blocked(t.rows, seeds[0], clash);
      forall k | 0 <= k < |seeds[1..]|
        ensures Blocked(t.rows, seeds[1..][k], clash)
      {
        assert seeds[1..][k] == seeds[k + 1];
      }
      SeedTableAllBlocked(t, seeds[1..], clash, key);
    }
  }

  /** Seeding twice gives the same table as seeding once. */
  lemma SeedTableIdempotent<T>(t: Table<T>, seeds: seq<T>, clash: (T, T) -> bool, key: T -> int)
    requires forall x :: clash(x, x)
    ensures SeedTable(SeedTable(t, seeds, clash, key), seeds, clash, key) == SeedTable(t, seeds, clash, key)
  {
    SeedTableBlocksAll(t, seeds, clash, key);
    SeedTableAllBlocked(SeedTable(t, seeds, clash, key), seeds, clash, key);
  }

  /**
   * Seeding keeps keys unique, and bounded by the sequence value, as long as
   * rows with equal keys always clash.
   */
  lemma {:induction false} SeedTableKeepsKeys<T>(t: Table<T>, seeds: seq<T>, clash: (T, T) -> bool, key: T -> int)
    requires forall a, b :: key(a) == key(b) ==> clash(a, b)
    requires UniqueKeys(t.rows, key)
    ensures UniqueKeys(SeedTable(t, seeds, clash, key).rows, key)
    ensures KeysAtMost(t.rows, key, t.sequence) ==>
              KeysAtMost(SeedTable(t, seeds, clash, key).rows, key, SeedTable(t, seeds, clash, key).sequence)
    decreases |seeds|
  {
    if |seeds| != 0 {
      var t1 := InsertOrIgnore(t, seeds[0], clash, key);
      assert UniqueKeys(t1.rows, key);
      SeedTableKeepsKeys(t1, seeds[1..], clash, key);
    }
  }

  function SameCategoryId(a: Category, b: Category): bool { a.id == b.id }
  function SameProductId(a: Product, b: Product): bool { a.id == b.id }

  /** A user row is blocked by an equal id (PRIMARY KEY) or an equal username (UNIQUE). */
  function UserClash(a: User, b: User): (c: bool)
    ensures a.id == b.id ==> c
    ensures a.username == b.username ==> c
    ensures !c ==> a.id != b.id && a.username != b.username
  {
    a.id == b.id || a.username == b.username
  }

  const SeedCategories: seq<Category> := [
    Category(1, "Pudding"),
    Category(2, "Cup Cake"),
    Category(3, "Macaron"),
    Category(4, "Donuts")
  ]

  const SeedProducts: seq<Product> := [
    Product(1, "Vanilla Pudding", "25.000", "Vanilla_Pudding.jpg", 1),
    Product(2, "Gourmet Red Velvet Cupcake", "15.000", "Gourmet_Red_Velvet_Cupcake.jpg", 2),
    Product(3, "Cherry Flan Pudding", "50.000", "Cherry_Flan_Pudding.jpg", 1),
    Product(4, "Salted Caramel Macarons", "20.000", "Salted_Caramel_Macarons.jpg", 3)
  ]

  const SeedUsers: seq<User> := [
    User(1, "Chang", "777", "user"),
    User(2, "admin", "admin", "admin")
  ]

  /** `initDatabase`: seeds the three tables; carts and orders are untouched. */
  function InitDatabase(db: Db): (r: Db)
    ensures r.cart == db.cart && r.orders == db.orders && r.orderItems == db.orderItems
    ensures r.cartSeq == db.cartSeq && r.orderSeq == db.orderSeq && r.orderItemSeq == db.orderItemSeq
    ensures |r.categories| >= |db.categories| && r.categories[..|db.categories|] == db.categories
    ensures |r.products| >= |db.products| && r.products[..|db.products|] == db.products
    ensures |r.users| >= |db.users| && r.users[..|db.users|] == db.users
  {
    var c := SeedTable(Table(db.categories, 0), SeedCategories, SameCategoryId, CategoryKey);
    var p := SeedTable(Table(db.products, db.productSeq), SeedProducts, SameProductId, ProductKey);
    var u := SeedTable(Table(db.users, db.userSeq), SeedUsers, UserClash, UserKey);
    db.(categories := c.rows, products := p.rows, productSeq := p.sequence,
        users := u.rows, userSeq := u.sequence)
  }

  /** Running the seeding twice gives the same store as running it once. */
  lemma InitDatabaseIdempotent(db: Db)
    ensures InitDatabase(InitDatabase(db)) == InitDatabase(db)
  {
    var once := InitDatabase(db);
    var c := SeedTable(Table(db.categories, 0), SeedCategories, SameCategoryId, CategoryKey);
    var p := SeedTable(Table(db.products, db.productSeq), SeedProducts, SameProductId, ProductKey);
    var u := SeedTable(Table(db.users, db.userSeq), SeedUsers, UserClash, UserKey);
    assert SeedTable(Table(once.categories, 0), SeedCategories, SameCategoryId, CategoryKey).rows == once.categories by {
      SeedTableBlocksAll(Table(db.categories, 0), SeedCategories, SameCategoryId, CategoryKey);
      SeedTableAllBlocked(Table(c.rows, 0), SeedCategories, SameCategoryId, CategoryKey);
    }
    assert SeedTable(Table(once.products, once.productSeq), SeedProducts, SameProductId, ProductKey) == p by {
      SeedTableIdempotent(Table(db.products, db.productSeq), SeedProducts, SameProductId, ProductKey);
    }
    assert SeedTable(Table(once.users, once.userSeq), SeedUsers, UserClash, UserKey) == u by {
      SeedTableIdempotent(Table(db.users, db.userSeq), SeedUsers, UserClash, UserKey);
    }
  }

  /** After seeding, every sample id is present in its table. */
  lemma InitDatabaseHasSeedIds(db: Db)
    ensures forall k :: 0 <= k < |SeedCategories| ==>
              HasRowWithKey(InitDatabase(db).categories, CategoryKey, SeedCategories[k].id)
    ensures forall k :: 0 <= k < |SeedProducts| ==>
              HasRowWithKey(InitDatabase(db).products, ProductKey, SeedProducts[k].id)
  {
    SeedTableBlocksAll(Table(db.categories, 0), SeedCategories, SameCategoryId, CategoryKey);
    SeedTableBlocksAll(Table(db.products, db.productSeq), SeedProducts, SameProductId, ProductKey);
    var r := InitDatabase(db);
    forall k | 0 <= k < |SeedCategories|
      ensures HasRowWithKey(r.categories, CategoryKey, SeedCategories[k].id)
    {
      var i :| 0 <= i < |r.categories| && SameCategoryId(r.categories[i], SeedCategories[k]);
    }
    forall k | 0 <= k < |SeedProducts|
      ensures HasRowWithKey(r.products, ProductKey, SeedProducts[k].id)
    {
      var i :| 0 <= i < |r.products| && SameProductId(r.products[i], SeedProducts[k]);
    }
  }

  /** A row whose id is already present is never replaced: the table only grows at its end. */
  lemma InitDatabaseKeepsExisting(db: Db, i: int)
    requires 0 <= i < |db.products|
    ensures InitDatabase(db).products[i] == db.products[i]
  {
    var r := InitDatabase(db);
    assert r.products[..|db.products|][i] == r.products[i];
  }

  /** On a fresh store the seeding inserts exactly the sample categories. */
  lemma SeedEmptyCategories()
    ensures SeedTable(Table([], 0), SeedCategories, SameCategoryId, CategoryKey).rows == SeedCategories
  {
    var cs := SeedCategories;
    var t1 := InsertOrIgnore(Table([], 0), cs[0], SameCategoryId, CategoryKey);
    assert t1.rows == cs[..1];
    var t2 := InsertOrIgnore(t1, cs[1], SameCategoryId, CategoryKey);
    assert t2.rows == cs[..2];
    var t3 := InsertOrIgnore(t2, cs[2], SameCategoryId, CategoryKey);
    assert t3.rows == cs[..3];
    var t4 := InsertOrIgnore(t3, cs[3], SameCategoryId, CategoryKey);
    assert t4.rows == cs;
    assert cs[1..][1..][1..][1..] == [];
  }

  /** On a fresh store the seeding inserts exactly the sample products and sets the sequence to 4. */
  lemma SeedEmptyProducts()
    ensures SeedTable(Table([], 0), SeedProducts, SameProductId, ProductKey) == Table(SeedProducts, 4)
  {
    var ps := SeedProducts;
    var t1 := InsertOrIgnore(Table([], 0), ps[0], SameProductId, ProductKey);
    assert t1 == Table(ps[..1], 1);
    var t2 := InsertOrIgnore(t1, ps[1], SameProductId, ProductKey);
    assert t2 == Table(ps[..2], 2);
    var t3 := InsertOrIgnore(t2, ps[2], SameProductId, ProductKey);
    assert t3 == Table(ps[..3], 3);
    var t4 := InsertOrIgnore(t3, ps[3], SameProductId, ProductKey);
    assert t4 == Table(ps, 4);
    assert ps[1..][1..][1..][1..] == [];
  }

  /** On a fresh store the seeding inserts exactly the two sample users and sets the sequence to 2. */
  lemma SeedEmptyUsers()
    ensures SeedTable(Table([], 0), SeedUsers, UserClash, UserKey) == Table(SeedUsers, 2)
  {
    var us := SeedUsers;
    var t1 := InsertOrIgnore(Table([], 0), us[0], UserClash, UserKey);
    assert t1 == Table(us[..1], 1);
    var t2 := InsertOrIgnore(t1, us[1], UserClash, UserKey);
    assert t2 == Table(us, 2);
    assert us[1..][1..] == [];
  }

  /** On a fresh store the seeding inserts exactly the sample rows. */
  lemma InitEmptyDatabase()
    ensures InitDatabase(EmptyDb).categories == SeedCategories
    ensures InitDatabase(EmptyDb).products == SeedProducts
    ensures InitDatabase(EmptyDb).users == SeedUsers
    ensures InitDatabase(EmptyDb).productSeq == 4 && InitDatabase(EmptyDb).userSeq == 2
  {
    SeedEmptyCategories();
    SeedEmptyProducts();
    SeedEmptyUsers();
  }

  /** Seeding keeps the store invariant. */
  lemma InitDatabasePreservesWellFormed(db: Db)
    requires WellFormed(db)
    ensures WellFormed(InitDatabase(db))
  {
    SeedTableKeepsKeys(Table(db.products, db.productSeq), SeedProducts, SameProductId, ProductKey);
    SeedTableKeepsKeys(Table(db.users, db.userSeq), SeedUsers, UserClash, UserKey);
    SeedTableKeepsKeys(Table(db.categories, 0), SeedCategories, SameCategoryId, CategoryKey);
    SeedKeepsUniqueUsernames(Table(db.users, db.userSeq), SeedUsers);
  }

  /** Seeding users never inserts a second row with an existing username. */
  lemma {:induction false} SeedKeepsUniqueUsernames(t: Table<User>, seeds: seq<User>)
    requires UniqueUsernames(t.rows)
    ensures UniqueUsernames(SeedTable(t, seeds, UserClash, UserKey).rows)
    decreases |seeds|
  {
    if |seeds| != 0 {
      var t1 := InsertOrIgnore(t, seeds[0], UserClash, UserKey);
      assert UniqueUsernames(t1.rows);
      SeedKeepsUniqueUsernames(t1, seeds[1..]);
    }
  }
}

=== FILE: cart_screen.dfy ===
/**
 * `components/FinalAppProject/User/CartScreen.tsx`: the cart total, the header
 * count and the quantity buttons.
 */
module CartScreen {
  import opened Wrappers
  import opened Seqs
  import opened Text
  import opened JsParseInt
  import opened CakeSchema
  import opened CakeCart

  /** `parseInt(String(price).replace(/,/g, '')) || 0`: unlike `parsePrice`, no radix is given. */
  function LinePrice(price: string): (n: int)
    ensures !HasHexPrefix(RemoveCommas(price)) ==> n == ParsePrice(price)
    ensures '-' !in price ==> n >= 0
  {
    RadixAgreesWithoutHexPrefix(RemoveCommas(price));
    RemoveCommasMembers(price);
    ParseIntOrZero(RemoveCommas(price), Unspecified)
  }

  /** `calculateTotal`: the `reduce` of `LinePrice(price) * quantity` from left to right. */
  function CalculateTotal(items: seq<CartItem>): (total: int)
    ensures |items| == 0 ==> total == 0
    decreases |items|
  {
    if |items| == 0 then 0
    else CalculateTotal(items[..|items| - 1]) + LinePrice(items[|items| - 1].price) * items[|items| - 1].quantity
  }

  /** No price of the lines starts with `0x` or `0X` once commas are removed. */
  predicate NoHexPrices(items: seq<CartItem>) {
    forall i :: 0 <= i < |items| ==> !HasHexPrefix(RemoveCommas(items[i].price))
  }

  /** The screen's total is the total `checkout` stores, as long as no price looks hexadecimal. */
  lemma {:induction false} CalculateTotalAgreesWithCheckout(items: seq<CartItem>)
    requires NoHexPrices(items)
    ensures CalculateTotal(items) == LinesTotal(items)
    decreases |items|
  {
    if |items| > 0 {
      var init := items[..|items| - 1];
      assert NoHexPrices(init) by {
        forall i | 0 <= i < |init|
          ensures !HasHexPrefix(RemoveCommas(init[i].price))
        {
          assert init[i] == items[i];
        }
      }
      CalculateTotalAgreesWithCheckout(init);
      RadixAgreesWithoutHexPrefix(RemoveCommas(items[|items| - 1].price));
    }
  }

  /** A price written `0x10` shows as 16 on the cart screen but is stored as 0 by `checkout`. */
  lemma HexPriceDisagrees(item: CartItem)
    requires item.price == "0x10" && item.quantity == 1
    ensures CalculateTotal([item]) == 16
    ensures LinesTotal([item]) == 0
  {
    assert RemoveCommas("0x10") == "0x10" by {
      FilterAll("0x10", NotComma);
    }
    assert LinePrice(item.price) == 16 && ParsePrice(item.price) == 0 by {
      HexPrefixDisagrees();
    }
    OneLineTotals(item);
  }

  /** A single line contributes its price times its quantity to either total. */
  lemma OneLineTotals(item: CartItem)
    ensures CalculateTotal([item]) == LinePrice(item.price) * item.quantity
    ensures LinesTotal([item]) == ParsePrice(item.price) * item.quantity
  {
    assert [item][..0] == [];
  }

  /** What the screen holds after `loadCart`: the lines, their total and the count sent to the header. */
  datatype CartView = CartView(items: seq<CartItem>, total: int, headerCount: int)

  /** `loadCart`: fetch the session user's lines, total them and report `result.length`. */
  function LoadCart(db: Db, session: Option<User>): (v: CartView)
    ensures v.headerCount == |v.items| && v.total == CalculateTotal(v.items)
    ensures session.None? ==> v.items == [] && v.total == 0
    ensures session.Some? ==> v.items == FetchCart(db, session.value.id)
  {
    var items := FetchCartItems(db, session);
    CartView(items, CalculateTotal(items), |items|)
  }

  /** The number of units in the lines: what the header would show if it counted quantities. */
  function UnitCount(items: seq<CartItem>): int
    decreases |items|
  {
    if |items| == 0 then 0 else items[0].quantity + UnitCount(items[1..])
  }

  /**
   * The header count is the number of lines, not of units: once some line has
   * two or more units (and none has fewer than one) the count is below the units.
   */
  lemma {:induction false} HeaderCountsLines(items: seq<CartItem>, k: int)
    requires forall i :: 0 <= i < |items| ==> items[i].quantity >= 1
    requires 0 <= k < |items| && items[k].quantity >= 2
    ensures |items| < UnitCount(items)
    decreases |items|
  {
    LinesAtMostUnits(items[1..]);
    if k > 0 {
      HeaderCountsLines(items[1..], k - 1);
    }
  }

  lemma {:induction false} LinesAtMostUnits(items: seq<CartItem>)
    requires forall i :: 0 <= i < |items| ==> items[i].quantity >= 1
    ensures |items| <= UnitCount(items)
    decreases |items|
  {
    if |items| > 0 {
      LinesAtMostUnits(items[1..]);
    }
  }

  /** The three controls of a line. */
  datatype QtyButton = Minus | Plus | Trash

  /** The quantity each control passes to `handleQuantityChange`. */
  function ButtonQuantity(b: QtyButton, quantity: int): (q: int)
    ensures b == Plus ==> q > quantity
    ensures b != Plus && quantity <= 1 ==> q <= 0
    ensures b == Minus && quantity > 1 ==> 0 < q < quantity
    ensures b == Plus ==> q == quantity + 1
    ensures b == Minus ==> q == quantity - 1
    ensures b == Trash ==> q == 0
  {
    match b
    case Minus => quantity - 1
    case Plus => quantity + 1
    case Trash => 0
  }

  /**
   * `handleQuantityChange(cartId, newQty)`; `confirmDelete` is the answer to
   * the "Remove item" dialog, read only when `newQty <= 0`.
   */
  function HandleQuantityChange(db: Db, cartId: int, newQty: int, confirmDelete: bool): (r: Db)
    ensures r == db.(cart := r.cart)
    ensures newQty <= 0 ==> forall row :: row in r.cart <==> row in db.cart && (!confirmDelete || row.id != cartId)
    ensures newQty <= 0 && !confirmDelete ==> r == db
    ensures newQty > 0 ==> |r.cart| == |db.cart| && forall i :: 0 <= i < |db.cart| ==>
              r.cart[i] == if db.cart[i].id == cartId then db.cart[i].(quantity := newQty) else db.cart[i]
  {
    if newQty <= 0 then
      if confirmDelete then RemoveCartItem(db, cartId) else db
    else UpdateCartQuantity(db, cartId, newQty)
  }

  /**
   * Whatever control is pressed and whatever the dialog answer, lines keep at
   * least one unit: a quantity that would drop to zero removes the line or
   * leaves it alone.
   */
  lemma QuantityChangeKeepsLinesPositive(db: Db, cartId: int, newQty: int, confirmDelete: bool)
    requires AllQuantitiesPositive(db.cart)
    ensures AllQuantitiesPositive(HandleQuantityChange(db, cartId, newQty, confirmDelete).cart)
  {
    var r := HandleQuantityChange(db, cartId, newQty, confirmDelete);
    if newQty <= 0 {
      forall i | 0 <= i < |r.cart|
        ensures r.cart[i].quantity >= 1
      {
        assert r.cart[i] in db.cart;
      }
    }
  }

  /** Pressing a control on line `i` of the store changes only that line, and only by one step. */
  lemma ButtonStepsOneLine(db: Db, i: int, b: QtyButton)
    requires UniqueKeys(db.cart, CartKey)
    requires 0 <= i < |db.cart| && db.cart[i].quantity > 1 && b != Trash
    ensures var r := HandleQuantityChange(db, db.cart[i].id, ButtonQuantity(b, db.cart[i].quantity), false);
            && |r.cart| == |db.cart|
            && r.cart[i].quantity == (if b == Plus then db.cart[i].quantity + 1 else db.cart[i].quantity - 1)
            && forall j :: 0 <= j < |db.cart| && j != i ==> r.cart[j] == db.cart[j]
  {
  }

  /**
   * The trash control followed by "Delete" removes line `i` whatever its
   * quantity: exactly one row goes, and every row with another id stays.
   */
  lemma TrashRemovesLine(db: Db, i: int)
    requires UniqueKeys(db.cart, CartKey)
    requires 0 <= i < |db.cart|
    ensures var r := HandleQuantityChange(db, db.cart[i].id, ButtonQuantity(Trash, db.cart[i].quantity), true);
            && db.cart[i] !in r.cart
            && |r.cart| == |db.cart| - 1
            && forall row :: row in r.cart <==> row in db.cart && row.id != db.cart[i].id
  {
    DeleteUniqueKey(db.cart, CartKey, db.cart[i].id);
  }

  /** Removing a line asks first: with the dialog cancelled, the trash control changes nothing. */
  lemma TrashNeedsConfirmation(db: Db, cartId: int, quantity: int)
    ensures HandleQuantityChange(db, cartId, ButtonQuantity(Trash, quantity), false) == db
  {
  }
}

=== FILE: category_management_screen.dfy ===
/**
 * `components/FinalAppProject/Admin/CategoryManagementScreen.tsx`: the one
 * text field that adds or renames a category, and deleting categories.
 */
module CategoryManagementScreen {
  import opened Wrappers
  import opened Text
  import opened CakeSchema
  import opened CakeCatalog

  /** The text field and `editingId` (`null` is `None`). */
  datatype Form = Form(text: string, editingId: Option<int>)

  const EmptyForm: Form := Form("", None)

  /**
   * `handleSaveCategory`: blank text does nothing; in edit mode the category
   * is renamed to the untrimmed text and edit mode ends; otherwise a category
   * is added. The text is cleared after every save.
   */
  function HandleSaveCategory(db: Db, form: Form): (r: (Db, Form))
    ensures IsBlank(form.text) ==> r == (db, form)
    ensures !IsBlank(form.text) ==> r.1 == EmptyForm
    ensures r.0 == db.(categories := r.0.categories)
    ensures !IsBlank(form.text) && form.editingId.Some? ==>
              && |r.0.categories| == |db.categories|
              && forall i :: 0 <= i < |db.categories| ==>
                   r.0.categories[i] == if db.categories[i].id == form.editingId.value
                                        then Category(form.editingId.value, form.text) else db.categories[i]
    ensures !IsBlank(form.text) && form.editingId.None? ==>
              && |r.0.categories| == |db.categories| + 1
              && r.0.categories[..|db.categories|] == db.categories
              && r.0.categories[|db.categories|].name == form.text
              && !HasRowWithKey(db.categories, CategoryKey, r.0.categories[|db.categories|].id)
  {
    if IsBlank(form.text) then (db, form)
    else
      match form.editingId
      case Some(id) => (UpdateCategory(db, id, form.text).0, EmptyForm)
      case None => (AddCategory(db, form.text).0, EmptyForm)
  }

  /** `handleEditCategory(item)`: load the name and id into the form. */
  function HandleEditCategory(item: Category): (f: Form)
    ensures f.text == item.name && f.editingId == Some(item.id)
  {
    Form(item.name, Some(item.id))
  }

  /** Editing a stored category and saving without touching the text leaves the categories as they were. */
  lemma EditThenSaveUnchanged(db: Db, i: int)
    requires UniqueKeys(db.categories, CategoryKey)
    requires 0 <= i < |db.categories| && !IsBlank(db.categories[i].name)
    ensures HandleSaveCategory(db, HandleEditCategory(db.categories[i])).0 == db
  {
    var r := HandleSaveCategory(db, HandleEditCategory(db.categories[i])).0;
    assert r.categories == db.categories;
  }

  /** `handleDeleteCategory(id)`: `deleteCategory(id)` only after "Delete" is pressed. */
  function HandleDeleteCategory(db: Db, id: int, confirmDelete: bool): (r: Db)
    ensures !confirmDelete ==> r == db
    ensures confirmDelete ==> forall c :: c in r.categories <==> c in db.categories && c.id != id
    ensures r == db.(categories := r.categories)
  {
    if confirmDelete then DeleteCategory(db, id).0 else db
  }

  /** Saving and deleting keep the store invariant. */
  lemma CategoryScreenPreservesWellFormed(db: Db, form: Form, id: int, confirmDelete: bool)
    requires WellFormed(db)
    ensures WellFormed(HandleSaveCategory(db, form).0)
    ensures WellFormed(HandleDeleteCategory(db, id, confirmDelete))
  {
    CategoryWritesPreserveWellFormed(db, form.editingId.GetOr(0), form.text);
    CategoryWritesPreserveWellFormed(db, id, form.text);
  }
}

=== FILE: checkout_screen.dfy ===
/**
 * `components/FinalAppProject/User/CheckoutScreen.tsx`: the form gate, the
 * payment-method choice and the hand-off to `checkoutOrder`.
 */
module CheckoutScreen {
  import opened Wrappers
  import opened CakeSchema
  import opened CakeCart
  import opened CakeOrders
  import opened Ui

  /** The two buttons of the payment section. */
  datatype PaymentMethod = Cod | Banking

  /** The string each button stores. */
  function PaymentLabel(m: PaymentMethod): (s: string)
    ensures s == "COD" || s == "Banking"
    ensures m == Cod <==> s == "COD"
  {
    match m
    case Cod => "COD"
    case Banking => "Banking"
  }

  /** The form: shipping address, phone and the selected payment method. */
  datatype Form = Form(address: string, phone: string, payment: PaymentMethod)

  /** Both text fields start empty and the payment method starts as `'COD'`. */
  const InitialForm: Form := Form("", "", Cod)

  datatype Outcome = MissingInfo | OrderFailed | OrderPlaced(next: Route)

  /**
   * `handleCheckout`: `!address || !phone` stops with an alert (white space
   * passes); otherwise `checkoutOrder(phone, paymentMethod)` runs and only
   * success moves on, carrying the lines and total the cart screen passed in.
   * The order timestamp is the parameter `orderDate`.
   */
  function HandleCheckout(db: Db, session: Option<User>, form: Form, cart: seq<CartItem>, total: int, orderDate: string): (r: (Db, Outcome))
    ensures form.address == "" || form.phone == "" ==> r == (db, MissingInfo)
    ensures form.address != "" && form.phone != "" ==>
              var placed := CheckoutOrder(db, session, form.phone, PaymentLabel(form.payment), orderDate);
              && r.0 == placed.0
              && (r.1.OrderPlaced? <==> placed.1)
    ensures r.1.OrderPlaced? ==> r.1.next == SuccessScreen(cart, total, form.address, form.phone, PaymentLabel(form.payment))
    ensures !r.1.OrderPlaced? ==> r.0 == db
  {
    if form.address == "" || form.phone == "" then (db, MissingInfo)
    else
      var placed := CheckoutOrder(db, session, form.phone, PaymentLabel(form.payment), orderDate);
      if placed.1 then (placed.0, OrderPlaced(SuccessScreen(cart, total, form.address, form.phone, PaymentLabel(form.payment))))
      else (placed.0, OrderFailed)
  }

  /** The address is never stored: two forms that differ only in a non-empty address write the same store. */
  lemma AddressNotPersisted(db: Db, session: Option<User>, form: Form, otherAddress: string,
                            cart: seq<CartItem>, total: int, orderDate: string)
    requires form.address != "" && otherAddress != ""
    ensures HandleCheckout(db, session, form, cart, total, orderDate).0
            == HandleCheckout(db, session, form.(address := otherAddress), cart, total, orderDate).0
  {
  }

  /** With both fields filled and a non-empty joined cart the order is placed, storing the phone and either `'COD'` or `'Banking'`. */
  lemma PlacedOrderCarriesForm(db: Db, u: User, form: Form, cart: seq<CartItem>, total: int, orderDate: string)
    requires form.address != "" && form.phone != "" && |FetchCart(db, u.id)| > 0
    ensures HandleCheckout(db, Some(u), form, cart, total, orderDate).1.OrderPlaced?
    ensures var r := HandleCheckout(db, Some(u), form, cart, total, orderDate).0;
            && |r.orders| == |db.orders| + 1
            && r.orders[|db.orders|].phone == form.phone
            && r.orders[|db.orders|].paymentMethod in {"COD", "Banking"}
            && r.orders[|db.orders|].status == Pending
  {
    CheckoutOrderRow(db, u.id, form.phone, PaymentLabel(form.payment), orderDate);
  }

  /** Only emptiness is checked: an address and phone of one space each still reach the store. */
  lemma WhiteSpaceFieldsPass(db: Db, u: User, payment: PaymentMethod, cart: seq<CartItem>, total: int, orderDate: string)
    requires |FetchCart(db, u.id)| > 0
    ensures HandleCheckout(db, Some(u), Form(" ", " ", payment), cart, total, orderDate).1.OrderPlaced?
  {
  }
}

=== FILE: danh_ba.dfy ===
/**
 * `components/buoi_10/DanhBa.tsx`: a contact list with a name/phone form, a
 * validator, add, edit, delete and a name search.
 */
module DanhBa {
  import opened Wrappers
  import opened Seqs
  import opened Text

  datatype Contact = Contact(name: string, phone: string)

  /** The phone message: at most one, in the order the checks run. */
  datatype PhoneError = PhoneOk | PhoneEmpty | PhoneBadChars | PhoneTooShort

  /** What `validateInput` leaves in the two error fields. */
  datatype Validation = Validation(nameMissing: bool, phone: PhoneError)

  /** A character of the class `[0-9\s()+-]`. */
  predicate IsPhoneChar(c: char) {
    IsDigit(c) || IsWhiteSpace(c) || c == '(' || c == ')' || c == '+' || c == '-'
  }

  /** `/^[0-9\s()+-]+$/.test(phone)`: non-empty and made of phone characters only. */
  predicate PhonePattern(phone: string) {
    |phone| > 0 && forall i :: 0 <= i < |phone| ==> IsPhoneChar(phone[i])
  }

  /** The digits a phone number needs: `phone.replace(/\D/g, '').length >= 9`. */
  const MinDigits: nat := 9

  /**
   * `validateInput`: the name check and the phone check are independent; the
   * phone checks run empty, then characters, then length, and the first that
   * fails is reported.
   */
  function Validate(name: string, phone: string): (v: Validation)
    ensures v.nameMissing <==> IsBlank(name)
    ensures v.phone == PhoneEmpty <==> IsBlank(phone)
    ensures v.phone == PhoneBadChars <==> !IsBlank(phone) && !PhonePattern(phone)
    ensures v.phone == PhoneTooShort <==> !IsBlank(phone) && PhonePattern(phone) && DigitCount(phone) < MinDigits
  {
    var phoneError :=
      if IsBlank(phone) then PhoneEmpty
      else if !PhonePattern(phone) then PhoneBadChars
      else if DigitCount(phone) < MinDigits then PhoneTooShort
      else PhoneOk;
    Validation(IsBlank(name), phoneError)
  }

  /** `validateInput()` returns true: no error was set. */
  predicate Valid(v: Validation) {
    !v.nameMissing && v.phone == PhoneOk
  }

  /** The input is accepted exactly when the name and phone are non-blank, the phone has only phone characters and at least nine digits. */
  lemma ValidIff(name: string, phone: string)
    ensures Valid(Validate(name, phone)) <==>
            !IsBlank(name) && !IsBlank(phone) && PhonePattern(phone) && DigitCount(phone) >= MinDigits
  {
  }

  /** A bad character is reported before a short length: `"12a"` is a character error, not a length error. */
  lemma BadCharsBeforeLength()
    ensures Validate("An", "12a").phone == PhoneBadChars
  {
    assert !IsWhiteSpace("12a"[0]);
    assert !IsPhoneChar("12a"[2]);
  }

  /** The component state. */
  datatype Book = Book(contacts: seq<Contact>, name: string, phone: string, search: string,
                       updatingIndex: Option<int>, errors: Validation)

  /** `handleAddContact`: append `{name, phone}` and clear the inputs when valid; otherwise only the errors change. */
  function AddContact(b: Book): (r: Book)
    ensures r.errors == Validate(b.name, b.phone)
    ensures Valid(r.errors) ==> r.contacts == b.contacts + [Contact(b.name, b.phone)] && r.name == "" && r.phone == ""
    ensures !Valid(r.errors) ==> r == b.(errors := r.errors)
    ensures r.search == b.search && r.updatingIndex == b.updatingIndex
  {
    var v := Validate(b.name, b.phone);
    if !Valid(v) then b.(errors := v)
    else b.(contacts := b.contacts + [Contact(b.name, b.phone)], name := "", phone := "", errors := v)
  }

  /** `handleUpdatingContact(index)`: load `contacts[index]` into the form and remember the index. */
  function StartUpdate(b: Book, index: int): (r: Book)
    requires 0 <= index < |b.contacts|
    ensures r.name == b.contacts[index].name && r.phone == b.contacts[index].phone
    ensures r.updatingIndex == Some(index) && r.contacts == b.contacts
  {
    b.(name := b.contacts[index].name, phone := b.contacts[index].phone, updatingIndex := Some(index))
  }

  /**
   * `handleSaveUpdate`: when valid and an index is remembered, write
   * `{name, phone}` at that index, forget the index and clear the inputs.
   * `handleDelete` does not forget the index, so a delete while an edit is open
   * can leave it at or beyond the end of the list. An index equal to the length
   * appends, as array assignment does. One beyond it makes the array sparse: the
   * list filter skips the hole, but the next spread `[...contacts]` turns it into
   * `undefined`, which the name filter then dereferences. Sparse arrays are not
   * represented, and that case is `None`.
   */
  function SaveUpdate(b: Book): (r: Option<Book>)
    ensures !Valid(Validate(b.name, b.phone)) || b.updatingIndex.None? ==> r == Some(b.(errors := Validate(b.name, b.phone)))
    ensures Valid(Validate(b.name, b.phone)) && b.updatingIndex.Some? && 0 <= b.updatingIndex.value < |b.contacts| ==>
              && r.Some?
              && |r.value.contacts| == |b.contacts|
              && r.value.contacts[b.updatingIndex.value] == Contact(b.name, b.phone)
              && (forall i :: 0 <= i < |b.contacts| && i != b.updatingIndex.value ==> r.value.contacts[i] == b.contacts[i])
              && r.value.updatingIndex.None? && r.value.name == "" && r.value.phone == ""
    ensures Valid(Validate(b.name, b.phone)) && b.updatingIndex == Some(|b.contacts|) ==>
              && r.Some?
              && r.value.contacts == b.contacts + [Contact(b.name, b.phone)]
              && r.value.updatingIndex.None? && r.value.name == "" && r.value.phone == ""
    ensures r.None? <==> Valid(Validate(b.name, b.phone)) && b.updatingIndex.Some? &&
                         !(0 <= b.updatingIndex.value <= |b.contacts|)
  {
    var v := Validate(b.name, b.phone);
    if !Valid(v) || b.updatingIndex.None? then Some(b.(errors := v))
    else
      var k := b.updatingIndex.value;
      var c := Contact(b.name, b.phone);
      if 0 <= k < |b.contacts| then
        Some(b.(contacts := b.contacts[k := c], updatingIndex := None, name := "", phone := "", errors := v))
      else if k == |b.contacts| then
        Some(b.(contacts := b.contacts + [c], updatingIndex := None, name := "", phone := "", errors := v))
      else None
  }

  /** `handleDelete(index)` after "Xóa": `contacts.filter((_, i) => i !== index)`; "Hủy" keeps the list. */
  function Delete(b: Book, index: int, confirmDelete: bool): (r: Book)
    ensures !confirmDelete ==> r == b
    ensures r == b.(contacts := r.contacts)
    ensures confirmDelete && 0 <= index < |b.contacts| ==>
              |r.contacts| == |b.contacts| - 1 && r.contacts == b.contacts[..index] + b.contacts[index + 1..]
    ensures confirmDelete && !(0 <= index < |b.contacts|) ==> r == b
  {
    if confirmDelete then b.(contacts := RemoveAt(b.contacts, index)) else b
  }

  /**
   * Deleting while the last contact is open for editing leaves the remembered
   * index one past the shortened list, so saving appends the edited contact
   * instead of replacing it.
   */
  lemma SaveAfterDeleteAppends(b: Book, index: int)
    requires |b.contacts| > 0 && b.updatingIndex == Some(|b.contacts| - 1) && 0 <= index < |b.contacts|
    requires Valid(Validate(b.name, b.phone))
    ensures |Delete(b, index, true).contacts| == |b.contacts| - 1
    ensures Delete(b, index, true).updatingIndex == Some(|b.contacts| - 1)
    ensures SaveUpdate(Delete(b, index, true)).Some?
    ensures SaveUpdate(Delete(b, index, true)).value.contacts ==
              b.contacts[..index] + b.contacts[index + 1..] + [Contact(b.name, b.phone)]
  {
  }

  /** `contact.name.toLowerCase().includes(search.toLowerCase())`. */
  function NameContains(search: string): (p: Contact -> bool)
    ensures forall c :: p(c) == Contains(ToLower(c.name), ToLower(search))
  {
    (c: Contact) => Contains(ToLower(c.name), ToLower(search))
  }

  /** `filteredContacts`. */
  function Filtered(contacts: seq<Contact>, search: string): (r: seq<Contact>)
    ensures forall c :: c in r <==> c in contacts && Contains(ToLower(c.name), ToLower(search))
    ensures IsSubsequence(r, contacts)
  {
    FilterMembers(contacts, NameContains(search));
    FilterIsSubsequence(contacts, NameContains(search));
    Filter(contacts, NameContains(search))
  }

  /** An empty search shows the whole list. */
  lemma EmptySearchShowsAll(contacts: seq<Contact>)
    ensures Filtered(contacts, "") == contacts
  {
    forall i | 0 <= i < |contacts|
      ensures NameContains("")(contacts[i])
    {
      EmptyContained(ToLower(contacts[i].name));
    }
    FilterAll(contacts, NameContains(""));
  }

  /** The list items hand their position in the filtered list to edit and delete; with an empty search that is the contact shown. */
  lemma FilteredIndexIsRightWhenSearchEmpty(b: Book, index: int)
    requires b.search == ""
    requires 0 <= index < |Filtered(b.contacts, b.search)|
    ensures 0 <= index < |b.contacts|
    ensures StartUpdate(b, index).name == Filtered(b.contacts, b.search)[index].name
  {
    EmptySearchShowsAll(b.contacts);
  }

  /**
   * With a search, a filtered position can address a different contact:
   * searching "b" over [Anna, Bob] shows Bob first, and its edit button loads Anna.
   */
  lemma FilteredIndexIsWrongWhenSearching()
    ensures var contacts := [Contact("Anna", "0123456789"), Contact("Bob", "0987654321")];
            var b := Book(contacts, "", "", "b", None, Validation(false, PhoneOk));
            && Filtered(contacts, "b") == [contacts[1]]
            && StartUpdate(b, 0).name == "Anna"
            && Delete(b, 0, true).contacts == [contacts[1]]
  {
    var anna := Contact("Anna", "0123456789");
    var bob := Contact("Bob", "0987654321");
    assert ToLower("b") == "b";
    AnnaLacksB();
    assert Contains(ToLower("Bob"), "b") by {
      assert ToLower("Bob") == "bob";
    }
    assert [anna, bob][1..] == [bob];
    assert [bob][1..] == [];
  }

  lemma AnnaLacksB()
    ensures !Contains(ToLower("Anna"), "b")
  {
    var lower := ToLower("Anna");
    forall i | 0 <= i < |lower|
      ensures lower[i] != 'b'
    {
      assert "Anna"[i] in {'A', 'n', 'a'};
    }
    forall i | 0 <= i <= |lower| - 1
      ensures !("b" <= lower[i..])
    {
      assert lower[i..][0] == lower[i];
    }
  }

  /** The list the component starts with. */
  const InitialContacts: seq<Contact> := [
    Contact("Tiêu Chiến", "0577 333 888"),
    Contact("Khâu Đỉnh Kiệt", "0321 977 345"),
    Contact("Hoàng Tinh", "0385 222 115"),
    Contact("Vương Nhất Bác", "0597 434 877")
  ]
}

=== FILE: home_screen.dfy ===
/**
 * `components/FinalAppProject/User/HomeScreen.tsx`: adding one unit to the
 * cart, the cart badge, and resolving category presses and searches.
 */
module HomeScreen {
  import opened Wrappers
  import opened Seqs
  import opened Text
  import opened CakeSchema
  import opened CakeCart
  import opened Ui

  /**
   * The badge: `fetchCartItems().length`, the number of joined lines, which is
   * the number of the user's cart rows whose product still exists.
   */
  function CartCount(db: Db, session: Option<User>): (n: nat)
    ensures session.None? ==> n == 0
    ensures session.Some? ==> n == |Filter(CartOf(db.cart, session.value.id), NamesProduct(db.products))|
  {
    match session
    case None => |FetchCartItems(db, session)|
    case Some(u) =>
      JoinProductsIsNamingRows(CartOf(db.cart, u.id), db.products);
      |FetchCartItems(db, session)|
  }

  datatype AddOutcome = PleaseLogIn | AddedToCart(cartCount: nat)

  /** `handleAddToCart(product)`: one `addToCart`, then the badge is refreshed. */
  function HandleAddToCart(db: Db, session: Option<User>, productId: int): (r: (Db, AddOutcome))
    ensures session.None? ==> r == (db, PleaseLogIn)
    ensures session.Some? ==> r.0 == AddToCart(db, session.value.id, productId)
    ensures session.Some? ==> r.1 == AddedToCart(CartCount(r.0, session))
  {
    match session
    case None => (db, PleaseLogIn)
    case Some(u) =>
      var d := AddToCart(db, u.id, productId);
      (d, AddedToCart(CartCount(d, session)))
  }

  /** One press adds one unit for the pair and leaves every other pair's lines alone. */
  lemma AddOneUnit(db: Db, u: User, productId: int, otherUser: int, otherProduct: int)
    requires UniqueKeys(db.cart, CartKey)
    requires (otherUser, otherProduct) != (u.id, productId)
    ensures var r := HandleAddToCart(db, Some(u), productId).0;
            && PairQuantity(r.cart, u.id, productId) == PairQuantity(db.cart, u.id, productId) + 1
            && PairRows(r.cart, otherUser, otherProduct) == PairRows(db.cart, otherUser, otherProduct)
  {
    AddToCartSamePair(db, u.id, productId);
    AddToCartOtherPair(db, u.id, productId, otherUser, otherProduct);
  }

  /** `handleCategoryPress(id)`: the id as given, with the loaded category's name or `''`. */
  function HandleCategoryPress(categories: seq<Category>, categoryId: int): (r: Route)
    ensures r.ProductsByCategory? && r.categoryId == categoryId
    ensures !HasRowWithKey(categories, CategoryKey, categoryId) ==> r.categoryName == ""
    ensures HasRowWithKey(categories, CategoryKey, categoryId) ==>
              exists i :: 0 <= i < |categories| && categories[i].id == categoryId && r.categoryName == categories[i].name
                          && forall j :: 0 <= j < i ==> categories[j].id != categoryId
  {
    var name := match FindFirst(categories, HasKey(CategoryKey, categoryId))
                case None => ""
                case Some(c) => c.name;
    ProductsByCategory(categoryId, name)
  }

  /** `c.name.toLowerCase() === query.trim().toLowerCase()`. */
  function NameMatches(query: string): (p: Category -> bool)
    ensures forall c :: p(c) == (ToLower(c.name) == ToLower(Trim(query)))
  {
    (c: Category) => ToLower(c.name) == ToLower(Trim(query))
  }

  /**
   * `handleSearchSubmit(query)`: the first category whose lower-cased name is
   * the trimmed, lower-cased query; with none, category 0 under the raw query.
   */
  function HandleSearchSubmit(categories: seq<Category>, query: string): (r: Route)
    ensures r.ProductsByCategory?
    ensures (forall i :: 0 <= i < |categories| ==> ToLower(categories[i].name) != ToLower(Trim(query)))
              ==> r == ProductsByCategory(0, query)
    ensures (exists i :: 0 <= i < |categories| && ToLower(categories[i].name) == ToLower(Trim(query)))
              ==> exists i :: 0 <= i < |categories| && ToLower(categories[i].name) == ToLower(Trim(query))
                              && r == ProductsByCategory(categories[i].id, categories[i].name)
                              && forall j :: 0 <= j < i ==> ToLower(categories[j].name) != ToLower(Trim(query))
  {
    match FindFirst(categories, NameMatches(query))
    case None => ProductsByCategory(0, query)
    case Some(c) => ProductsByCategory(c.id, c.name)
  }

  /** Leading white space does not change which category a search finds. */
  lemma SearchIgnoresLeadingSpace(categories: seq<Category>, query: string)
    requires exists i :: 0 <= i < |categories| && ToLower(categories[i].name) == ToLower(Trim(query))
    ensures HandleSearchSubmit(categories, " " + query) == HandleSearchSubmit(categories, query)
  {
    TrimDropsLeadingSpace(query);
    FilterCongruentNames(categories, " " + query, query);
    assert FindFirst(categories, NameMatches(query)).Some?;
  }

  /** Two queries with the same trimmed text select the same category. */
  lemma FilterCongruentNames(categories: seq<Category>, q1: string, q2: string)
    requires Trim(q1) == Trim(q2)
    ensures FindFirst(categories, NameMatches(q1)) == FindFirst(categories, NameMatches(q2))
  {
    assert NameMatches(q1) == NameMatches(q2);
  }

  /** A search for a category's own name, in any ASCII case, finds the first category of that name. */
  lemma SearchFindsByName(categories: seq<Category>, k: int, query: string)
    requires 0 <= k < |categories| && ToLower(Trim(query)) == ToLower(categories[k].name)
    requires forall j :: 0 <= j < |categories| && j != k ==> ToLower(categories[j].name) != ToLower(categories[k].name)
    ensures HandleSearchSubmit(categories, query) == ProductsByCategory(categories[k].id, categories[k].name)
  {
  }
}

=== FILE: js_parse_int.dfy ===
/**
 * `parseInt` as section 19.2.5 of ECMA-262 defines it, for the two ways the
 * store calls it: with radix 10 and with no radix. Results are mathematical
 * integers; NaN is `None`.
 */
module JsParseInt {
  import opened Wrappers
  import opened Text

  /** `parseInt(s, 10)` or `parseInt(s)` (radix undefined, treated as 0). */
  datatype Radix = Decimal | Unspecified

  predicate IsHexDigit(c: char) {
    IsDigit(c) || ('a' <= c <= 'f') || ('A' <= c <= 'F')
  }

  /** `c` is a digit of base `base` (10 or 16). */
  predicate IsDigitOf(c: char, base: nat) {
    if base == 16 then IsHexDigit(c) else IsDigit(c)
  }

  function DigitValue(c: char, base: nat): (v: nat)
    requires IsDigitOf(c, base)
    ensures v < (if base == 16 then 16 else 10)
  {
    if IsDigit(c) then c as int - '0' as int
    else if 'a' <= c <= 'f' then c as int - 'a' as int + 10
    else c as int - 'A' as int + 10
  }

  predicate AllDigitsOf(s: string, base: nat) {
    forall i :: 0 <= i < |s| ==> IsDigitOf(s[i], base)
  }

  /** The longest prefix of `s` made of digits of base `base` (step 11 of `parseInt`). */
  function DigitPrefix(s: string, base: nat): (r: string)
    ensures r <= s && AllDigitsOf(r, base)
    ensures |r| < |s| ==> !IsDigitOf(s[|r|], base)
  {
    if |s| > 0 && IsDigitOf(s[0], base) then [s[0]] + DigitPrefix(s[1..], base) else []
  }

  /** The number a digit string denotes, most significant digit first. */
  function DigitsValue(ds: string, base: nat): nat
    requires AllDigitsOf(ds, base)
  {
    if |ds| == 0 then 0
    else DigitsValue(ds[..|ds| - 1], base) * base + DigitValue(ds[|ds| - 1], base)
  }

  /** The sign-stripped text after leading white space (steps 2 to 7). */
  function Unsigned(s: string): string {
    var t := TrimStart(s);
    if |t| > 0 && (t[0] == '-' || t[0] == '+') then t[1..] else t
  }

  predicate IsNegative(s: string) {
    var t := TrimStart(s);
    |t| > 0 && t[0] == '-'
  }

  /** The unsigned text begins with `0x` or `0X`. */
  predicate HasHexPrefix(s: string) {
    var u := Unsigned(s);
    |u| >= 2 && u[0] == '0' && (u[1] == 'x' || u[1] == 'X')
  }

  /** `parseInt(s, 10)` or `parseInt(s)`; `None` stands for NaN. */
  function ParseInt(s: string, radix: Radix): (r: Option<int>)
    ensures radix == Decimal || !HasHexPrefix(s) ==>
              (r.None? <==> !(|Unsigned(s)| > 0 && IsDigit(Unsigned(s)[0])))
    ensures r.Some? && !IsNegative(s) ==> r.value >= 0
  {
    var u := Unsigned(s);
    var hex := radix == Unspecified && HasHexPrefix(s);
    var base := if hex then 16 else 10;
    var ds := DigitPrefix(if hex then u[2..] else u, base);
    var v: int := DigitsValue(ds, base);
    if |ds| == 0 then None
    else if IsNegative(s) then Some(-v)
    else Some(v)
  }

  /** `parseInt(...) || 0`: NaN and zero both give 0. */
  function ParseIntOrZero(s: string, radix: Radix): (n: int)
    ensures ParseInt(s, radix).None? ==> n == 0
    ensures ParseInt(s, radix).Some? ==> n == ParseInt(s, radix).value
  {
    ParseInt(s, radix).GetOr(0)
  }

  /** Without a hexadecimal prefix, leaving the radix out is the same as radix 10. */
  lemma RadixAgreesWithoutHexPrefix(s: string)
    ensures !HasHexPrefix(s) ==> ParseInt(s, Unspecified) == ParseInt(s, Decimal)
  {
    if !HasHexPrefix(s) {
      var ds := DigitPrefix(Unsigned(s), 10);
      var v: int := DigitsValue(ds, 10);
      var decimal := if |ds| == 0 then None else if IsNegative(s) then Some(-v) else Some(v);
      assert ParseInt(s, Decimal) == decimal;
      assert ParseInt(s, Unspecified) == decimal;
    }
  }

  /** With a `0x` prefix and no radix the digits are read in base 16: `parseInt('0x10')` is 16, `parseInt('0x10', 10)` is 0. */
  lemma HexPrefixDisagrees()
    ensures ParseInt("0x10", Unspecified) == Some(16)
    ensures ParseInt("0x10", Decimal) == Some(0)
  {
    HexReading();
    DecimalReading();
  }

  lemma HexReading()
    ensures ParseInt("0x10", Unspecified) == Some(16)
  {
    HexTextUnsigned();
    assert "0x10"[2..] == "10";
    HexDigitsValue();
  }

  lemma DecimalReading()
    ensures ParseInt("0x10", Decimal) == Some(0)
  {
    HexTextUnsigned();
    DecimalDigitsOfHexText();
  }

  /** A text that starts with a digit has no leading white space and no sign. */
  lemma UnsignedOfDigitStart(s: string)
    requires |s| > 0 && IsDigit(s[0])
    ensures Unsigned(s) == s && !IsNegative(s)
  {
    assert !IsWhiteSpace(s[0]);
    assert TrimStart(s) == s;
  }

  /** `"0x10"` has no white space and no sign, and starts with `0x`. */
  lemma HexTextUnsigned()
    ensures Unsigned("0x10") == "0x10" && !IsNegative("0x10") && HasHexPrefix("0x10")
  {
    UnsignedOfDigitStart("0x10");
  }

  lemma HexDigitsValue()
    ensures DigitPrefix("10", 16) == "10" && DigitsValue("10", 16) == 16
  {
    assert DigitPrefix("0", 16) == "0";
    assert "10"[..1] == "1";
  }

  lemma DecimalDigitsOfHexText()
    ensures DigitPrefix("0x10", 10) == "0" && DigitsValue("0", 10) == 0
  {
    assert DigitPrefix("x10", 10) == "";
    assert "0"[..0] == "";
  }

  /** The digit prefix of a digit string followed by a non-digit is that digit string. */
  lemma {:induction false} DigitPrefixOfDigits(ds: string, rest: string, base: nat)
    requires AllDigitsOf(ds, base)
    requires |rest| == 0 || !IsDigitOf(rest[0], base)
    ensures DigitPrefix(ds + rest, base) == ds
    decreases |ds|
  {
    if |ds| == 0 {
      assert ds + rest == rest;
    } else {
      assert (ds + rest)[1..] == ds[1..] + rest;
      DigitPrefixOfDigits(ds[1..], rest, base);
      assert [ds[0]] + ds[1..] == ds;
    }
  }

  /** A string of decimal digits followed by anything that does not start with a digit parses to the digits' value. */
  lemma ParseDigitsThenRest(ds: string, rest: string, radix: Radix)
    requires |ds| > 0 && AllDigitsOf(ds, 10)
    requires !(|ds| >= 2 && ds[0] == '0' && (ds[1] == 'x' || ds[1] == 'X'))
    requires |rest| == 0 || !IsDigit(rest[0])
    requires |ds| == 1 && ds[0] == '0' ==> |rest| == 0 || (rest[0] != 'x' && rest[0] != 'X')
    ensures ParseInt(ds + rest, radix) == Some(DigitsValue(ds, 10))
  {
    var s := ds + rest;
    assert s[0] == ds[0] && IsDigit(s[0]);
    assert !IsWhiteSpace(s[0]);
    assert TrimStart(s) == s;
    assert !IsNegative(s);
    assert Unsigned(s) == s;
    if |ds| >= 2 {
      assert s[1] == ds[1];
      assert IsDigit(s[1]);
    } else if |rest| > 0 {
      assert s[1] == rest[0];
    }
    assert !HasHexPrefix(s);
    DigitPrefixOfDigits(ds, rest, 10);
  }

  /** The decimal numeral of `n`, as `String(n)` writes it. */
  function NatToDecimal(n: nat): (s: string)
    ensures |s| > 0 && AllDigitsOf(s, 10)
    ensures |s| > 1 ==> s[0] != '0'
    decreases n
  {
    var d := ['0' + ((n % 10) as char)];
    if n < 10 then d else NatToDecimal(n / 10) + d
  }

  /** Reading back a numeral gives the number it was written from. */
  lemma {:induction false} DecimalValueRoundTrip(n: nat)
    ensures DigitsValue(NatToDecimal(n), 10) == n
    decreases n
  {
    var s := NatToDecimal(n);
    if n >= 10 {
      DecimalValueRoundTrip(n / 10);
      assert s[..|s| - 1] == NatToDecimal(n / 10);
    }
  }

  /** `parseInt(String(n), 10) == n` for every natural number `n`, and the same without a radix. */
  lemma ParseIntRoundTrip(n: nat, radix: Radix)
    ensures ParseInt(NatToDecimal(n), radix) == Some(n)
  {
    var s := NatToDecimal(n);
    ParseDigitsThenRest(s, "", radix);
    assert s + "" == s;
    DecimalValueRoundTrip(n);
  }
}

=== FILE: login_screen.dfy ===
/**
 * `components/FinalAppProject/LoginSqlite.tsx`: `handleLogin`. The stored
 * session (`AsyncStorage` key `loggedInUser`) is an `Option<User>`; the alert
 * and the navigation it triggers are the returned outcome.
 */
module LoginScreen {
  import opened Wrappers
  import opened CakeSchema
  import opened CakeCatalog
  import opened Ui

  datatype Outcome =
    | MissingFields
    | Welcome(user: User, next: Route)
    | UnknownUsername
    | WrongPassword

  /** The stored session and the two fields after the handler and the alert's "OK". */
  datatype LoginResult = LoginResult(session: Option<User>, username: string, password: string, outcome: Outcome)

  /** `user.role === 'admin'` opens the admin tabs; every other role opens the main tabs. */
  function RouteFor(u: User): (r: Route)
    ensures r == AdminHome <==> u.role == "admin"
    ensures r == AdminHome || r == MainHome
  {
    if u.role == "admin" then AdminHome else MainHome
  }

  /** Some row has exactly these credentials. */
  predicate CredentialsMatch(users: seq<User>, username: string, password: string) {
    exists i :: 0 <= i < |users| && users[i].username == username && users[i].password == password
  }

  /**
   * `handleLogin`: empty fields stop at once; a credentials match is stored as
   * the session; otherwise the username lookup decides between "Username does
   * not exist" (username cleared) and "Wrong password" (password cleared).
   */
  function HandleLogin(db: Db, session: Option<User>, username: string, password: string): (r: LoginResult)
    ensures r.outcome.MissingFields? <==> username == "" || password == ""
    ensures r.outcome.Welcome? <==> username != "" && password != "" && CredentialsMatch(db.users, username, password)
    ensures r.outcome.UnknownUsername? <==> username != "" && password != "" && !UsernameTaken(db.users, username)
    ensures r.outcome.WrongPassword? <==>
              username != "" && password != "" && UsernameTaken(db.users, username) && !CredentialsMatch(db.users, username, password)
    ensures r.outcome.Welcome? ==> && r.session == Some(r.outcome.user) && r.outcome.user in db.users
                                   && r.outcome.user.username == username && r.outcome.user.password == password
                                   && r.outcome.next == RouteFor(r.outcome.user)
    ensures !r.outcome.Welcome? ==> r.session == session
    ensures r.username == (if r.outcome.UnknownUsername? then "" else username)
    ensures r.password == (if r.outcome.WrongPassword? then "" else password)
  {
    if username == "" || password == "" then LoginResult(session, username, password, MissingFields)
    else
      var userExists := GetUserByUsername(db, username);
      match GetUserByCredentials(db, username, password)
      case Some(u) => LoginResult(Some(u), username, password, Welcome(u, RouteFor(u)))
      case None =>
        if userExists.None? then LoginResult(session, "", password, UnknownUsername)
        else LoginResult(session, username, "", WrongPassword)
  }

  /** A login never writes to the store, and the session changes only on success. */
  lemma LoginOnlyWritesSessionOnSuccess(db: Db, session: Option<User>, username: string, password: string)
    ensures var r := HandleLogin(db, session, username, password);
            r.session != session ==> r.outcome.Welcome?
  {
  }

  /** A matching username with a different password is "Wrong password" and never a welcome. */
  lemma WrongPasswordExample(db: Db, i: int, password: string)
    requires UniqueUsernames(db.users)
    requires 0 <= i < |db.users| && db.users[i].username != "" && password != "" && password != db.users[i].password
    ensures HandleLogin(db, None, db.users[i].username, password).outcome == WrongPassword
  {
    assert !CredentialsMatch(db.users, db.users[i].username, password);
  }
}

=== FILE: order_management_screen.dfy ===
/**
 * `components/FinalAppProject/Admin/OrderManagementScreen.tsx`: the Complete and
 * Cancel buttons of every order and the status colour.
 */
module OrderManagementScreen {
  import opened CakeSchema
  import opened CakeOrders

  /** The two buttons shown under every order, whatever its status. */
  datatype Action = Complete | Cancel

  /** The status each button writes. */
  function ActionStatus(a: Action): (s: string)
    ensures s == "Completed" || s == "Canceled"
  {
    match a
    case Complete => "Completed"
    case Cancel => "Canceled"
  }

  /**
   * `handleUpdateStatus(id, 'Completed')` for Complete; `confirmCancel(id)`
   * for Cancel, which writes `'Canceled'` only when the dialog answer is "Yes".
   */
  function HandleAction(db: Db, orderId: int, a: Action, confirmYes: bool): (r: Db)
    ensures a == Cancel && !confirmYes ==> r == db
    ensures r == db.(orders := r.orders) && |r.orders| == |db.orders|
    ensures forall i :: 0 <= i < |db.orders| ==>
              r.orders[i] == if db.orders[i].id == orderId && (a == Complete || confirmYes)
                             then db.orders[i].(status := ActionStatus(a)) else db.orders[i]
  {
    match a
    case Complete => UpdateOrderStatus(db, orderId, ActionStatus(Complete))
    case Cancel => if confirmYes then UpdateOrderStatus(db, orderId, ActionStatus(Cancel)) else db
  }

  /** Every order either keeps its status or now has `'Completed'` or `'Canceled'`; nothing else about it changes. */
  lemma ActionWritesOnlyTwoStatuses(db: Db, orderId: int, a: Action, confirmYes: bool, i: int)
    requires 0 <= i < |db.orders|
    ensures var o := HandleAction(db, orderId, a, confirmYes).orders[i];
            && o == db.orders[i].(status := o.status)
            && (o.status == db.orders[i].status || o.status == "Completed" || o.status == "Canceled")
  {
  }

  /** Both buttons work from any status: a completed order can be canceled and a canceled one completed. */
  lemma AnyStatusReachable(db: Db, i: int, first: Action, second: Action)
    requires 0 <= i < |db.orders|
    ensures var id := db.orders[i].id;
            HandleAction(HandleAction(db, id, first, true), id, second, true).orders[i].status == ActionStatus(second)
  {
  }

  /** The colour of the status text. */
  function StatusColor(status: string): (colour: string)
    ensures colour == "green" <==> status == "Completed"
    ensures colour == "red" <==> status == "Canceled"
    ensures status != "Completed" && status != "Canceled" ==> colour == "#FFA239"
  {
    if status == "Canceled" then "red"
    else if status == "Completed" then "green"
    else "#FFA239"
  }
}

=== FILE: product_details_screen.dfy ===
/**
 * `components/FinalAppProject/User/ProductDetailsScreen.tsx`: the quantity
 * stepper, adding the chosen quantity to the cart, and the category links.
 */
module ProductDetailsScreen {
  import opened Wrappers
  import opened Seqs
  import opened CakeSchema
  import opened CakeCart
  import opened Ui

  /** The stepper starts at one. */
  const InitialQuantity: int := 1

  /** "−": `Math.max(1, prev - 1)`. */
  function StepDown(q: int): (r: int)
    ensures r >= 1
    ensures q > 1 ==> r == q - 1
    ensures q <= 1 ==> r == 1
  {
    if q - 1 > 1 then q - 1 else 1
  }

  /** "+": `prev + 1`. */
  function StepUp(q: int): (r: int)
    ensures r == q + 1
  {
    q + 1
  }

  datatype Step = Down | Up

  /** The quantity after pressing the stepper buttons `steps` in order. */
  function Stepped(q: int, steps: seq<Step>): int
    decreases |steps|
  {
    if |steps| == 0 then q
    else Stepped(if steps[0] == Up then StepUp(q) else StepDown(q), steps[1..])
  }

  /** From the initial value, no sequence of presses takes the quantity below one or above one plus the presses. */
  lemma {:induction false} SteppedStaysInRange(q: int, steps: seq<Step>)
    requires q >= 1
    ensures 1 <= Stepped(q, steps) <= q + |steps|
    decreases |steps|
  {
    if |steps| > 0 {
      var next := if steps[0] == Up then StepUp(q) else StepDown(q);
      SteppedStaysInRange(next, steps[1..]);
    }
  }

  /** What `handleAddToCart` reports. */
  datatype AddOutcome = PleaseLogIn | AddedToCart

  /** `for (let i = 0; i < quantity; i++)`: a non-positive quantity runs the loop zero times. */
  function LoopCount(quantity: int): (n: nat)
    ensures quantity > 0 ==> n == quantity
    ensures quantity <= 0 ==> n == 0
  {
    if quantity > 0 then quantity else 0
  }

  /** `handleAddToCart`: without a session, only the alert; otherwise `quantity` calls to `addToCart`. */
  function HandleAddToCart(db: Db, session: Option<User>, productId: int, quantity: int): (r: (Db, AddOutcome))
    ensures session.None? ==> r == (db, PleaseLogIn)
    ensures session.Some? ==> r.1 == AddedToCart
    ensures r.0.categories == db.categories && r.0.products == db.products && r.0.users == db.users
    ensures r.0.orders == db.orders && r.0.orderItems == db.orderItems
  {
    match session
    case None => (db, PleaseLogIn)
    case Some(u) => (AddToCartTimes(db, u.id, productId, LoopCount(quantity)), AddedToCart)
  }

  /**
   * With a session, the quantity `addToCart` would next read for the pair grows
   * by exactly the chosen quantity, and a pair with no line ends with exactly one.
   */
  lemma AddChosenQuantity(db: Db, u: User, productId: int, quantity: int)
    requires quantity >= 1
    ensures var r := HandleAddToCart(db, Some(u), productId, quantity).0;
            && PairQuantity(r.cart, u.id, productId) == PairQuantity(db.cart, u.id, productId) + quantity
            && (|PairRows(db.cart, u.id, productId)| == 0 ==> |PairRows(r.cart, u.id, productId)| == 1)
  {
    AddToCartTimesSamePair(db, u.id, productId, quantity);
  }

  /** The lines of every other (user, product) pair are untouched. */
  lemma AddChosenQuantityLeavesOthers(db: Db, u: User, productId: int, quantity: int, otherUser: int, otherProduct: int)
    requires UniqueKeys(db.cart, CartKey) && KeysAtMost(db.cart, CartKey, db.cartSeq)
    requires (otherUser, otherProduct) != (u.id, productId)
    ensures PairRows(HandleAddToCart(db, Some(u), productId, quantity).0.cart, otherUser, otherProduct)
            == PairRows(db.cart, otherUser, otherProduct)
  {
    AddToCartTimesOtherPair(db, u.id, productId, LoopCount(quantity), otherUser, otherProduct);
  }

  /** `handleSelectCategory`: navigate to a loaded category, or stay when the id is not loaded. */
  function SelectCategory(categories: seq<Category>, id: int): (r: Option<Route>)
    ensures r.None? <==> !HasRowWithKey(categories, CategoryKey, id)
    ensures r.Some? ==> exists c :: c in categories && c.id == id && r.value == ProductsByCategory(c.id, c.name)
  {
    match FindFirst(categories, HasKey(CategoryKey, id))
    case None => None
    case Some(c) => Some(ProductsByCategory(c.id, c.name))
  }
}

=== FILE: product_form.dfy ===
/**
 * `components/FinalAppProject/Admin/ProductForm.tsx`: add or edit a product.
 * The image picker is left out: the image is whatever the form holds.
 */
module ProductForm {
  import opened Wrappers
  import opened Text
  import opened CakeSchema
  import opened CakeCatalog

  /** JavaScript `a || b` on numbers that are never NaN: `0` is falsy. */
  function OrElse(a: int, b: int): (r: int)
    ensures a != 0 ==> r == a
    ensures a == 0 ==> r == b
  {
    if a != 0 then a else b
  }

  /** An absent number reads as `undefined`, which `||` treats like 0. */
  function NumberOrZero(n: Option<int>): int {
    n.GetOr(0)
  }

  /**
   * `!!product?.id && product.id > 0`: edit mode needs a product with a stored
   * id; no product, or one whose id is 0 or negative, means add mode.
   */
  function IsEdit(product: Option<Product>): (edit: bool)
    ensures product.None? ==> !edit
    ensures product.Some? ==> (edit <==> product.value.id > 0)
  {
    product.Some? && product.value.id > 0
  }

  /** `product?.categoryId || defaultCategoryId || 1`: never 0. */
  function InitialCategoryId(product: Option<Product>, defaultCategoryId: Option<int>): (id: int)
    ensures id != 0
    ensures product.Some? && product.value.categoryId != 0 ==> id == product.value.categoryId
    ensures (product.None? || product.value.categoryId == 0) && NumberOrZero(defaultCategoryId) != 0 ==>
              id == defaultCategoryId.value
    ensures (product.None? || product.value.categoryId == 0) && NumberOrZero(defaultCategoryId) == 0 ==> id == 1
  {
    var fromProduct := if product.Some? then product.value.categoryId else 0;
    OrElse(fromProduct, OrElse(NumberOrZero(defaultCategoryId), 1))
  }

  /**
   * The load effect: in add mode the category becomes
   * `defaultCategoryId || data[0]?.id || 1`; in edit mode it is left alone.
   */
  function CategoryAfterLoad(product: Option<Product>, current: int, defaultCategoryId: Option<int>,
                             categories: seq<Category>): (id: int)
    ensures IsEdit(product) ==> id == current
    ensures !IsEdit(product) ==> id != 0
    ensures !IsEdit(product) && NumberOrZero(defaultCategoryId) != 0 ==> id == NumberOrZero(defaultCategoryId)
    ensures !IsEdit(product) && NumberOrZero(defaultCategoryId) == 0 && |categories| > 0 && categories[0].id != 0 ==>
              id == categories[0].id
    ensures !IsEdit(product) && NumberOrZero(defaultCategoryId) == 0 && (|categories| == 0 || categories[0].id == 0) ==>
              id == 1
  {
    if IsEdit(product) then current
    else
      var first := if |categories| > 0 then categories[0].id else 0;
      OrElse(NumberOrZero(defaultCategoryId), OrElse(first, 1))
  }

  /** The four inputs. */
  datatype Fields = Fields(name: string, price: string, img: string, categoryId: int)

  /** The form starts from the product being edited, or empty. */
  function InitialFields(product: Option<Product>, defaultCategoryId: Option<int>): (f: Fields)
    ensures product.None? ==> f.name == "" && f.price == "" && f.img == ""
    ensures product.Some? ==> f.name == product.value.name && f.price == product.value.price && f.img == product.value.img
  {
    match product
    case None => Fields("", "", "", InitialCategoryId(product, defaultCategoryId))
    case Some(p) => Fields(p.name, p.price, p.img, InitialCategoryId(product, defaultCategoryId))
  }

  /** What the parent's `onSuccess` receives: `None` stands for the call without an argument. */
  datatype Outcome = MissingFields | SaveFailed | Saved(onSuccess: Option<Product>)

  /**
   * `handleSubmit`: a blank name or price stops with an alert; otherwise the
   * product `{ id: product?.id || 0, ...fields }` is written with
   * `updateProduct` in edit mode and `addProduct` otherwise, and passed to
   * `onSuccess`; a write reporting failure shows "Error saving product!".
   */
  function HandleSubmit(db: Db, product: Option<Product>, fields: Fields): (r: (Db, Outcome))
    ensures IsBlank(fields.name) || IsBlank(fields.price) ==> r == (db, MissingFields)
    ensures !IsBlank(fields.name) && !IsBlank(fields.price) ==>
              r.1 == Saved(Some(Product(if product.Some? then product.value.id else 0,
                                        fields.name, fields.price, fields.img, fields.categoryId)))
  {
    if IsBlank(fields.name) || IsBlank(fields.price) then (db, MissingFields)
    else
      var saved := Product(OrElse(if product.Some? then product.value.id else 0, 0),
                           fields.name, fields.price, fields.img, fields.categoryId);
      var written := if IsEdit(product) then UpdateProduct(db, saved) else AddProduct(db, saved);
      if written.1 then (written.0, Saved(Some(saved))) else (db, SaveFailed)
  }

  /** Edit mode rewrites all four fields of exactly the rows with that id. */
  lemma SubmitEditRewritesProduct(db: Db, p: Product, fields: Fields)
    requires p.id > 0 && !IsBlank(fields.name) && !IsBlank(fields.price)
    ensures var r := HandleSubmit(db, Some(p), fields).0;
            && r == db.(products := r.products) && |r.products| == |db.products|
            && forall i :: 0 <= i < |db.products| ==>
                 r.products[i] == if db.products[i].id == p.id
                                  then Product(p.id, fields.name, fields.price, fields.img, fields.categoryId)
                                  else db.products[i]
  {
  }

  /** Add mode ignores the id and appends one product under a fresh id. */
  lemma SubmitAddAppendsProduct(db: Db, product: Option<Product>, fields: Fields)
    requires !IsEdit(product) && !IsBlank(fields.name) && !IsBlank(fields.price)
    ensures var r := HandleSubmit(db, product, fields).0;
            && r == db.(products := r.products, productSeq := r.productSeq)
            && |r.products| == |db.products| + 1
            && r.products[..|db.products|] == db.products
            && r.products[|db.products|] == Product(r.productSeq, fields.name, fields.price, fields.img, fields.categoryId)
            && !HasRowWithKey(db.products, ProductKey, r.productSeq)
  {
  }

  /** Cancel calls `onSuccess()` with no product. */
  function Cancel(): (r: Outcome)
    ensures r.Saved? && r.onSuccess.None?
  {
    Saved(None)
  }
}

=== FILE: products_by_category_screen.dfy ===
/**
 * `components/FinalAppProject/User/ProductsByCategoryScreen.tsx`: the category
 * view and the price-range filter.
 *
 * `Number(...)` is the parameter `number`: a partial map from text to a
 * comparable value, `None` standing for NaN. Every comparison with NaN is false.
 */
module ProductsByCategoryScreen {
  import opened Wrappers
  import opened Seqs
  import opened Text
  import opened CakeSchema

  /** `route.params || { categoryId: 1 }`: the selected category when the screen opens. */
  function InitialCategory(params: Option<int>): (id: int)
    ensures params.Some? ==> id == params.value
    ensures params.None? ==> id == 1
  {
    params.GetOr(1)
  }

  function InCategory(categoryId: int): (p: Product -> bool)
    ensures forall x :: p(x) == (x.categoryId == categoryId)
  {
    (x: Product) => x.categoryId == categoryId
  }

  /** `allProducts.filter(p => p.categoryId === selectedCategoryId)`. */
  function CategoryView(products: seq<Product>, categoryId: int): (r: seq<Product>)
    ensures forall i :: 0 <= i < |r| ==> r[i].categoryId == categoryId
    ensures IsSubsequence(r, products)
  {
    FilterIsSubsequence(products, InCategory(categoryId));
    Filter(products, InCategory(categoryId))
  }

  /** The screen: selected category, the two bound inputs and the products shown. */
  datatype View = View(selected: int, minPrice: string, maxPrice: string, shown: seq<Product>)

  /** The category effect: show the category's products and reset both bounds to `''`. */
  function SelectCategory(products: seq<Product>, categoryId: int): (v: View)
    ensures v.selected == categoryId && v.minPrice == "" && v.maxPrice == ""
    ensures forall p :: p in v.shown <==> p in products && p.categoryId == categoryId
  {
    FilterMembers(products, InCategory(categoryId));
    View(categoryId, "", "", CategoryView(products, categoryId))
  }

  /** `text.trim() === '' ? null : Number(text.replace(/,/g, ''))`: `None` is no bound. */
  function Bound(text: string, number: string -> Option<real>): (b: Option<Option<real>>)
    ensures b.None? <==> IsBlank(text)
  {
    if IsBlank(text) then None else Some(number(RemoveCommas(text)))
  }

  /** The numeric price of a product, `Number(p.price.replace(/,/g, ''))`. */
  function PriceOf(p: Product, number: string -> Option<real>): Option<real> {
    number(RemoveCommas(p.price))
  }

  /** `Number(price) >= min` (`atLeast`) or `Number(price) <= max`: false whenever either side is NaN. */
  function Compares(number: string -> Option<real>, limit: Option<real>, atLeast: bool): (keep: Product -> bool)
    ensures forall p :: keep(p) == (PriceOf(p, number).Some? && limit.Some? &&
                                    if atLeast then PriceOf(p, number).value >= limit.value
                                    else PriceOf(p, number).value <= limit.value)
  {
    (p: Product) => var v := PriceOf(p, number);
                    v.Some? && limit.Some? && if atLeast then v.value >= limit.value else v.value <= limit.value
  }

  /** Apply a bound when it is set. */
  function ApplyBound(products: seq<Product>, bound: Option<Option<real>>, number: string -> Option<real>, atLeast: bool): (r: seq<Product>)
    ensures bound.None? ==> r == products
    ensures |r| <= |products|
  {
    match bound
    case None => products
    case Some(limit) => Filter(products, Compares(number, limit, atLeast))
  }

  /** A product passes a bound: there is none, or its price is a number on the right side of it. */
  ghost predicate WithinBound(p: Product, bound: Option<Option<real>>, number: string -> Option<real>, atLeast: bool) {
    bound.None? || Compares(number, bound.value, atLeast)(p)
  }

  /** `handleFilterPress`: the category's products, then the lower bound, then the upper bound. */
  function PriceFilter(products: seq<Product>, categoryId: int, minPrice: string, maxPrice: string,
                       number: string -> Option<real>): (r: seq<Product>)
    ensures IsBlank(minPrice) && IsBlank(maxPrice) ==> r == CategoryView(products, categoryId)
    ensures |r| <= |CategoryView(products, categoryId)|
  {
    var view := CategoryView(products, categoryId);
    var afterMin := ApplyBound(view, Bound(minPrice, number), number, true);
    ApplyBound(afterMin, Bound(maxPrice, number), number, false)
  }

  /** Filtering by a bound keeps exactly the members that pass it. */
  lemma ApplyBoundMembers(products: seq<Product>, bound: Option<Option<real>>, number: string -> Option<real>, atLeast: bool)
    ensures forall p :: p in ApplyBound(products, bound, number, atLeast) <==>
                        p in products && WithinBound(p, bound, number, atLeast)
  {
    if bound.Some? {
      FilterMembers(products, Compares(number, bound.value, atLeast));
    }
  }

  /**
   * The filter keeps exactly the category's products that pass both set
   * bounds; in particular a product whose price is NaN is dropped as soon as
   * either bound is set.
   */
  lemma PriceFilterMembers(products: seq<Product>, categoryId: int, minPrice: string, maxPrice: string,
                           number: string -> Option<real>, p: Product)
    ensures p in PriceFilter(products, categoryId, minPrice, maxPrice, number) <==>
            && p in products && p.categoryId == categoryId
            && WithinBound(p, Bound(minPrice, number), number, true)
            && WithinBound(p, Bound(maxPrice, number), number, false)
  {
    var view := CategoryView(products, categoryId);
    FilterMembers(products, InCategory(categoryId));
    ApplyBoundMembers(view, Bound(minPrice, number), number, true);
    var afterMin := ApplyBound(view, Bound(minPrice, number), number, true);
    ApplyBoundMembers(afterMin, Bound(maxPrice, number), number, false);
  }

  /** A NaN price never survives a set bound. */
  lemma NaNPriceExcluded(products: seq<Product>, categoryId: int, minPrice: string, maxPrice: string,
                         number: string -> Option<real>, p: Product)
    requires PriceOf(p, number).None?
    requires !IsBlank(minPrice) || !IsBlank(maxPrice)
    ensures p !in PriceFilter(products, categoryId, minPrice, maxPrice, number)
  {
    PriceFilterMembers(products, categoryId, minPrice, maxPrice, number, p);
  }

  /** The result keeps the category view's order: it is a subsequence of it. */
  lemma PriceFilterIsSubsequence(products: seq<Product>, categoryId: int, minPrice: string, maxPrice: string,
                                 number: string -> Option<real>)
    ensures IsSubsequence(PriceFilter(products, categoryId, minPrice, maxPrice, number), CategoryView(products, categoryId))
  {
    var view := CategoryView(products, categoryId);
    var minBound := Bound(minPrice, number);
    var afterMin := ApplyBound(view, minBound, number, true);
    var maxBound := Bound(maxPrice, number);
    if minBound.Some? && maxBound.Some? {
      var both := (p: Product) => Compares(number, minBound.value, true)(p) && Compares(number, maxBound.value, false)(p);
      FilterFilter(view, Compares(number, minBound.value, true), Compares(number, maxBound.value, false), both);
      FilterIsSubsequence(view, both);
    } else if minBound.Some? {
      FilterIsSubsequence(view, Compares(number, minBound.value, true));
    } else if maxBound.Some? {
      FilterIsSubsequence(view, Compares(number, maxBound.value, false));
    } else {
      SubsequenceReflexive(view);
    }
  }

  lemma {:induction false} SubsequenceReflexive(xs: seq<Product>)
    ensures IsSubsequence(xs, xs)
    decreases |xs|
  {
    if |xs| > 0 {
      SubsequenceReflexive(xs[1..]);
    }
  }

  /** With both bounds blank (as after choosing a category), the filter shows the whole category. */
  lemma BlankBoundsShowCategory(products: seq<Product>, categoryId: int, minPrice: string, maxPrice: string,
                                number: string -> Option<real>)
    requires IsBlank(minPrice) && IsBlank(maxPrice)
    ensures PriceFilter(products, categoryId, minPrice, maxPrice, number) == CategoryView(products, categoryId)
    ensures PriceFilter(products, categoryId, minPrice, maxPrice, number) == SelectCategory(products, categoryId).shown
  {
  }
}

=== FILE: profile_screen.dfy ===
/**
 * `components/FinalAppProject/User/ProfileScreen.tsx`: loading the session
 * user's row, editing it and `handleSave`.
 */
module ProfileScreen {
  import opened Wrappers
  import opened Text
  import opened CakeSchema
  import opened CakeCatalog

  /** `load`: the row `getUserById` returns for the session's id, or nothing. */
  function LoadProfile(db: Db, session: Option<User>): (r: Option<User>)
    ensures session.None? ==> r.None?
    ensures r.Some? ==> r.value in db.users && r.value.id == session.value.id
    ensures session.Some? ==> (r.Some? <==> HasRowWithKey(db.users, UserKey, session.value.id))
  {
    match session
    case None => None
    case Some(s) => GetUserById(db, s.id)
  }

  /** The two text inputs edit only the username and the password of the loaded row. */
  function EditProfile(loaded: User, username: string, password: string): (u: User)
    ensures u.id == loaded.id && u.role == loaded.role
    ensures u.username == username && u.password == password
  {
    loaded.(username := username, password := password)
  }

  datatype Message = NoMessage | FillAllFields | ProfileUpdated

  /**
   * `handleSave`: nothing without a loaded row; a blank username or password
   * stops with an alert; otherwise `updateUser(user)` runs and "updated" is
   * shown whatever it returned.
   */
  function HandleSave(db: Db, loaded: Option<User>): (r: (Db, Message))
    ensures loaded.None? ==> r == (db, NoMessage)
    ensures loaded.Some? && (IsBlank(loaded.value.username) || IsBlank(loaded.value.password)) ==> r == (db, FillAllFields)
    ensures loaded.Some? && !IsBlank(loaded.value.username) && !IsBlank(loaded.value.password) ==>
              r.1 == ProfileUpdated && r.0 == UpdateUser(db, loaded.value).0
  {
    match loaded
    case None => (db, NoMessage)
    case Some(u) =>
      if IsBlank(u.username) || IsBlank(u.password) then (db, FillAllFields)
      else (UpdateUser(db, u).0, ProfileUpdated)
  }

  /**
   * Saving an edit of the session user's row rewrites that row (username and
   * password from the form, role unchanged) and no other row.
   */
  lemma SaveRewritesOnlyOwnRow(db: Db, session: Option<User>, username: string, password: string)
    requires LoadProfile(db, session).Some?
    requires !IsBlank(username) && !IsBlank(password)
    requires !UpdateUserConflicts(db.users, EditProfile(LoadProfile(db, session).value, username, password))
    ensures var stored := LoadProfile(db, session).value;
            var r := HandleSave(db, Some(EditProfile(stored, username, password))).0;
            && |r.users| == |db.users|
            && forall i :: 0 <= i < |db.users| ==>
                 if db.users[i].id == stored.id
                 then r.users[i] == User(stored.id, username, password, stored.role)
                 else r.users[i] == db.users[i]
  {
  }

  /** A username another row already has makes `updateUser` fail, yet the screen still says "updated". */
  lemma UpdatedShownOnConflict(db: Db, loaded: User)
    requires !IsBlank(loaded.username) && !IsBlank(loaded.password)
    requires UpdateUserConflicts(db.users, loaded)
    ensures HandleSave(db, Some(loaded)) == (db, ProfileUpdated)
  {
  }

  /** Saving keeps the store invariant. */
  lemma SavePreservesWellFormed(db: Db, loaded: Option<User>)
    requires WellFormed(db)
    ensures WellFormed(HandleSave(db, loaded).0)
  {
    if loaded.Some? {
      UpdateUserPreservesWellFormed(db, loaded.value);
    }
  }
}

=== FILE: seqs.dfy ===
/**
 * Sequence operations that play the role of SQL statements over a table held
 * as a sequence of rows in storage order:
 * `SELECT ... WHERE` / `DELETE ... WHERE` are `Filter`, `UPDATE ... WHERE` is
 * `MapWhere`, and a JavaScript `Array.prototype.find` is `FindFirst`.
 */
module Seqs {
  import opened Wrappers

  /** The elements of `xs` that satisfy `keep`, in their original order. */
  function Filter<T(==,!new)>(xs: seq<T>, keep: T -> bool): (r: seq<T>)
    ensures |r| <= |xs|
    ensures forall i :: 0 <= i < |r| ==> keep(r[i])
  {
    if |xs| == 0 then []
    else if keep(xs[0]) then [xs[0]] + Filter(xs[1..], keep)
    else Filter(xs[1..], keep)
  }

  /**
   * The members of a filter's result are exactly the members of its input that
   * satisfy the predicate. Kept as a lemma rather than a postcondition of
   * `Filter`, so that proofs about tables pay for it only where they use it.
   */
  lemma {:induction false} FilterMembers<T(!new)>(xs: seq<T>, keep: T -> bool)
    ensures forall x :: x in Filter(xs, keep) <==> x in xs && keep(x)
    decreases |xs|
  {
    if |xs| != 0 {
      FilterMembers(xs[1..], keep);
      assert xs == [xs[0]] + xs[1..];
    }
  }

  /** Every element that satisfies `hit` is replaced by `f` of it; the rest are kept. */
  function MapWhere<T>(xs: seq<T>, hit: T -> bool, f: T -> T): (r: seq<T>)
    ensures |r| == |xs|
    ensures forall i :: 0 <= i < |xs| ==> r[i] == if hit(xs[i]) then f(xs[i]) else xs[i]
  {
    seq(|xs|, i requires 0 <= i < |xs| => if hit(xs[i]) then f(xs[i]) else xs[i])
  }

  /** The first element satisfying `p`, as `find` returns it. */
  function FindFirst<T>(xs: seq<T>, p: T -> bool): (r: Option<T>)
    ensures r.Some? <==> exists i :: 0 <= i < |xs| && p(xs[i])
    ensures r.Some? ==> exists i :: 0 <= i < |xs| && r.value == xs[i] && p(xs[i])
                                      && forall j :: 0 <= j < i ==> !p(xs[j])
  {
    if |xs| == 0 then None
    else if p(xs[0]) then Some(xs[0])
    else
      var r := FindFirst(xs[1..], p);
      assert forall j :: 1 <= j < |xs| ==> xs[j] == xs[1..][j - 1];
      r
  }

  /** `a` is `b` with some elements left out, the rest in the same order. */
  predicate IsSubsequence<T(==)>(a: seq<T>, b: seq<T>)
    decreases |b|
  {
    if |a| == 0 then true
    else if |b| == 0 then false
    else if a[0] == b[0] then IsSubsequence(a[1..], b[1..])
    else IsSubsequence(a, b[1..])
  }

  /** Removing the element at index `k` (`filter((_, i) => i !== k)`). */
  function RemoveAt<T>(xs: seq<T>, k: int): (r: seq<T>)
    ensures 0 <= k < |xs| ==> |r| == |xs| - 1
    ensures 0 <= k < |xs| ==> forall i :: 0 <= i < k ==> r[i] == xs[i]
    ensures 0 <= k < |xs| ==> forall i :: k <= i < |r| ==> r[i] == xs[i + 1]
    ensures !(0 <= k < |xs|) ==> r == xs
  {
    if 0 <= k < |xs| then xs[..k] + xs[k + 1..] else xs
  }

  lemma {:induction false} FilterAppend<T(!new)>(xs: seq<T>, ys: seq<T>, keep: T -> bool)
    ensures Filter(xs + ys, keep) == Filter(xs, keep) + Filter(ys, keep)
    decreases |xs|
  {
    if |xs| == 0 {
      assert xs + ys == ys;
    } else {
      assert (xs + ys)[1..] == xs[1..] + ys;
      FilterAppend(xs[1..], ys, keep);
    }
  }

  /** Filtering by `q` after filtering by `p` is filtering by their conjunction `pq`. */
  lemma {:induction false} FilterFilter<T(!new)>(xs: seq<T>, p: T -> bool, q: T -> bool, pq: T -> bool)
    requires forall x :: pq(x) == (p(x) && q(x))
    ensures Filter(Filter(xs, p), q) == Filter(xs, pq)
    decreases |xs|
  {
    if |xs| != 0 {
      FilterFilter(xs[1..], p, q, pq);
    }
  }

  /** Two filters that agree on every element of `xs` select the same elements. */
  lemma {:induction false} FilterCongruent<T(!new)>(xs: seq<T>, p: T -> bool, q: T -> bool)
    requires forall i :: 0 <= i < |xs| ==> p(xs[i]) == q(xs[i])
    ensures Filter(xs, p) == Filter(xs, q)
    decreases |xs|
  {
    if |xs| != 0 {
      assert forall i :: 0 <= i < |xs[1..]| ==> xs[1..][i] == xs[i + 1];
      FilterCongruent(xs[1..], p, q);
    }
  }

  /** The head of a filter is the first element of the input that satisfies the predicate. */
  lemma {:induction false} FilterFirst<T(!new)>(xs: seq<T>, keep: T -> bool, i: int)
    requires 0 <= i < |xs| && keep(xs[i])
    requires forall j :: 0 <= j < i ==> !keep(xs[j])
    ensures |Filter(xs, keep)| > 0 && Filter(xs, keep)[0] == xs[i]
    decreases i
  {
    if i > 0 {
      assert !keep(xs[0]);
      assert forall j :: 0 <= j < i - 1 ==> xs[1..][j] == xs[j + 1];
      FilterFirst(xs[1..], keep, i - 1);
    }
  }

  /** A filter that keeps everything is the identity. */
  lemma {:induction false} FilterAll<T(!new)>(xs: seq<T>, keep: T -> bool)
    requires forall i :: 0 <= i < |xs| ==> keep(xs[i])
    ensures Filter(xs, keep) == xs
    decreases |xs|
  {
    if |xs| != 0 {
      assert forall i :: 0 <= i < |xs[1..]| ==> xs[1..][i] == xs[i + 1];
      FilterAll(xs[1..], keep);
      assert [xs[0]] + xs[1..] == xs;
    }
  }

  /** An update that touches no selected element does not change the selection. */
  lemma {:induction false} FilterMapWhereOutside<T(!new)>(xs: seq<T>, hit: T -> bool, f: T -> T, keep: T -> bool)
    requires forall i :: 0 <= i < |xs| && hit(xs[i]) ==> !keep(xs[i]) && !keep(f(xs[i]))
    ensures Filter(MapWhere(xs, hit, f), keep) == Filter(xs, keep)
    decreases |xs|
  {
    if |xs| != 0 {
      var m := MapWhere(xs, hit, f);
      assert m[1..] == MapWhere(xs[1..], hit, f);
      FilterMapWhereOutside(xs[1..], hit, f, keep);
    }
  }

  /** An update that preserves selection commutes with the selection. */
  lemma {:induction false} FilterMapWhereInside<T(!new)>(xs: seq<T>, hit: T -> bool, f: T -> T, keep: T -> bool)
    requires forall i :: 0 <= i < |xs| && hit(xs[i]) ==> keep(f(xs[i])) == keep(xs[i])
    ensures Filter(MapWhere(xs, hit, f), keep) == MapWhere(Filter(xs, keep), hit, f)
    decreases |xs|
  {
    if |xs| != 0 {
      var m := MapWhere(xs, hit, f);
      assert m[1..] == MapWhere(xs[1..], hit, f);
      FilterMapWhereInside(xs[1..], hit, f, keep);
    }
  }

  /** A filter's result is a subsequence of its input. */
  lemma {:induction false} FilterIsSubsequence<T(!new)>(xs: seq<T>, keep: T -> bool)
    ensures IsSubsequence(Filter(xs, keep), xs)
    decreases |xs|
  {
    if |xs| != 0 {
      FilterIsSubsequence(xs[1..], keep);
    }
  }

  /** Filtering by a stronger predicate selects a subsequence of filtering by a weaker one. */
  lemma {:induction false} FilterStrongerIsSubsequence<T(!new)>(xs: seq<T>, strong: T -> bool, weak: T -> bool)
    requires forall x :: strong(x) ==> weak(x)
    ensures IsSubsequence(Filter(xs, strong), Filter(xs, weak))
    decreases |xs|
  {
    if |xs| != 0 {
      FilterStrongerIsSubsequence(xs[1..], strong, weak);
      var a := Filter(xs, strong);
      var b := Filter(xs, weak);
      if strong(xs[0]) {
        assert a[0] == b[0] && a[1..] == Filter(xs[1..], strong) && b[1..] == Filter(xs[1..], weak);
      } else if weak(xs[0]) {
        assert b[1..] == Filter(xs[1..], weak);
        SubsequenceOfTail(a, b);
      }
    }
  }

  /** A subsequence of the tail of `b` is a subsequence of `b`. */
  lemma {:induction false} SubsequenceOfTail<T>(a: seq<T>, b: seq<T>)
    requires |b| > 0 && IsSubsequence(a, b[1..])
    ensures IsSubsequence(a, b)
    decreases |a| + |b|
  {
    if |a| != 0 && a[0] == b[0] {
      SubsequenceDropHead(a, b[1..]);
    }
  }

  /** Dropping the head of a subsequence keeps it a subsequence. */
  lemma {:induction false} SubsequenceDropHead<T>(a: seq<T>, b: seq<T>)
    requires |a| > 0 && IsSubsequence(a, b)
    ensures IsSubsequence(a[1..], b)
    decreases |a| + |b|
  {
    if |b| != 0 {
      if a[0] == b[0] {
        if |a[1..]| != 0 {
          SubsequenceOfTail(a[1..], b);
        }
      } else {
        SubsequenceDropHead(a, b[1..]);
        SubsequenceOfTail(a[1..], b);
      }
    }
  }
}

=== FILE: signup_screen.dfy ===
/** `components/FinalAppProject/SignupSqlite.tsx`: `handleSignup`. */
module SignupScreen {
  import opened CakeSchema
  import opened CakeCatalog

  datatype Outcome = FillAllFields | ConfirmMismatch | Created | NameTaken

  /** The store, the confirmation field after the alert's "OK", and the message. */
  datatype SignupResult = SignupResult(db: Db, confirm: string, outcome: Outcome)

  /** Every account made here gets this role. */
  const SignupRole: string := "user"

  /**
   * `handleSignup`: all three fields must be non-empty, the password must equal
   * the confirmation (else the confirmation is cleared), then `addUser` with
   * role `'user'`, which fails on a taken username.
   */
  function HandleSignup(db: Db, username: string, password: string, confirm: string): (r: SignupResult)
    ensures r.outcome == FillAllFields <==> username == "" || password == "" || confirm == ""
    ensures r.outcome == ConfirmMismatch <==> username != "" && password != "" && confirm != "" && password != confirm
    ensures r.outcome == Created <==>
              username != "" && password != "" && password == confirm && !UsernameTaken(db.users, username)
    ensures r.outcome != Created ==> r.db == db
    ensures r.outcome == Created ==> r.db.users == db.users + [User(r.db.userSeq, username, password, SignupRole)]
    ensures r.confirm == if r.outcome == ConfirmMismatch then "" else confirm
  {
    if username == "" || password == "" || confirm == "" then SignupResult(db, confirm, FillAllFields)
    else if password != confirm then SignupResult(db, "", ConfirmMismatch)
    else
      var added := AddUser(db, username, password, SignupRole);
      if added.1 then SignupResult(added.0, confirm, Created) else SignupResult(db, confirm, NameTaken)
  }

  /** Signing up keeps the store invariant, and every user it adds has role `'user'`. */
  lemma SignupPreservesWellFormed(db: Db, username: string, password: string, confirm: string)
    requires WellFormed(db)
    ensures WellFormed(HandleSignup(db, username, password, confirm).db)
    ensures forall u :: u in HandleSignup(db, username, password, confirm).db.users && u !in db.users ==> u.role == SignupRole
  {
    AddUserPreservesWellFormed(db, username, password, SignupRole);
  }

  /** Signing up twice with the same name: the second attempt reports the name as taken and changes nothing. */
  lemma SecondSignupRejected(db: Db, username: string, password: string)
    requires username != "" && password != ""
    requires HandleSignup(db, username, password, password).outcome == Created
    ensures var d := HandleSignup(db, username, password, password).db;
            HandleSignup(d, username, password, password) == SignupResult(d, password, NameTaken)
  {
    var d := HandleSignup(db, username, password, password).db;
    assert d.users[|db.users|].username == username;
  }
}

=== FILE: text.dfy ===
/**
 * The string primitives the screens use: `trim`, the regular-expression class
 * `\s`, `\d`, `replace(/,/g, '')`, `toLowerCase` and `includes`.
 */
module Text {
  import Seqs

  /**
   * ECMAScript WhiteSpace and LineTerminator code points: what `trim()` strips
   * and what the regular-expression class `\s` matches.
   */
  function IsWhiteSpace(c: char): (b: bool)
    ensures c as int < 0x80 ==> (b <==> c in " \t\n\r\U{B}\U{C}")
  {
    || c == ' ' || c == '\t' || c == '\n' || c == '\r'
    || c == '\U{B}' || c == '\U{C}' || c == '\U{A0}' || c == '\U{1680}'
    || ('\U{2000}' <= c <= '\U{200A}')
    || c == '\U{2028}' || c == '\U{2029}' || c == '\U{202F}' || c == '\U{205F}'
    || c == '\U{3000}' || c == '\U{FEFF}'
  }

  /** The regular-expression class `\d` and the decimal digits of `parseInt`. */
  predicate IsDigit(c: char) {
    '0' <= c <= '9'
  }

  /** `trimStart()`: drops the leading white space and nothing else. */
  function TrimStart(s: string): (r: string)
    ensures |r| <= |s| && r == s[|s| - |r|..]
    ensures forall i :: 0 <= i < |s| - |r| ==> IsWhiteSpace(s[i])
    ensures |r| > 0 ==> !IsWhiteSpace(r[0])
  {
    if |s| > 0 && IsWhiteSpace(s[0]) then TrimStart(s[1..]) else s
  }

  /** `trimEnd()`: drops the trailing white space and nothing else. */
  function TrimEnd(s: string): (r: string)
    ensures |r| <= |s| && r == s[..|r|]
    ensures forall i :: |r| <= i < |s| ==> IsWhiteSpace(s[i])
    ensures |r| > 0 ==> !IsWhiteSpace(r[|r| - 1])
  {
    if |s| > 0 && IsWhiteSpace(s[|s| - 1]) then TrimEnd(s[..|s| - 1]) else s
  }

  /** `trim()`. */
  function Trim(s: string): (t: string)
    ensures |t| <= |s|
    ensures |t| > 0 ==> !IsWhiteSpace(t[0]) && !IsWhiteSpace(t[|t| - 1])
    ensures |s| > 0 && !IsWhiteSpace(s[0]) && !IsWhiteSpace(s[|s| - 1]) ==> t == s
    ensures (exists i :: 0 <= i < |s| && !IsWhiteSpace(s[i])) ==> |t| > 0
  {
    TrimEnd(TrimStart(s))
  }

  /** A leading space does not survive `trim()`. */
  lemma TrimDropsLeadingSpace(s: string)
    ensures Trim(" " + s) == Trim(s)
  {
    assert (" " + s)[1..] == s;
    assert TrimStart(" " + s) == TrimStart(s);
  }

  /** `!s.trim()`: the text is empty once trimmed. */
  predicate IsBlank(s: string) {
    |Trim(s)| == 0
  }

  /** A text is blank exactly when every character of it is white space. */
  lemma BlankIffAllWhiteSpace(s: string)
    ensures IsBlank(s) <==> forall i :: 0 <= i < |s| ==> IsWhiteSpace(s[i])
  {
  }

  /** `replace(/,/g, '')`: every comma removed, everything else kept in order. */
  function RemoveCommas(s: string): (r: string)
    ensures |r| <= |s|
    ensures forall i :: 0 <= i < |r| ==> r[i] != ','
  {
    Seqs.Filter(s, NotComma)
  }

  /** Every character other than a comma survives `replace(/,/g, '')`. */
  lemma RemoveCommasMembers(s: string)
    ensures ',' !in RemoveCommas(s)
    ensures forall c :: c != ',' ==> (c in RemoveCommas(s) <==> c in s)
  {
    Seqs.FilterMembers(s, NotComma);
  }

  function NotComma(c: char): bool {
    c != ','
  }

  /** `replace(/,/g, '')` works piece by piece: removing commas from a concatenation concatenates the results. */
  lemma RemoveCommasAppend(a: string, b: string)
    ensures RemoveCommas(a + b) == RemoveCommas(a) + RemoveCommas(b)
  {
    Seqs.FilterAppend(a, b, NotComma);
  }

  /** On one character `replace(/,/g, '')` drops a comma and keeps anything else. */
  lemma RemoveCommasChar(c: char)
    ensures RemoveCommas([c]) == if c == ',' then [] else [c]
  {
  }

  /** A text without commas is left unchanged. */
  lemma RemoveCommasWithoutComma(s: string)
    requires ',' !in s
    ensures RemoveCommas(s) == s
  {
    Seqs.FilterAll(s, NotComma);
  }

  /** `toLowerCase` restricted to the ASCII letters. */
  function LowerChar(c: char): char {
    if 'A' <= c <= 'Z' then (c as int + 32) as char else c
  }

  function ToLower(s: string): (r: string)
    ensures |r| == |s|
    ensures forall i :: 0 <= i < |s| ==> r[i] == LowerChar(s[i])
  {
    seq(|s|, i requires 0 <= i < |s| => LowerChar(s[i]))
  }

  /** `s.includes(part)`: `part` occurs somewhere in `s`. */
  function Contains(s: string, part: string): (b: bool)
    ensures b ==> |part| <= |s|
    ensures part <= s ==> b
    ensures |part| <= |s| && s[|s| - |part|..] == part ==> b
  {
    assert s[0..] == s;
    exists i :: 0 <= i <= |s| - |part| && part <= s[i..]
  }

  /** The empty string occurs in every string. */
  lemma EmptyContained(s: string)
    ensures Contains(s, "")
  {
    assert "" <= s[0..];
  }

  /** The number of decimal digits in `s`: the length of `s.replace(/\D/g, '')`. */
  function DigitCount(s: string): (n: nat)
    ensures n <= |s|
  {
    |Seqs.Filter(s, IsDigit)|
  }

  /** The digits of a concatenation are the digits of its two parts. */
  lemma DigitCountAppend(a: string, b: string)
    ensures DigitCount(a + b) == DigitCount(a) + DigitCount(b)
  {
    Seqs.FilterAppend(a, b, IsDigit);
  }

  /** One character counts once when it is a digit and not at all otherwise. */
  lemma DigitCountChar(c: char)
    ensures DigitCount([c]) == if IsDigit(c) then 1 else 0
  {
  }
}

=== FILE: ui.dfy ===
/**
 * Where a screen handler sends the user. Navigation itself is not modelled:
 * a handler returns the target and its parameters.
 */
module Ui {
  import opened CakeCart

  datatype Route =
    | ProductsByCategory(categoryId: int, categoryName: string)
    | AdminHome
    | MainHome
    | LoginScreen
    | SuccessScreen(items: seq<CartItem>, total: int, address: string, phone: string, paymentMethod: string)
}

=== FILE: user_management_screen.dfy ===
/**
 * `components/FinalAppProject/Admin/UserManagementScreen.tsx`: the role tabs,
 * role toggling and deleting users.
 */
module UserManagementScreen {
  import opened Seqs
  import opened CakeSchema
  import opened CakeCatalog

  /** `user.role === 'user' ? 'admin' : 'user'`. */
  function ToggleRole(role: string): (r: string)
    ensures role == "user" ==> r == "admin"
    ensures role != "user" ==> r == "user"
  {
    if role == "user" then "admin" else "user"
  }

  /** Toggling twice gives back `'user'` and `'admin'`; any other role is first turned into `'user'`. */
  lemma ToggleRoleInvolution(role: string)
    ensures role == "user" || role == "admin" ==> ToggleRole(ToggleRole(role)) == role
    ensures role != "user" && role != "admin" ==> ToggleRole(ToggleRole(role)) == "admin"
  {
  }

  /** `users.filter(u => u.role === selectedTab)`. */
  function VisibleUsers(users: seq<User>, tab: string): (r: seq<User>)
    ensures forall u :: u in r <==> u in users && u.role == tab
    ensures IsSubsequence(r, users)
  {
    var shown := (u: User) => u.role == tab;
    FilterMembers(users, shown);
    FilterIsSubsequence(users, shown);
    Filter(users, shown)
  }

  /** The tab shown when the screen opens. */
  const InitialTab: string := "user"

  /**
   * `handleToggleRole(user)`: `updateUser` with only the role changed; the
   * tab switches to the new role whether or not the update succeeded.
   */
  function HandleToggleRole(db: Db, user: User): (r: (Db, string))
    ensures r.1 == ToggleRole(user.role)
    ensures r.0 == UpdateUser(db, user.(role := ToggleRole(user.role))).0
  {
    var newRole := ToggleRole(user.role);
    (UpdateUser(db, user.(role := newRole)).0, newRole)
  }

  /** Toggling a stored user changes that row's role and nothing else, and the row shows up under the new tab. */
  lemma ToggleChangesOnlyRole(db: Db, i: int)
    requires WellFormed(db)
    requires 0 <= i < |db.users|
    ensures var r := HandleToggleRole(db, db.users[i]);
            && |r.0.users| == |db.users|
            && r.0.users[i] == db.users[i].(role := ToggleRole(db.users[i].role))
            && (forall j :: 0 <= j < |db.users| && j != i ==> r.0.users[j] == db.users[j])
            && r.0.users[i] in VisibleUsers(r.0.users, r.1)
  {
    var u := db.users[i].(role := ToggleRole(db.users[i].role));
    assert !UpdateUserConflicts(db.users, u);
  }

  /** `handleDelete(id)`: `deleteUser(id)` only after "Delete" is pressed. */
  function HandleDelete(db: Db, id: int, confirmDelete: bool): (r: Db)
    ensures !confirmDelete ==> r == db
    ensures confirmDelete ==> forall u :: u in r.users <==> u in db.users && u.id != id
    ensures r == db.(users := r.users)
  {
    if confirmDelete then DeleteUser(db, id).0 else db
  }
}

=== FILE: wrappers.dfy ===
/** Optional values: the model's stand-in for `null`, `undefined` and NaN. */
module Wrappers {

  datatype Option<+T> = None | Some(value: T) {

    /** The wrapped value, or `default` when there is none. */
    function GetOr(default: T): T {
      match this
      case Some(v) => v
      case None => default
    }
  }
}
